=== FILE: README.md ===
# build-your-own-git in Dafny

A model of the core of `build-your-own-git`, a Go reimplementation of git's local storage layer and of the commands built on it. The model covers:

- **object framing and hashing**: `<kind> <len>\0<content>`, the blob, tree and commit objects, and the commit's zone offset;
- **the index codec**:
  - `Entry.ToBytes` and `WriteIndex` (the version-2 writer);
  - `ReadIndex` / `readEntry`, covering version 2/3 paths, version-4 prefix-compressed paths with their varint strip count, and the extension loop;
  - the `TREE` cache-tree extension parser;
- **`UpdateIndex`**: builds the entry for a freshly hashed file, upserts it into the current index and writes the result;
- **`WriteTree`**: the three loops that group index entries into trees, link subtrees into their parents and assemble the root;
- **`TreeObject.ToBytes` and `DeserializeTreeObject`**: the tree codec with git's "directories sort as `name/`" rule;
- **`CatFileExtractKind`**: reads the object kind from a frame header;
- **`Status`**: classifies each path as untracked, changed, deleted or staged, and labels the staged and unstaged changes;
- **the Myers line diff** (`myersDiff`, `buildEdits`, `countLines`) and the uncoloured branch of `HighlightLineDiff`;
- **`parseReceivePack`**: the parser of a push's ref advertisement.

Conventions:

- Bytes are `seq<byte>`.
- Go panics and `log.Fatal` exits become `Err`/`None` results, never preconditions.
- SHA-1 is a function parameter `sha: Bytes -> Digest`.
- The order in which Go visits a map is an explicit parameter. The properties that do not depend on it are proved for every order.

The modules follow the Go packages:

| module | file | what it holds |
|---|---|---|
| `Types` | types.dfy | `Entry`, `TreeEntry`, `TreeObject`, `Entry.ToBytes`, `TreeObject.ToBytes` |
| `Utils` | utils.dfy | `ReadVarInt`, the mode helpers, `GetHeadBranch`, the object hashes, `GetCommitHashObject`, `GetSlicePosition` |
| `IndexDecoder` | readindex.dfy | `readEntry`, `parseCacheTreeExtension`, `ReadIndex` |
| `IndexUpdate` | updateindex.dfy | `UpdateIndex`, `WriteIndex` |
| `CatFile` | catfile.dfy | `CatFileExtractKind`, `DeserializeTreeObject` |
| `WriteTree` | writetree.dfy | `WriteTree` |
| `Status` | status.dfy | `Status`, `extractCommitTreeHash` |
| `Diff` | diff.dfy | `myersDiff`, `buildEdits`, `countLines`, `explodeString` |
| `Push` | push.dfy | `parseReceivePack` |
| `Bytes`, `Sorting`, `FilePath`, `Enumeration`, `Layout`, `Wrappers` | | byte strings, `strconv`, the sort, `path/filepath`, map orders, concatenated encodings, `Option`/`Result` |

The model follows the code, including where it departs from git's own index and tree formats:

- **Tree order.** As in git, a directory `foo` is compared as `foo/`, so the file `foo.bar` ('.' is 0x2E) sorts before it (`Types.TreeOrderExample`).
- **Tree depth.** Git writes trees of any depth. The code links a subtree only when its parent directory holds a file of its own at the top level, and drops subtrees three or more levels deep (`WriteTree.DeepSubtreeDropped`). A nested directory whose cleaned name contains a slash keeps only the last file filed under it (`WriteTree.NestedKeepsLast`).
- **Version-4 paths.** In git's version-4 index, an entry's path is the previous entry's path with `N` bytes removed from its end and the entry's NUL-terminated suffix appended. The code computes that path but keeps it only as the base for the next entry, and gives the entry itself an empty path (`IndexDecoder.V4EntryPath`).
- **Upsert.** Git keeps index entries sorted by path, with each path once per stage. The code only sorts, so the result ascends strictly when the prior paths were distinct (`IndexUpdate.UpsertStrictlySorted`). The upsert also drops every prior entry that shares the new entry's hash, whatever its path (`IndexUpdate.UpsertDropsSameHash`).
- **Strip-count varint.** The code reads it least significant group first. Git's version-4 index writes `N` in its offset encoding, most significant group first, so the two disagree on multi-byte counts (`Utils.VarIntIsLittleEndian`).

## Model

| member | source | states |
|---|---|---|
| Types.FrameSplitsAtFirstNul | pkg/utils/main.go:169-177 | the object header `<kind> <len>` has no NUL when the kind has none, so the first NUL ends it and everything after it is the content |
| Types.FrameRoundTrip | pkg/utils/main.go:158-177 | a framed object parses back to its kind, its declared length and its content, for any kind free of space and NUL |
| Types.Padding | pkg/types/main.go:119-123 | the zero padding is shorter than 8 bytes and brings the entry length to a multiple of 8 |
| Types.EntryToBytes | pkg/types/main.go:85-126 | an encoded entry is 62 fixed bytes, the path, a NUL and padding: its length is a multiple of 8 |
| Types.EntryLayout | pkg/types/main.go:88-123 | where each field of the encoding sits: ten big-endian stat words, the mode word at bytes 24-28 with 4 type bits over 9 permission bits, the SHA-1 at 40-60, the saturated name length at 60-62, then the path, a NUL and zero bytes |
| Types.TreeObjectToBytes | pkg/types/main.go:128-166 | the receiver's entries end up a permutation of themselves, in tree order, and the bytes are the frame `tree <len>\0` around the records in that order |
| Types.TreeBytesCanonical | pkg/types/main.go:132-159 | the serialised tree does not depend on the order its entries came in, as long as no two different entries share a sort key |
| Types.DottedBeforeSlash | pkg/types/main.go:136-149 | `foo.bar` orders before `foo/` |
| Types.TreeOrderExample | pkg/types/main.go:136-149 | a file `foo` precedes a file `foo.bar`, which precedes a directory `foo`; sorting `[dir foo, foo.bar]` swaps them |
| Types.SortExample | pkg/types/main.go:136-149 | two entries whose sort keys are out of order are swapped |
| Types.ShortDirModeHasNoSuffix | pkg/types/main.go:141-146 | only the exact mode `040000` adds the `/`: an entry with mode `40000` sorts by its bare name |
| Utils.ReadVarIntFrom | pkg/utils/main.go:17-30 | the loop fails (the index panics) exactly when no byte from `offset` on is below 0x80; otherwise it stops right after the first such byte, having passed only continuation bytes |
| Utils.ReadVarIntFromValue | pkg/utils/main.go:17-30 | the value is the accumulated result plus the 7-bit groups read, weighted from the current shift, modulo 2^64 |
| Utils.ReadVarInt | pkg/utils/main.go:17-30 | `ReadVarInt` fails exactly when no terminating byte follows `offset`; otherwise it stops at the first byte without the continuation bit |
| Utils.ReadVarIntIsLoop | pkg/utils/main.go:17-30 | `ReadVarInt` is the source loop started with result 0 and shift 0 |
| Utils.EncodeVarInt | pkg/utils/main.go:17-30 | the encoding is non-empty and its groups denote the value |
| Utils.ReadEncodeVarInt | pkg/utils/main.go:17-30 | any value below 2^64 reads back from its encoding, stopping right after it, whatever follows |
| Utils.EncodeVarIntShape | pkg/utils/main.go:23-27 | every group of an encoding but the last carries the continuation bit |
| Utils.VarIntIsLittleEndian | pkg/utils/main.go:17-30 | `80 01` reads as 128 and `80 00` as 0 (least significant group first); `FF FF` has no end |
| Utils.Perm | pkg/utils/main.go:33 | the permission bits are below 0o1000 |
| Utils.GitModeFromGoMode | pkg/utils/main.go:32-45 | the type is 0b1000 exactly for regular files, 0b1010 exactly for non-regular symlinks, else 0b1110; the permissions are the nine low bits |
| Utils.TreeModeString | pkg/utils/main.go:47-59 | `040000` exactly for directories, `120000` exactly for non-directory symlinks, `100755` exactly for other modes with an execute bit, else `100644` |
| Utils.ModeStringToKind | pkg/utils/main.go:61-70 | the kind is `tree` exactly for `040000` and `40000`, `blob` exactly for `100644`, `100755` and `120000`, and `unknown` for every other mode |
| Utils.ShortTreeModeSortsAsFile | pkg/types/main.go:141-146 | the short mode `40000` names a tree, yet the tree serialiser sorts it by its bare name, while `040000` sorts as the name with `/` |
| Utils.TreeModeKind | pkg/utils/main.go:47-70 | every mode `TreeModeString` writes has a known kind, and it is `tree` exactly for directories |
| Utils.ModeTranslationsAgree | pkg/utils/main.go:32-59 | a regular file gets a blob mode, and a non-directory symlink gets `120000`, in both translations |
| Utils.IndexModeAsFileMode | pkg/utils/main.go:47-59 | a 16-bit index mode word read as an `os.FileMode` always gives `100644` or `100755` |
| Utils.GetHeadBranch | pkg/utils/main.go:72-79 | panics exactly when HEAD is shorter than `ref: refs/heads/`; otherwise it gives the newline-free prefix of the rest that ends at the first newline |
| Utils.HeadBranchOfRef | pkg/utils/main.go:72-79 | a symbolic HEAD `ref: refs/heads/<branch>\n...` gives back the branch |
| Utils.HashObject | pkg/utils/main.go:158-177 | the framed object is the content behind its header, its hash is the SHA-1 of the frame, and the frame parses back |
| Utils.ZoneOffset | pkg/utils/main.go:183-186 | the zone is at least five bytes and starts with a sign, which is `-` exactly when the offset is an hour or more west of Greenwich |
| Utils.ZoneOffsetDigits | pkg/utils/main.go:183-186 | an offset under a hundred hours is a sign and four digits with minutes under 60, and reads back as the offset's whole minutes, except that an offset less than an hour west reads back with the opposite sign |
| Utils.ZoneOffsetIntended | pkg/utils/main.go:183-186 | corrected, the sign is `-` exactly when the offset is negative |
| Utils.ZoneOffsetIntendedDigits | pkg/utils/main.go:183-186 | corrected, every offset under a hundred hours reads back as its whole minutes, sign included |
| Utils.ZoneSignOnly | pkg/utils/main.go:184-186 | less than an hour west of Greenwich, the zone as written is the corrected zone with its sign byte turned to `+` |
| Utils.ZoneOffsetIntendedAgrees | pkg/utils/main.go:183-186 | the correction changes the zone exactly for offsets less than an hour west of Greenwich |
| Utils.ZoneOffsetWholeHours | pkg/utils/main.go:183-186 | -10800 seconds is written `-0300` |
| Utils.ZoneOffsetWithMinutes | pkg/utils/main.go:183-186 | 19800 seconds is written `+0530` |
| Utils.ZoneOffsetWestWithMinutes | pkg/utils/main.go:183-186 | -12600 seconds is written `-0330`: the minutes lose their sign |
| Utils.ZoneOffsetLosesSignUnderAnHour | pkg/utils/main.go:183-186 | -1800 seconds has 0 hours and is written `+0030` |
| Utils.GetCommitHashObject | pkg/utils/main.go:179-206 | the hash is the SHA-1 of the frame, whose content after the first NUL is the commit body: tree line, optional parent, author, committer, blank line, messages |
| Utils.CommitBodyLines | pkg/utils/main.go:190-196 | the first body line is `tree <hex>`, and the second starts with `parent ` exactly when there is a parent |
| Utils.GetSlicePosition | pkg/utils/main.go:225-234 | -1 exactly when the element is absent; otherwise the last index holding it |
| IndexDecoder.ReadPath | pkg/commands/read-index.go:150-185 | version 2/3 leaves the offset 8-aligned from the entry start and the base path alone; version 4 gives an empty path |
| IndexDecoder.ReadEntry | pkg/commands/read-index.go:82-210 | a decoded entry spans at least 62 bytes, carries the SHA-1 at bytes 40-60, fields within their widths, and an empty path in version 4; before version 4 the base path is unchanged; without the extended flag, skip-worktree, intent-to-add and future are clear |
| IndexDecoder.DecodeEntry | pkg/commands/read-index.go:104-148 | the type field has 4 bits, the permissions 9, the name length 12 and the stage 2 |
| IndexDecoder.DecodeFlagFields | pkg/commands/read-index.go:128-148 | for any flag values, assume-valid is bit 15 of the flags word, extended bit 14, the stage bits 12-13 and the name length bits 0-11; future is bit 15 of the extended word, skip-worktree bit 14 and intent-to-add bit 13, whatever the low 13 bits hold |
| IndexDecoder.DecodeEncoded | pkg/commands/read-index.go:86-134 | decoding the words `Entry.ToBytes` wrote gives the entry with its type and permissions masked, the saturated name length and no flags |
| IndexDecoder.FixedPartRoundTrip | pkg/commands/read-index.go:86-123 | the fixed 62-byte part of an encoded entry reads back as its stat words, its SHA-1 and its flags word |
| IndexDecoder.PathRoundTrip | pkg/commands/read-index.go:150-170 | the path of a version-2 encoding reads back, and the offset lands after the padding |
| IndexDecoder.EntryRoundTrip | pkg/commands/read-index.go:82-210 | a version-2 entry reads back from its own encoding, wherever it sits, with the offset moved past its padding; a path of 0xFFF bytes or more must be free of NUL |
| IndexDecoder.V4PathRead | pkg/commands/read-index.go:171-185 | a version-4 path drops `strip` bytes from the previous path and appends the NUL-terminated suffix; only the base of the next entry changes, and no padding is skipped |
| IndexDecoder.V4EntryPath | pkg/commands/read-index.go:136-185 | a version-4 entry without the extended flag decodes with an empty path and the reconstructed path as the next base |
| IndexDecoder.V4PathIgnoresNameLength | pkg/commands/read-index.go:171-185 | the version-4 branch does not look at the name-length field |
| IndexDecoder.ReadField | pkg/commands/read-index.go:216-227 | a field is the run before the first separator, which it does not contain |
| IndexDecoder.ParseRecord | pkg/commands/read-index.go:216-273 | one record consumes bytes and has a NUL-free path and an object id exactly when its entry count is not negative |
| IndexDecoder.ParseCacheTree | pkg/commands/read-index.go:212-277 | every record returned has that shape |
| IndexDecoder.RecordParse | pkg/commands/read-index.go:216-273 | a well-formed record, followed by anything, parses back to itself and leaves exactly what followed |
| IndexDecoder.CacheTreeRoundTrip | pkg/commands/read-index.go:212-277 | records written one after another parse back to themselves |
| IndexDecoder.CacheTreeErrors | pkg/commands/read-index.go:216-240 | a missing NUL, a missing space and a non-numeric entry count each give their own error |
| IndexDecoder.CacheTreeSubtreeErrors | pkg/commands/read-index.go:242-262 | after a good entry count, a missing newline, a non-numeric subtree count and an object id under 20 bytes with a non-negative entry count each give their own error |
| IndexDecoder.ReadEntries | pkg/commands/read-index.go:43-47 | the entry loop returns exactly `count` entries and moves at least 62 bytes per entry |
| IndexDecoder.ReadExtensions | pkg/commands/read-index.go:49-66 | every extension kept has the signature `TREE` |
| IndexDecoder.ReadIndex | pkg/commands/read-index.go:17-80 | a missing or short file is the empty index; otherwise the signature, version and count come from the header, there are `count` entries, and the mismatch flag is set exactly when the trailing 20 bytes are not the SHA-1 of the rest |
| IndexUpdate.NewEntry | pkg/commands/update-index.go:26-52 | the new entry's mode word is 4 type bits over the permission bits of the stat mode, its name length is the path length modulo 2^16, it has no flags, and it carries the path and the hash |
| IndexUpdate.NewEntryIsNormal | pkg/commands/update-index.go:26-52 | a new entry with a path under 0xFFF bytes survives writing and reading unchanged |
| IndexUpdate.KeepOthers | pkg/commands/update-index.go:55-59 | the loop keeps only prior entries with another hash and another path, and keeps every such entry |
| IndexUpdate.KeepOthersCounts | pkg/commands/update-index.go:55-59 | each surviving entry is kept as often as it occurs, and a dropped one never |
| IndexUpdate.UpsertContents | pkg/commands/update-index.go:54-63 | the result holds the new entry and every prior entry with another hash and another path, in their multiplicities, and no other prior entry; it is sorted by path |
| IndexUpdate.UpsertDropsSameHash | pkg/commands/update-index.go:56 | a prior entry with the new entry's hash is dropped even when it is staged under another path |
| IndexUpdate.UpsertStrictlySorted | pkg/commands/update-index.go:54-63 | when the prior paths are distinct, the upserted paths ascend strictly |
| IndexUpdate.KeepOthersDistinct | pkg/commands/update-index.go:55-59 | filtering keeps paths distinct |
| IndexUpdate.EntriesBytes | pkg/commands/update-index.go:83-86 | the entries' bytes are a multiple of 8 long |
| IndexUpdate.WriteIndex | pkg/commands/update-index.go:69-93 | the file starts `DIRC`, version 2, the entry count modulo 2^32, is 8-aligned and at least 32 bytes, and ends with the SHA-1 of everything before it |
| IndexUpdate.EntriesRoundTrip | pkg/commands/update-index.go:83-86 | consecutive entry encodings are read back by the entry loop as the normalised entries, ending right after them |
| IndexUpdate.WriteIndexReadBack | pkg/commands/update-index.go:69-93 | a written header and entries followed by any 20 bytes read back as a version-2 index of the normalised entries with no extensions; the flag is set exactly when those bytes are not the SHA-1 |
| IndexUpdate.WriteIndexRoundTrip | pkg/commands/update-index.go:69-93 | reading back what `WriteIndex` wrote gives the entries, normalised, with a valid checksum |
| IndexUpdate.WriteIndexLength | pkg/commands/update-index.go:78-89 | the written index is the 12-byte header, the entries and the 20-byte checksum |
| IndexUpdate.UpdateIndex | pkg/commands/update-index.go:17-67 | an index is written exactly when the current index reads |
| IndexUpdate.UpdateIndexReadBack | pkg/commands/update-index.go:17-67 | whatever the current index holds, the written index reads back as version 2 with a valid checksum and the upserted entries, normalised; those hold the new entry, are sorted by path, and are the new entry plus the kept prior entries as a multiset |
| IndexUpdate.FirstUpdate | pkg/commands/update-index.go:17-67 | staging the first file writes an index that reads back as holding just that entry |
| CatFile.CatFileExtractKind | pkg/commands/cat-file.go:60-76 | the kind is the first run of non-space bytes: it holds no space, and it is empty exactly when every byte is a space |
| CatFile.FirstWordShape | pkg/commands/cat-file.go:60-76 | the first word holds no space, and is empty exactly when every byte is one |
| CatFile.KindOfFrame | pkg/commands/cat-file.go:60-76 | the kind of a framed object is read back from its header |
| CatFile.ScanTreeHeader | pkg/commands/cat-file.go:103-110 | a header scans only when it starts with `tree` and a blank |
| CatFile.ScanTreeHeaderOfFrame | pkg/commands/cat-file.go:103-110 | the header `TreeObject.ToBytes` writes scans back to the body length |
| CatFile.ParseTreeEntry | pkg/commands/cat-file.go:115-148 | one entry consumes at least one byte and is well formed: a space-free mode, a NUL-free name and a 20-byte hash |
| CatFile.ParseTreeEntries | pkg/commands/cat-file.go:114-149 | every entry parsed is well formed |
| CatFile.DeserializeTreeObject | pkg/commands/cat-file.go:97-152 | data without a NUL is an error, and every entry of a result is well formed |
| CatFile.EntryParse | pkg/commands/cat-file.go:115-148 | a well-formed entry's record, followed by anything, parses back to the entry and ends where the record ends |
| CatFile.TreeBodyRoundTrip | pkg/commands/cat-file.go:114-149 | well-formed entries written one after another parse back to themselves |
| CatFile.ParsedBodyIsRecords | pkg/commands/cat-file.go:114-149 | a body that parses is exactly its entries' records in order: nothing is skipped or reordered |
| CatFile.EmptyTreeBody | pkg/commands/cat-file.go:97-152 | an empty body after a good header gives a tree without entries |
| CatFile.DeserializeFrame | pkg/commands/cat-file.go:97-152 | a framed tree whose body parses deserializes to that body's entries |
| CatFile.DeserializeToBytes | pkg/commands/cat-file.go:97-152 | deserializing `t.ToBytes()` gives back `t` as `ToBytes` left it, entries in tree order |
| WriteTree.Classify | pkg/commands/write-tree.go:37-50 | an entry that is not nested is keyed by a base name: `/` or free of slashes |
| WriteTree.Group | pkg/commands/write-tree.go:36-51 | every key of `trees` is a base name |
| WriteTree.LinkWith | pkg/commands/write-tree.go:53-65 | linking creates no tree and removes none |
| WriteTree.RootPathShape | pkg/commands/write-tree.go:37-50 | a path without a slash is filed under `.` by its whole path |
| WriteTree.TopDirShape | pkg/commands/write-tree.go:37-50 | a path `d/f` is filed under `d` as `f` and is not nested |
| WriteTree.NestedShape | pkg/commands/write-tree.go:37-43 | a path two or more directories deep is nested under its cleaned directory, whose parent and base are its leading elements and its last element |
| WriteTree.FileEntryMode | pkg/commands/write-tree.go:43-49 | every file is written as `100644` or `100755` |
| WriteTree.GroupKeepsFiling | pkg/commands/write-tree.go:44-50 | a file that is not nested stays in the list of its key |
| WriteTree.NestedKeepsLast | pkg/commands/write-tree.go:38-43 | a nested key that contains a slash (other than `/` itself) is never a key of `trees`, so its list is reset each time and keeps only the last file filed under it |
| WriteTree.LinkWithContents | pkg/commands/write-tree.go:53-65 | each existing tree gets, in visiting order, the links of exactly the subtrees whose parent it is |
| WriteTree.LinkWithPermutation | pkg/commands/write-tree.go:53-65 | another visiting order gives each tree the same entries |
| WriteTree.LinkWithProvenance | pkg/commands/write-tree.go:53-65 | every entry of a linked tree is one of its own files or the link of a visited subtree whose parent it is |
| WriteTree.DeepSubtreeDropped | pkg/commands/write-tree.go:53-65 | a subtree three or more directories deep has a parent that is never a tree, so it is linked nowhere |
| WriteTree.RootFileKept | pkg/commands/write-tree.go:67-80 | a file at the root is an entry of the root tree under its own name |
| WriteTree.TopDirLinked | pkg/commands/write-tree.go:67-80 | a file `d/f` is in the tree `d`, and the root links that tree as `040000 d` with the hash of its serialisation |
| WriteTree.SecondLevelLinked | pkg/commands/write-tree.go:36-65 | when `a` is a tree, the last file `a/b/f` filed under `a/b` makes that subtree hold it alone, and `a` links it as `040000 b` |
| WriteTree.WriteTreeOrderIndependent | pkg/commands/write-tree.go:15-94 | the root hash does not depend on the order either map is visited in, as long as no tree holds two different entries with the same sort key |
| Status.IndexHashesKeys | pkg/commands/status.go:28-31 | a path is in the index map exactly when some entry has it |
| Status.IndexHashesLast | pkg/commands/status.go:28-31 | the index map holds the hex hash of the last entry for a path |
| Status.ClassifyMembers | pkg/commands/status.go:46-75 | untracked, changed, deleted and staged each hold exactly the paths the source's conditions pick, in either direction |
| Status.Status | pkg/commands/status.go:16-162 | the staged and unstaged lists are sorted by path |
| Status.StagedLabels | pkg/commands/status.go:85-129 | `new file` means on disk and in the index but not in HEAD; `deleted` means in HEAD only; `modified` means everywhere with an index hash unlike HEAD's |
| Status.UnstagedLabels | pkg/commands/status.go:131-150 | unstaged `deleted` means in HEAD and the index but not on disk; `modified` means on disk with a hash unlike the index's; no other label |
| Status.NothingToCommit | pkg/commands/status.go:81-83 | "nothing to commit" is printed exactly when disk, index and HEAD agree |
| Status.CleanAgrees | pkg/commands/status.go:81-83 | four empty lists imply agreement |
| Status.AgreeClean | pkg/commands/status.go:81-83 | agreement implies four empty lists |
| Status.ClassifyPermutation | pkg/commands/status.go:46-75 | both loops build the same lists, up to order, whatever order the maps are visited in |
| Status.StatusOrderIndependent | pkg/commands/status.go:16-162 | the report does not depend on the map order, except for the order of the untracked files |
| Status.ExtractCommitTreeHashIs | pkg/commands/status.go:179-187 | the hash is the last space-separated field of the first line after the first NUL; empty when there is no NUL |
| Status.CommitTreeHashRoundTrip | pkg/commands/status.go:179-187 | the tree hash read from a commit `GetCommitHashObject` built is the hex of the tree it was built with |
| Diff.HunkLengths | pkg/commands/diff.go:170-181 | `countLines` gives 0 and the number of old lines, new lines or changes of the script |
| Diff.NoChangesAllEqual | pkg/commands/diff.go:166-168 | a script without inserts or deletes is all equal lines, one per old line |
| Diff.HighlightLineDiffPlain | pkg/commands/diff.go:197-200 | with highlighting off, the old line is behind `- ` and the new line behind `+ `, unchanged |
| Diff.ExplodeString | pkg/commands/diff.go:232-239 | one single-rune piece per rune, in order |
| Diff.ExplodeFlatten | pkg/commands/diff.go:232-239 | joining the pieces gives the runes back |
| Diff.Snake | pkg/commands/diff.go:266-269 | a snake moves only within the grid |
| Diff.SnakeMatches | pkg/commands/diff.go:266-269 | every step of a snake matches an old line with a new one |
| Diff.Furthest | pkg/commands/diff.go:248-277 | round `d` reaches at least as far as `d` plain moves |
| Diff.FurthestStep | pkg/commands/diff.go:258-262 | each round gets further right on the next diagonal up, and as far on the next one down |
| Diff.FirstTerminalIsCorner | pkg/commands/diff.go:274-276 | the first round to reach beyond both ends reaches exactly the corner |
| Diff.ReachedByMax | pkg/commands/diff.go:243-248 | the corner is reached by round `N + M` at the latest |
| Diff.PrependEquals | pkg/commands/diff.go:299-303 | prepending a snake's equal lines keeps the script turning the remaining old lines into the remaining new ones |
| Diff.PrependChange | pkg/commands/diff.go:305-311 | the insert or delete before a snake keeps that, with one change more |
| Diff.BacktrackRound | pkg/commands/diff.go:287-312 | one round walks back to round `d - 1`'s point with exactly one change more |
| Diff.PrependPrefix | pkg/commands/diff.go:314-319 | the common prefix completes a script from the old text to the new one |
| Diff.BuildEdits | pkg/commands/diff.go:283-321 | `buildEdits` from the corner of round `D` gives a well-kinded script from the old text to the new one with exactly `D` changes |
| Diff.Choose | pkg/commands/diff.go:251-262 | round `d` starts from the neighbour that got further; both neighbouring diagonals are then recorded, a missing one as `-1 << 31`, every earlier entry of `v` is kept and no other diagonal is added |
| Diff.FollowSnake | pkg/commands/diff.go:266-269 | the loop stops where the snake ends |
| Diff.Visit | pkg/commands/diff.go:250-272 | round `d` records the furthest point on diagonal `k` in both `v` and `paths`, and changes nothing else |
| Diff.SearchRound | pkg/commands/diff.go:248-277 | a round either finds the corner or records itself and did not reach it |
| Diff.MyersDiff | pkg/commands/diff.go:241-281 | the script turns the old lines into the new ones; its number of changes is the first round that reaches the corner, at most `N + M`; identical texts give all equal lines |
| Push.RefOf | pkg/commands/push.go:179-181 | the ref holds no NUL and no space |
| Push.ParseReceivePack | pkg/commands/push.go:158-191 | no result only for a reply under 4 bytes or one with a negative length; a hash has 40 bytes; the ref holds no NUL or space; the zero hash gives `refs/heads/main` |
| Push.ParsePktLength | pkg/commands/push.go:161-162 | four hex digits of a length parse back to it |
| Push.AdvertisementRead | pkg/commands/push.go:158-191 | an advertisement with a non-zero object id gives back that id and the ref named after it |
| Push.ZeroHashMeansMain | pkg/commands/push.go:183-186 | an all-zero object id gives `refs/heads/main` whatever the ref |
| Push.SignedLengthAccepted | pkg/commands/push.go:161-176 | a length of `-001` is accepted and puts the object id at offset 7 |
| Push.NegativeLengthPanics | pkg/commands/push.go:161-176 | a length below -8 points before the reply: the slice panics |
| Push.ZeroLengthGivesNothing | pkg/commands/push.go:161-165 | a zero length gives up on the reply |
| Push.EmptyRepositoryAsWritten | pkg/commands/push.go:183-186 | as written, an empty repository's textual zero id yields the pseudo-ref `capabilities^{}` |
| Push.ParseReceivePackIntended | pkg/commands/push.go:158-191 | the parser compared with the textual zero id: the zero id gives `refs/heads/main` |
| Push.EmptyRepositoryIntended | pkg/commands/push.go:183-186 | corrected, an empty repository's reply names `refs/heads/main` |
| Sorting.SortBy | pkg/commands/update-index.go:61-63 | the sort gives a permutation of its input, sorted by the key |
| Sorting.SortByCanonical | pkg/types/main.go:132-149 | sorting gives the same list for any order of the same elements when the key determines the element |
| FilePath.SplitFile | pkg/commands/write-tree.go:37 | `filepath.Split`: the file part is slash-free and the directory part followed by it is the path |
| FilePath.Base | pkg/commands/write-tree.go:38 | the base is non-empty and either `/` or slash-free |
| FilePath.CleanJoin | pkg/commands/write-tree.go:38-45 | a path of normal elements is already clean |

## Left out

- WriteTree.NestedKeepsLast: says nothing about a nested key without a slash. A directory with a `..` element can clean to a base name already in `trees`: the entries `a/g` and then `a/b/../f` nest `f` under `a`, whose list is then not reset and keeps both files. The lemma covers only keys containing a slash.
- Object storage is not modelled: `SaveHashedObject` (zlib compression and writing under `.git/objects`), `CatFileReadObject` (reading and inflating), `CatFile` (printing), and the `os.Create`/`os.ReadFile` calls. SHA-1 is a parameter and zlib is not modelled.
- I/O that is not modelled: the index file (`ReadIndex` takes its content, `None` when it cannot be opened), `.git/HEAD` (`GetHeadBranch` takes its bytes), `os.Stat` (`IndexUpdate.NewEntry` takes a `StatInfo`), and `time.Now` (`GetCommitHashObject` takes the timestamp and zone).
- GetHeadHash, GetDirTree, CheckGitRepo, IsTerminal: file-system walks and terminal checks. Status takes their results: the head map, the working tree's contents and the visiting orders.
- Status: `ReadHead` and `ExtractTreeHashs` are not modelled. The HEAD tree's path-to-hash map is a parameter, because building it needs the object store. The printing and colouring of `Status` are reduced to the report's lists and labels.
- IndexDecoder.ReadEntry, IndexDecoder.ReadPath, IndexDecoder.ReadExtensions: a slice that reads past the end of the index content is `Err(OutOfRange)`. In Go, `content[a:b]` with `b` beyond `len` but within the spare capacity `io.ReadAll` leaves returns bytes instead of panicking. The model treats the content as having no spare capacity.
- Push.ParseReceivePack: a reply shorter than 4 bytes is `None`, for the same reason: Go's slice may read into spare capacity.
- Sorting.SortBy: `sort.Slice` is not stable, and the model uses a stable insertion sort. The two agree whenever no two different elements share a key, which is the premise of every order-independence lemma here.
- Types.TreeObjectToBytes: the two consecutive `sort.Slice` calls are modelled as the second alone. The first only orders ties of the second, which an unstable sort does not preserve anyway.
- Utils.ReadVarInt: the `offset` pointer is not modelled. The function returns the next offset.
- Utils.GetCommitHashObject: the author name and e-mail are the source's constants. `GetHeadHash` becomes the `parent` parameter, empty for none.
- CatFile.ScanTreeHeader: `fmt.Sscanf`'s space handling is modelled for ASCII blanks only. Unicode spaces are not modelled.
- CatFile.DeserializeTreeObject: the declared size is scanned but, as in the source, never compared with the body.
- FilePath.Clean, FilePath.Base, FilePath.Dir: Unix paths only. Volume names are not modelled.
- Diff.ExplodeString: takes the line's runes. UTF-8 decoding of the Go string is not modelled.
- Diff: the coloured branch of `HighlightLineDiff`, `printHunks`, `PrintDiff`, `Diff` and `fileExists` are presentation and file reading, and are not modelled.
- Diff.IsChange: a two-line predicate with no contract of its own. It is used by `Changes`, which the script lemmas count.
- Diff.MyersDiff: the script's number of changes is proved to be the first round that reaches the corner. That this is the minimum over all edit scripts is not proved.
- Push: `Push`, `walkTreeEntries` and `walkCommitTree` are not modelled. They are HTTP negotiation and pack upload, which need the network and the object store.
- `slog` debug logging (`WriteTree`'s extension dump, `UpdateIndex`'s buffer dump) is not modelled. The `-d` flag only turns it on.
- The command-line entry points (app/main.go, add.go, commit.go, init.go, hash-object.go) are not part of this model.

## Findings

| source | as written | input that shows it | evidently intended | confidence | as-written member | corrected member |
|---|---|---|---|---|---|---|
| pkg/commands/push.go:183-186 | the object id is compared with `make([]byte, 40)`, forty 0x00 bytes | the advertisement of an empty repository, whose first line holds the textual id `0000000000000000000000000000000000000000` followed by ` capabilities^{}`; the parser returns the ref `capabilities^{}` | the textual zero id, forty ASCII '0' digits, stands for "no branch yet" and yields `refs/heads/main` | not executed | Push.EmptyRepositoryAsWritten | Push.ParseReceivePackIntended, Push.EmptyRepositoryIntended |
| pkg/utils/main.go:184-186 | the hours are printed with `%+03d`, which takes the sign from the hours alone, and the minutes are made absolute | an offset of -1800 seconds, half an hour west of Greenwich: the hours are 0 and the zone is written `+0030` | the zone carries the sign of the whole offset, `-0030`, as git writes it | not executed | Utils.ZoneOffsetLosesSignUnderAnHour | Utils.ZoneOffsetIntended, Utils.ZoneOffsetIntendedDigits |

The commit signature (`Utils.Signature`) keeps the zone as written, since the commit hash depends on the bytes the code writes; `Utils.ZoneOffsetIntendedAgrees` bounds the difference to offsets less than an hour west of Greenwich.

=== FILE: bytes.dfy ===
/** Byte strings and the fixed-width, decimal and hexadecimal encodings the
    repository writes into them. Go `[]byte` and `string` values are both
    `Bytes` here: Go compares and slices strings byte by byte. */
module Bytes {
  import opened Wrappers

  type byte = b: int | 0 <= b < 0x100
  type Bytes = seq<byte>
  type u8 = n: int | 0 <= n < 0x100
  type u16 = n: int | 0 <= n < 0x1_0000
  type u32 = n: int | 0 <= n < 0x1_0000_0000

  /** A 20-byte SHA-1 digest. */
  type Digest = s: Bytes | |s| == 20
    witness [0, 0, 0, 0, 0, 0, 0, 0, 0, 0, 0, 0, 0, 0, 0, 0, 0, 0, 0, 0]

  const NUL: byte := 0
  const LF: byte := 10
  const SP: byte := 32

  /** The bytes of an ASCII literal. */
  function Str(s: string): (r: Bytes)
    ensures |r| == |s|
  {
    seq(|s|, i requires 0 <= i < |s| => (s[i] as int) % 0x100)
  }

  function Zeros(n: nat): (r: Bytes)
    ensures |r| == n && forall i | 0 <= i < n :: r[i] == 0
  {
    seq(n, i => 0)
  }

  /** The concatenation of a list of byte strings. */
  function Concat(parts: seq<Bytes>): Bytes
  {
    if |parts| == 0 then [] else parts[0] + Concat(parts[1..])
  }

  // ---------------------------------------------------------------------------
  // Big-endian fixed-width integers (Go's encoding/binary.BigEndian)
  // ---------------------------------------------------------------------------

  function Be16(n: u16): (r: Bytes)
  {
    assert n / 0x100 < 0x100;
    [n / 0x100, n % 0x100]
  }

  function Be32(n: u32): (r: Bytes)
  {
    assert n / 0x100_0000 < 0x100;
    [n / 0x100_0000, n / 0x1_0000 % 0x100, n / 0x100 % 0x100, n % 0x100]
  }

  function Uint16(b: Bytes): u16
    requires |b| == 2
  {
    (b[0] as int) * 0x100 + b[1] as int
  }

  function Uint32(b: Bytes): u32
    requires |b| == 4
  {
    (((b[0] as int) * 0x100 + b[1] as int) * 0x100 + b[2] as int) * 0x100 + b[3] as int
  }

  lemma Be16RoundTrip(n: u16)
    ensures |Be16(n)| == 2 && Uint16(Be16(n)) == n
  {
  }

  lemma Be32RoundTrip(n: u32)
    ensures |Be32(n)| == 4 && Uint32(Be32(n)) == n
  {
    var b := Be32(n);
    assert (b[0] as int) * 0x100 + b[1] as int == n / 0x1_0000;
    assert ((b[0] as int) * 0x100 + b[1] as int) * 0x100 + b[2] as int == n / 0x100;
  }

  // ---------------------------------------------------------------------------
  // Digits, decimal formatting and strconv.ParseInt
  // ---------------------------------------------------------------------------

  /** The value of a digit byte in bases up to 36, as strconv reads it. */
  function DigitValue(c: byte): (d: nat)
  {
    if 48 <= c <= 57 then c - 48
    else if 97 <= c <= 122 then c - 97 + 10
    else if 65 <= c <= 90 then c - 65 + 10
    else 36
  }

  predicate IsDigitIn(c: byte, base: nat)
  {
    DigitValue(c) < base
  }

  predicate AllDigitsIn(s: Bytes, base: nat)
  {
    forall i | 0 <= i < |s| :: IsDigitIn(s[i], base)
  }

  /** `AllDigitsIn`, checked one byte at a time. */
  predicate DigitsOk(s: Bytes, base: nat)
    decreases |s|
  {
    |s| == 0 || (IsDigitIn(s[0], base) && DigitsOk(s[1..], base))
  }

  lemma {:induction false} DigitsOkIff(s: Bytes, base: nat)
    ensures DigitsOk(s, base) <==> AllDigitsIn(s, base)
    decreases |s|
  {
    if |s| > 0 {
      DigitsOkIff(s[1..], base);
      if AllDigitsIn(s[1..], base) && IsDigitIn(s[0], base) {
        forall i | 0 <= i < |s|
          ensures IsDigitIn(s[i], base)
        {
          if i > 0 {
            assert s[i] == s[1..][i - 1];
          }
        }
      }
    }
  }

  /** The number a run of digits denotes, most significant digit first. */
  function DigitsValue(s: Bytes, base: nat): nat
  {
    if |s| == 0 then 0 else DigitsValue(s[..|s| - 1], base) * base + DigitValue(s[|s| - 1])
  }

  /** `strconv.FormatUint(n, 10)`: decimal digits without leading zeros. */
  function Decimal(n: nat): (r: Bytes)
    ensures 1 <= |r|
    ensures AllDigitsIn(r, 10)
    decreases n
  {
    if n < 10 then [48 + n] else Decimal(n / 10) + [48 + n % 10]
  }

  /** Go's `%d` of a signed integer. */
  function FormatInt(i: int): Bytes
  {
    if i < 0 then [45] + Decimal(-i) else Decimal(i)
  }

  lemma {:induction false} DecimalValue(n: nat)
    ensures DigitsValue(Decimal(n), 10) == n
    decreases n
  {
    if n >= 10 {
      var s := Decimal(n);
      assert s[..|s| - 1] == Decimal(n / 10);
      DecimalValue(n / 10);
    }
  }

  const Int64Max: int := 0x7FFF_FFFF_FFFF_FFFF

  /** `strconv.ParseInt(s, base, 64)`: an optional sign, then at least one
      digit of `base`, the value within the signed 64-bit range. Any error
      (syntax or range) is `None`. */
  function ParseInt(s: Bytes, base: nat): (r: Option<int>)
    ensures r.Some? ==> -Int64Max - 1 <= r.value <= Int64Max
  {
    if |s| == 0 then None
    else
      var neg := s[0] == 45;
      var digits := if s[0] == 43 || s[0] == 45 then s[1..] else s;
      if |digits| == 0 || !DigitsOk(digits, base) then None
      else
        var u: int := DigitsValue(digits, base);
        if !neg && u > Int64Max then None
        else if neg && u > Int64Max + 1 then None
        else if neg then Some(-u) else Some(u)
  }

  lemma ParseFormatInt(i: int)
    requires -Int64Max - 1 <= i <= Int64Max
    ensures ParseInt(FormatInt(i), 10) == Some(i)
  {
    var s := FormatInt(i);
    if i < 0 {
      assert s[1..] == Decimal(-i);
      DecimalValue(-i);
      DigitsOkIff(Decimal(-i), 10);
    } else {
      DecimalValue(i);
      DigitsOkIff(Decimal(i), 10);
      assert DigitValue(s[0]) < 10;
    }
  }

  // ---------------------------------------------------------------------------
  // Lower-case hexadecimal (Go's `%x` of a byte slice)
  // ---------------------------------------------------------------------------

  function HexDigit(d: nat): byte
    requires d < 16
  {
    if d < 10 then 48 + d else 87 + d
  }

  function Hex(bs: Bytes): (r: Bytes)
    ensures |r| == 2 * |bs|
  {
    if |bs| == 0 then [] else [HexDigit(bs[0] / 16), HexDigit(bs[0] % 16)] + Hex(bs[1..])
  }

  lemma HexHasNoSeparators(bs: Bytes)
    ensures NUL !in Hex(bs) && LF !in Hex(bs) && SP !in Hex(bs)
  {
  }

  // ---------------------------------------------------------------------------
  // Searching and splitting (Go's bytes.IndexByte, strings.Split, strings.Join)
  // ---------------------------------------------------------------------------

  /** The first index at or after `i` holding `b`, or `|s|`: the scanning loop
      `for i < len(s) && s[i] != b { i++ }` the repository writes everywhere. */
  function Scan(s: Bytes, i: nat, b: byte): (r: nat)
    requires i <= |s|
    ensures i <= r <= |s|
    ensures forall j | i <= j < r :: s[j] != b
    ensures r < |s| ==> s[r] == b
    decreases |s| - i
  {
    if i == |s| || s[i] == b then i else Scan(s, i + 1, b)
  }

  /** Scanning finds the first `b` at or after `i`; any position with those
      two properties is the one `Scan` returns. */
  lemma ScanIs(s: Bytes, i: nat, b: byte, r: nat)
    requires i <= r <= |s|
    requires forall j | i <= j < r :: s[j] != b
    requires r < |s| ==> s[r] == b
    ensures Scan(s, i, b) == r
  {
  }

  /** The first index at or after `i` whose byte is not in `run`, or `|s|`. */
  function Span(s: Bytes, i: nat, run: set<byte>): (r: nat)
    requires i <= |s|
    ensures i <= r <= |s|
    ensures forall j | i <= j < r :: s[j] in run
    ensures r < |s| ==> s[r] !in run
    decreases |s| - i
  {
    if i == |s| || s[i] !in run then i else Span(s, i + 1, run)
  }

  /** Any position with the two properties of `Span` is the one it returns. */
  lemma {:induction false} SpanIs(s: Bytes, i: nat, run: set<byte>, r: nat)
    requires i <= r <= |s|
    requires forall j | i <= j < r :: s[j] in run
    requires r < |s| ==> s[r] !in run
    ensures Span(s, i, run) == r
    decreases r - i
  {
    if i < r {
      SpanIs(s, i + 1, run, r);
    }
  }

  /** `bytes.IndexByte`: the first index holding `b`, or -1. */
  function IndexOf(s: Bytes, b: byte): (r: int)
    ensures -1 <= r < |s|
    ensures 0 <= r ==> s[r] == b
    ensures forall j | 0 <= j < |s| && (r < 0 || j < r) :: s[j] != b
  {
    var i := Scan(s, 0, b);
    if i == |s| then -1 else i
  }

  /** `IndexOf` is -1 exactly when `b` does not occur. */
  lemma IndexOfAbsent(s: Bytes, b: byte)
    ensures IndexOf(s, b) == -1 <==> b !in s
  {
    if b in s {
      var k :| 0 <= k < |s| && s[k] == b;
    }
  }

  /** Any position holding `b` with no `b` before it is the first index of `b`. */
  lemma IndexOfIs(s: Bytes, b: byte, r: nat)
    requires r < |s| && s[r] == b
    requires forall j | 0 <= j < r :: s[j] != b
    ensures IndexOf(s, b) == r
  {
    ScanIs(s, 0, b, r);
  }

  /** The last index below `i` holding `b`, or -1. */
  function ScanBack(s: Bytes, i: nat, b: byte): (r: int)
    requires i <= |s|
    ensures -1 <= r < i
    ensures forall j | r < j < i :: s[j] != b
    ensures 0 <= r ==> s[r] == b
  {
    if i == 0 then -1 else if s[i - 1] == b then i - 1 else ScanBack(s, i - 1, b)
  }

  /** `strings.LastIndexByte`: the last index holding `b`, or -1. */
  function LastIndexOf(s: Bytes, b: byte): (r: int)
    ensures -1 <= r < |s|
    ensures forall j | r < j < |s| :: s[j] != b
    ensures 0 <= r ==> s[r] == b
  {
    ScanBack(s, |s|, b)
  }

  /** Whatever precedes the first `b` (all of `s` when there is none). */
  function BeforeFirst(s: Bytes, b: byte): Bytes
  {
    var i := IndexOf(s, b);
    if i < 0 then s else s[..i]
  }

  /** Whatever follows the first `b` (nothing when there is none). */
  function AfterFirst(s: Bytes, b: byte): Bytes
  {
    var i := IndexOf(s, b);
    if i < 0 then [] else s[i + 1..]
  }

  /** Splitting a line off at its terminator gives back the line and the rest. */
  lemma SplitFirstLine(line: Bytes, b: byte, rest: Bytes)
    requires b !in line
    ensures BeforeFirst(line + [b] + rest, b) == line
    ensures AfterFirst(line + [b] + rest, b) == rest
  {
    var s := line + [b] + rest;
    forall j | 0 <= j < |line| ensures s[j] != b { assert s[j] == line[j]; }
    IndexOfIs(s, b, |line|);
    assert s[..|line|] == line;
    assert s[|line| + 1..] == rest;
  }

  /** Whatever follows the last `b` (all of `s` when there is none). */
  function AfterLast(s: Bytes, b: byte): Bytes
  {
    s[LastIndexOf(s, b) + 1..]
  }

  /** `strings.Split(s, string(b))`. */
  function Split(s: Bytes, b: byte): (r: seq<Bytes>)
    ensures 1 <= |r|
    decreases |s|
  {
    var i := IndexOf(s, b);
    if i < 0 then [s] else [s[..i]] + Split(s[i + 1..], b)
  }

  /** A sequence is its elements before `i`, the one at `i`, and the rest. */
  lemma Around<T>(s: seq<T>, i: nat)
    requires i < |s|
    ensures s == s[..i] + [s[i]] + s[i + 1..]
  {
  }

  /** A sequence is its first `n` elements followed by the rest. */
  lemma TakeDrop<T>(s: seq<T>, n: nat)
    requires n <= |s|
    ensures s == s[..n] + s[n..]
  {
  }

  /** Dropping the head of a cons gives its tail. */
  lemma ConsTail<T>(x: T, s: seq<T>)
    ensures ([x] + s)[0] == x && ([x] + s)[1..] == s
  {
  }

  /** A non-empty sequence is its initial part and its last element. */
  lemma InitLast<T>(s: seq<T>)
    requires |s| > 0
    ensures s == s[..|s| - 1] + [s[|s| - 1]]
  {
  }

  /** `strings.Join(parts, string(b))`. */
  function Join(parts: seq<Bytes>, b: byte): Bytes
  {
    if |parts| == 0 then []
    else if |parts| == 1 then parts[0]
    else parts[0] + [b] + Join(parts[1..], b)
  }

  /** One field of a split, and the split of what follows its separator. */
  lemma SplitStep(s: Bytes, b: byte, i: nat)
    requires i == IndexOf(s, b)
    ensures Split(s, b) == [s[..i]] + Split(s[i + 1..], b)
  {
  }

  lemma JoinCons(x: Bytes, rest: seq<Bytes>, b: byte)
    requires |rest| >= 1
    ensures Join([x] + rest, b) == x + [b] + Join(rest, b)
  {
    assert ([x] + rest)[1..] == rest;
  }

  /** Splitting and joining again with the same separator gives back the input. */
  lemma {:induction false} JoinSplit(s: Bytes, b: byte)
    ensures Join(Split(s, b), b) == s
    decreases |s|
  {
    var i := IndexOf(s, b);
    if i >= 0 {
      var rest := s[i + 1..];
      SplitStep(s, b, i);
      JoinSplit(rest, b);
      JoinCons(s[..i], Split(rest, b), b);
      assert s == s[..i] + [b] + rest;
    }
  }

  /** The first field of a split is what precedes the first separator. */
  lemma SplitFirst(s: Bytes, b: byte)
    ensures Split(s, b)[0] == BeforeFirst(s, b)
  {
  }

  /** Dropping the first field and joining the rest gives what follows the
      first separator: Go's `strings.Join(strings.Split(s, sep)[1:], sep)`. */
  lemma SplitRestJoin(s: Bytes, b: byte)
    ensures Join(Split(s, b)[1..], b) == AfterFirst(s, b)
  {
    var i := IndexOf(s, b);
    if i >= 0 {
      SplitStep(s, b, i);
      assert Split(s, b)[1..] == Split(s[i + 1..], b);
      JoinSplit(s[i + 1..], b);
    }
  }

  /** Any position holding `b` with no `b` after it is the last index of `b`. */
  lemma {:induction false} ScanBackIs(s: Bytes, i: nat, b: byte, r: int)
    requires i <= |s| && -1 <= r < i
    requires 0 <= r ==> s[r] == b
    requires forall j | r < j < i :: s[j] != b
    ensures ScanBack(s, i, b) == r
    decreases i
  {
    if i > 0 && r < i - 1 {
      ScanBackIs(s, i - 1, b, r);
    }
  }

  /** The last `b` of `s` is found in what follows any earlier `b`. */
  lemma LastIndexOfShift(s: Bytes, b: byte, i: nat)
    requires i < |s| && s[i] == b
    ensures LastIndexOf(s, b) == i + 1 + LastIndexOf(s[i + 1..], b)
  {
    var rest := s[i + 1..];
    var j := LastIndexOf(rest, b);
    forall t | i + 1 + j < t < |s|
      ensures s[t] != b
    {
      assert s[t] == rest[t - i - 1];
    }
    ScanBackIs(s, |s|, b, i + 1 + j);
  }

  /** What follows the last `b` is unchanged by dropping a prefix that ends in a `b`. */
  lemma AfterLastSuffix(s: Bytes, b: byte, i: nat)
    requires i < |s| && s[i] == b
    ensures AfterLast(s, b) == AfterLast(s[i + 1..], b)
  {
    LastIndexOfShift(s, b, i);
    var k := LastIndexOf(s[i + 1..], b) + 1;
    assert s[i + 1 + k..] == s[i + 1..][k..];
  }

  /** What follows the last `b` of `a + [b] + c`, when `c` has none. */
  lemma AfterLastIs(a: Bytes, b: byte, c: Bytes)
    requires b !in c
    ensures AfterLast(a + [b] + c, b) == c
  {
    var s := a + [b] + c;
    forall j | |a| < j < |s|
      ensures s[j] != b
    {
      assert s[j] == c[j - |a| - 1];
    }
    ScanBackIs(s, |s|, b, |a|);
    assert s[|a| + 1..] == c;
  }

  lemma LastOfCons<T>(x: T, t: seq<T>)
    requires |t| > 0
    ensures ([x] + t)[|[x] + t| - 1] == t[|t| - 1]
  {
  }

  /** The last field of a split is what follows the last separator. */
  lemma {:induction false} SplitLast(s: Bytes, b: byte)
    ensures Split(s, b)[|Split(s, b)| - 1] == AfterLast(s, b)
    decreases |s|
  {
    var i := IndexOf(s, b);
    if i < 0 {
      assert Split(s, b) == [s];
      ScanBackIs(s, |s|, b, -1);
      assert s[0..] == s;
    } else {
      var rest := s[i + 1..];
      var tail := Split(rest, b);
      SplitStep(s, b, i);
      LastOfCons(s[..i], tail);
      SplitLast(rest, b);
      AfterLastSuffix(s, b, i);
    }
  }

  // ---------------------------------------------------------------------------
  // Byte-wise lexicographic order (Go's `<` on strings)
  // ---------------------------------------------------------------------------

  predicate Less(a: Bytes, b: Bytes)
    decreases |a|
  {
    |b| > 0 && (|a| == 0 || a[0] < b[0] || (a[0] == b[0] && Less(a[1..], b[1..])))
  }

  predicate LessEq(a: Bytes, b: Bytes)
  {
    a == b || Less(a, b)
  }

  lemma LessIrreflexive(a: Bytes)
    ensures !Less(a, a)
  {
  }

  lemma {:induction false} LessTransitive(a: Bytes, b: Bytes, c: Bytes)
    requires Less(a, b) && Less(b, c)
    ensures Less(a, c)
    decreases |a|
  {
    if |a| > 0 && a[0] == b[0] && b[0] == c[0] {
      LessTransitive(a[1..], b[1..], c[1..]);
    }
  }

  lemma {:induction false} LessTotal(a: Bytes, b: Bytes)
    ensures a == b || Less(a, b) || Less(b, a)
    decreases |a|
  {
    if |a| > 0 && |b| > 0 && a[0] == b[0] {
      LessTotal(a[1..], b[1..]);
      if a[1..] == b[1..] {
        assert a == [a[0]] + a[1..] && b == [b[0]] + b[1..];
      }
    }
  }

  lemma {:induction false} LessAsymmetric(a: Bytes, b: Bytes)
    requires Less(a, b)
    ensures !Less(b, a)
    decreases |a|
  {
    if |a| > 0 && a[0] == b[0] {
      LessAsymmetric(a[1..], b[1..]);
    }
  }

  lemma LessEqTransitive(a: Bytes, b: Bytes, c: Bytes)
    requires LessEq(a, b) && LessEq(b, c)
    ensures LessEq(a, c)
  {
    if a != b && b != c {
      LessTransitive(a, b, c);
    }
  }

  lemma LessEqTotal(a: Bytes, b: Bytes)
    ensures LessEq(a, b) || LessEq(b, a)
  {
    LessTotal(a, b);
  }

  lemma LessEqAntisymmetric(a: Bytes, b: Bytes)
    requires LessEq(a, b) && LessEq(b, a)
    ensures a == b
  {
    if a != b {
      LessAsymmetric(a, b);
    }
  }

  /** A proper prefix sorts first. */
  lemma PrefixLess(a: Bytes, b: Bytes)
    requires |a| < |b| && a == b[..|a|]
    ensures Less(a, b)
  {
    if |a| > 0 {
      assert a[1..] == b[1..][..|a| - 1];
      PrefixLess(a[1..], b[1..]);
    }
  }
}

=== FILE: catfile.dfy ===
/** Reading objects back in `cat-file`: the kind word at the front of a
    decompressed object, and the tree-object parser `DeserializeTreeObject`. */
module CatFile {
  import opened Wrappers
  import opened Bytes
  import opened Sorting
  import opened Layout
  import opened Types

  // ---------------------------------------------------------------------------
  // CatFileExtractKind
  // ---------------------------------------------------------------------------

  /** The first run of non-space bytes, or nothing when every byte is a space. */
  function FirstWord(data: Bytes): Bytes
  {
    var k := Span(data, 0, {SP});
    data[k..Scan(data, k, SP)]
  }

  /** `CatFileExtractKind`: cuts runs at single spaces and stops after the
      first non-empty one. */
  method CatFileExtractKind(data: Bytes) returns (kind: Bytes)
    ensures kind == FirstWord(data)
    ensures SP !in kind
    ensures |kind| == 0 <==> forall j | 0 <= j < |data| :: data[j] == SP
  {
    kind := [];
    var i := 0;
    while i < |data|
      invariant 0 <= i <= |data| + 1
      invariant |kind| == 0 ==> forall j | 0 <= j < i && j < |data| :: data[j] == SP
      invariant |kind| > 0 ==> kind == FirstWord(data) && i <= |data| + 1
      decreases |data| + 1 - i, |kind| == 0
    {
      if |kind| > 0 {
        break;
      }
      var start := i;
      while i < |data| && data[i] != SP
        invariant start <= i <= |data|
        invariant forall j | start <= j < i :: data[j] != SP
      {
        i := i + 1;
      }
      kind := data[start..i];
      if |kind| > 0 {
        SpanIs(data, 0, {SP}, start);
        ScanIs(data, start, SP, i);
      }
      i := i + 1;
    }
    if |kind| == 0 {
      SpanIs(data, 0, {SP}, |data|);
    }
    FirstWordShape(data);
  }

  /** The first word holds no space, and is empty exactly when every byte is one. */
  lemma FirstWordShape(data: Bytes)
    ensures SP !in FirstWord(data)
    ensures |FirstWord(data)| == 0 <==> forall j | 0 <= j < |data| :: data[j] == SP
  {
    var k := Span(data, 0, {SP});
    var w := FirstWord(data);
    forall j | 0 <= j < |w|
      ensures w[j] != SP
    {
      assert w[j] == data[k + j];
    }
    if k < |data| {
      assert data[k] != SP;
    }
  }

  /** The kind of a framed object is read back from its header. */
  lemma KindOfFrame(kind: Bytes, content: Bytes)
    requires |kind| > 0 && SP !in kind
    ensures FirstWord(Frame(kind, content)) == kind
  {
    var f := Frame(kind, content);
    assert f[0] == kind[0];
    SpanIs(f, 0, {SP}, 0);
    forall j | 0 <= j < |kind|
      ensures f[j] != SP
    {
      assert f[j] == kind[j];
    }
    ScanIs(f, 0, SP, |kind|);
    assert f[..|kind|] == kind;
  }

  // ---------------------------------------------------------------------------
  // DeserializeTreeObject
  // ---------------------------------------------------------------------------

  datatype TreeError =
    | NoHeaderTerminator
    | CorruptHeader
    | NoSpaceAfterMode
    | NoNulAfterName
    | ShortHash

  /** The space bytes `fmt` skips, without the newline, which it treats
      apart. */
  const Blanks: set<byte> := {9, 11, 12, 13, SP}

  const DecimalDigits: set<byte> := {48, 49, 50, 51, 52, 53, 54, 55, 56, 57}

  /** `fmt.Sscanf(header, "tree %d", &size)`: the literal `tree`, then at
      least one blank (or the end), then an optionally signed decimal that
      fits 64 bits; whatever follows the digits is ignored. */
  function ScanTreeHeader(header: Bytes): (r: Option<int>)
    ensures r.Some? ==> |header| > 5 && header[..4] == Str("tree") && header[4] in Blanks
  {
    if |header| < 4 || header[..4] != Str("tree") then None
    else if |header| == 4 || header[4] !in Blanks then None
    else
      var i := Span(header, 4, Blanks);
      var j := if i < |header| && header[i] in {43, 45} then i + 1 else i;
      var k := Span(header, j, DecimalDigits);
      if k == j then None else ParseInt(header[i..k], 10)
  }

  /** The header `TreeObject.ToBytes` writes scans back to the body length. */
  lemma ScanTreeHeaderOfFrame(n: nat)
    requires n <= Int64Max
    ensures ScanTreeHeader(Str("tree") + [SP] + Decimal(n)) == Some(n)
  {
    var h := Str("tree") + [SP] + Decimal(n);
    var d := Decimal(n);
    assert h[..4] == Str("tree");
    assert h[5..] == d;
    assert IsDigitIn(d[0], 10);
    assert h[5] == d[0];
    SpanIs(h, 4, Blanks, 5);
    forall j | 5 <= j < |h|
      ensures h[j] in DecimalDigits
    {
      assert h[j] == d[j - 5];
      assert IsDigitIn(d[j - 5], 10);
    }
    SpanIs(h, 5, DecimalDigits, |h|);
    assert h[5] !in {43, 45};
    assert h[5..|h|] == FormatInt(n);
    ParseFormatInt(n);
  }

  /** A tree entry the parser can read back: a mode without a space, a name
      without a NUL, and a 20-byte hash. */
  predicate WellFormedTreeEntry(e: TreeEntry)
  {
    SP !in e.mode && NUL !in e.name && |e.hash| == 20
  }

  datatype EntryParsed = EntryParsed(entry: TreeEntry, next: nat)

  /** One turn of the entry loop: the mode up to a space, the name up to a
      NUL, then 20 hash bytes. */
  function ParseTreeEntry(body: Bytes): (r: Result<EntryParsed, TreeError>)
    ensures r.Ok? ==> 0 < r.value.next <= |body| && WellFormedTreeEntry(r.value.entry)
  {
    var sp := Scan(body, 0, SP);
    if sp == |body| then Err(NoSpaceAfterMode)
    else
      var nul := Scan(body, sp + 1, NUL);
      if nul == |body| then Err(NoNulAfterName)
      else if nul + 1 + 20 > |body| then Err(ShortHash)
      else Ok(EntryParsed(TreeEntry(body[..sp], body[sp + 1..nul], body[nul + 1..nul + 21]), nul + 21))
  }

  /** The entry loop of `DeserializeTreeObject`: entries until the body is
      used up; the first damaged entry fails the whole object. */
  function ParseTreeEntries(body: Bytes): (r: Result<seq<TreeEntry>, TreeError>)
    ensures r.Ok? ==> forall k | 0 <= k < |r.value| :: WellFormedTreeEntry(r.value[k])
    decreases |body|
  {
    if |body| == 0 then Ok([])
    else
      var p :- ParseTreeEntry(body);
      var rest :- ParseTreeEntries(body[p.next..]);
      Ok([p.entry] + rest)
  }

  /** `DeserializeTreeObject`: the header ends at the first NUL and must scan
      as `tree %d`; the size it declares is not compared with the body. */
  function DeserializeTreeObject(data: Bytes): (r: Result<TreeObject, TreeError>)
    ensures NUL !in data ==> r == Err(NoHeaderTerminator)
    ensures r.Ok? ==> forall k | 0 <= k < |r.value.entries| :: WellFormedTreeEntry(r.value.entries[k])
  {
    var nul := IndexOf(data, NUL);
    if nul < 0 then
      IndexOfAbsent(data, NUL);
      Err(NoHeaderTerminator)
    else
      if ScanTreeHeader(data[..nul]).None? then Err(CorruptHeader)
      else
        var entries :- ParseTreeEntries(data[nul + 1..]);
        Ok(TreeObject(entries))
  }

  /** The entry `ParseTreeEntry` reads once the two separators are found. */
  lemma ParseTreeEntryIs(body: Bytes, sp: nat, nul: nat)
    requires sp < nul < |body| && nul + 21 <= |body|
    requires Scan(body, 0, SP) == sp && Scan(body, sp + 1, NUL) == nul
    ensures var r := ParseTreeEntry(body);
      && r.Ok?
      && r.value.entry == TreeEntry(body[..sp], body[sp + 1..nul], body[nul + 1..nul + 21])
      && r.value.next == nul + 21
  {
  }

  /** A well-formed entry's record, followed by anything, reads back as the
      entry and ends where the record ends. */
  lemma EntryParse(e: TreeEntry, rest: Bytes)
    requires WellFormedTreeEntry(e)
    ensures var r := ParseTreeEntry(EntryRecord(e) + rest);
      && r.Ok?
      && r.value.entry == e
      && r.value.next == |EntryRecord(e)|
  {
    var body := EntryRecord(e) + rest;
    var sp := |e.mode|;
    var nul := sp + 1 + |e.name|;
    assert body[..sp] == e.mode;
    forall j | 0 <= j < sp
      ensures body[j] != SP
    {
      assert body[j] == e.mode[j];
    }
    ScanIs(body, 0, SP, sp);
    assert body[sp + 1..nul] == e.name;
    forall j | sp + 1 <= j < nul
      ensures body[j] != NUL
    {
      assert body[j] == e.name[j - sp - 1];
    }
    ScanIs(body, sp + 1, NUL, nul);
    assert body[nul + 1..nul + 21] == e.hash;
    ParseTreeEntryIs(body, sp, nul);
  }

  /** The record of the entry `ParseTreeEntry` read is exactly what it consumed. */
  lemma ParsedEntryIsRecord(body: Bytes)
    requires ParseTreeEntry(body).Ok?
    ensures var p := ParseTreeEntry(body).value;
      body[..p.next] == EntryRecord(p.entry)
  {
    var sp := Scan(body, 0, SP);
    var nul := Scan(body, sp + 1, NUL);
    assert body[..nul + 21] == body[..sp] + [SP] + body[sp + 1..nul] + [NUL] + body[nul + 1..nul + 21];
  }

  /** Well-formed entries written one after another parse back to themselves. */
  lemma {:induction false} TreeBodyRoundTrip(es: seq<TreeEntry>)
    requires forall k | 0 <= k < |es| :: WellFormedTreeEntry(es[k])
    ensures ParseTreeEntries(TreeBody(es)) == Ok(es)
  {
    if |es| > 0 {
      var record := EntryRecord(es[0]);
      var tail := TreeBody(es[1..]);
      TreeBodyRoundTrip(es[1..]);
      EntryParse(es[0], tail);
      assert (record + tail)[|record|..] == tail;
      assert es == [es[0]] + es[1..];
    }
  }

  /** A body that parses is exactly the records of its entries, in order:
      the whole body is consumed and nothing is reordered. */
  lemma {:induction false} ParsedBodyIsRecords(body: Bytes)
    requires ParseTreeEntries(body).Ok?
    ensures TreeBody(ParseTreeEntries(body).value) == body
    decreases |body|
  {
    if |body| > 0 {
      var p := ParseTreeEntry(body).value;
      ParsedEntryIsRecord(body);
      ParsedBodyIsRecords(body[p.next..]);
      var rest := ParseTreeEntries(body[p.next..]).value;
      assert ParseTreeEntries(body).value == [p.entry] + rest;
      TreeBodyCons(p.entry, rest);
      TakeDrop(body, p.next);
    }
  }

  lemma TreeBodyCons(e: TreeEntry, rest: seq<TreeEntry>)
    ensures TreeBody([e] + rest) == EntryRecord(e) + TreeBody(rest)
  {
    ConsTail(e, rest);
  }

  /** An empty body, after a good header, gives a tree without entries. */
  lemma EmptyTreeBody(header: Bytes)
    requires NUL !in header && ScanTreeHeader(header).Some?
    ensures DeserializeTreeObject(header + [NUL]) == Ok(TreeObject([]))
  {
    var data := header + [NUL];
    forall j | 0 <= j < |header|
      ensures data[j] != NUL
    {
      assert data[j] == header[j];
    }
    IndexOfIs(data, NUL, |header|);
    assert data[..|header|] == header;
    assert data[|header| + 1..] == [];
  }

  /** What `DeserializeTreeObject` returns once the header and the body
      are known to parse. */
  lemma DeserializeIs(data: Bytes, nul: nat, entries: seq<TreeEntry>)
    requires IndexOf(data, NUL) == nul
    requires ScanTreeHeader(data[..nul]).Some?
    requires ParseTreeEntries(data[nul + 1..]) == Ok(entries)
    ensures DeserializeTreeObject(data) == Ok(TreeObject(entries))
  {
  }

  /** A framed tree object whose body parses deserializes to that body's
      entries. */
  lemma DeserializeFrame(body: Bytes, entries: seq<TreeEntry>)
    requires |body| <= Int64Max
    requires ParseTreeEntries(body) == Ok(entries)
    ensures DeserializeTreeObject(Frame(Str("tree"), body)) == Ok(TreeObject(entries))
  {
    var data := Frame(Str("tree"), body);
    TreeKindLetters();
    FrameSplitsAtFirstNul(Str("tree"), body);
    var nul := 4 + 1 + |Decimal(|body|)|;
    assert IndexOf(data, NUL) == nul;
    assert data[..nul] == Str("tree") + [SP] + Decimal(|body|);
    assert data[nul + 1..] == body;
    ScanTreeHeaderOfFrame(|body|);
    DeserializeIs(data, nul, entries);
  }

  /** `DeserializeTreeObject(t.ToBytes())` gives back the entries of `t` in
      the order `ToBytes` sorted them into. */
  lemma DeserializeToBytes(t: TreeObject)
    requires forall k | 0 <= k < |t.entries| :: WellFormedTreeEntry(t.entries[k])
    requires |TreeBody(SortTree(t.entries))| <= Int64Max
    ensures DeserializeTreeObject(TreeObjectToBytes(t).0) == Ok(TreeObjectToBytes(t).1)
  {
    var sorted := SortTree(t.entries);
    forall k | 0 <= k < |sorted|
      ensures WellFormedTreeEntry(sorted[k])
    {
      assert sorted[k] in multiset(t.entries);
    }
    TreeBodyRoundTrip(sorted);
    DeserializeFrame(TreeBody(sorted), sorted);
  }
}

=== FILE: diff.dfy ===
/** The line diff behind `git diff`: the greedy algorithm of E. Myers, "An
    O(ND) Difference Algorithm and Its Variations" (1986), as `myersDiff`
    runs it forward and `buildEdits` walks it back, and the helpers around
    it. Lines are compared with `==` only, so the algorithm is generic in
    the line type. */
module Diff {
  import opened Bytes
  import opened Enumeration

  // ---------------------------------------------------------------------------
  // Edit scripts
  // ---------------------------------------------------------------------------

  const EqualKind: Bytes := Str("equal")
  const InsertKind: Bytes := Str("insert")
  const DeleteKind: Bytes := Str("delete")

  /** Go's `Edit{Type, Line}`. */
  datatype Edit<T> = Edit(kind: Bytes, line: T)

  lemma KindsDistinct()
    ensures EqualKind != InsertKind && EqualKind != DeleteKind && InsertKind != DeleteKind
  {
    assert EqualKind[0] != InsertKind[0] && EqualKind[0] != DeleteKind[0] && InsertKind[0] != DeleteKind[0];
  }

  /** `isChange`. */
  predicate IsChange<T>(e: Edit<T>)
  {
    e.kind == InsertKind || e.kind == DeleteKind
  }

  /** Every edit is an equal, insert or delete. */
  predicate WellKinded<T>(es: seq<Edit<T>>)
  {
    forall i | 0 <= i < |es| :: es[i].kind == EqualKind || IsChange(es[i])
  }

  /** The lines a script keeps from the old text: its equal and delete lines. */
  function OldSide<T>(es: seq<Edit<T>>): seq<T>
  {
    if |es| == 0 then []
    else (if es[0].kind == EqualKind || es[0].kind == DeleteKind then [es[0].line] else []) + OldSide(es[1..])
  }

  /** The lines a script produces in the new text: its equal and insert lines. */
  function NewSide<T>(es: seq<Edit<T>>): seq<T>
  {
    if |es| == 0 then []
    else (if es[0].kind == EqualKind || es[0].kind == InsertKind then [es[0].line] else []) + NewSide(es[1..])
  }

  /** The number of inserts and deletes. */
  function Changes<T>(es: seq<Edit<T>>): nat
  {
    if |es| == 0 then 0 else (if IsChange(es[0]) then 1 else 0) + Changes(es[1..])
  }

  /** What putting one edit in front of a script does to its two sides. */
  lemma Prepend<T>(e: Edit<T>, es: seq<Edit<T>>)
    ensures OldSide([e] + es) == (if e.kind == EqualKind || e.kind == DeleteKind then [e.line] else []) + OldSide(es)
    ensures NewSide([e] + es) == (if e.kind == EqualKind || e.kind == InsertKind then [e.line] else []) + NewSide(es)
    ensures Changes([e] + es) == (if IsChange(e) then 1 else 0) + Changes(es)
    ensures WellKinded(es) && (e.kind == EqualKind || IsChange(e)) ==> WellKinded([e] + es)
  {
    assert ([e] + es)[0] == e;
    assert ([e] + es)[1..] == es;
  }

  /** `countLines`: its first result is always 0, its second the number of
      edits whose type is one of `types`. */
  function CountLines<T>(edits: seq<Edit<T>>, types: seq<Bytes>): (int, nat)
  {
    (0, |Select((e: Edit<T>) => e.kind in types, edits)|)
  }

  /** The hunk header's lengths: counting deletes and equals gives the
      number of old lines, inserts and equals the number of new lines, and
      inserts and deletes the number of changes. */
  lemma {:induction false} HunkLengths<T>(es: seq<Edit<T>>)
    ensures CountLines(es, [DeleteKind, EqualKind]) == (0, |OldSide(es)|)
    ensures CountLines(es, [InsertKind, EqualKind]) == (0, |NewSide(es)|)
    ensures CountLines(es, [InsertKind, DeleteKind]) == (0, Changes(es))
    decreases |es|
  {
    if |es| > 0 {
      HunkLengths(es[1..]);
      SelectCons((e: Edit<T>) => e.kind in [DeleteKind, EqualKind], es);
      SelectCons((e: Edit<T>) => e.kind in [InsertKind, EqualKind], es);
      SelectCons((e: Edit<T>) => e.kind in [InsertKind, DeleteKind], es);
    }
  }

  lemma SelectCons<T>(keep: T -> bool, s: seq<T>)
    requires |s| > 0
    ensures |Select(keep, s)| == (if keep(s[0]) then 1 else 0) + |Select(keep, s[1..])|
  {
  }

  /** A well-kinded script without changes is all equal lines, one per old line. */
  lemma {:induction false} NoChangesAllEqual<T>(es: seq<Edit<T>>)
    requires WellKinded(es) && Changes(es) == 0
    ensures forall i | 0 <= i < |es| :: es[i].kind == EqualKind
    ensures |OldSide(es)| == |es|
    decreases |es|
  {
    if |es| > 0 {
      assert WellKinded(es[1..]) by {
        forall i | 0 <= i < |es[1..]|
          ensures es[1..][i].kind == EqualKind || IsChange(es[1..][i])
        {
          assert es[1..][i] == es[i + 1];
        }
      }
      NoChangesAllEqual(es[1..]);
      forall i | 0 <= i < |es|
        ensures es[i].kind == EqualKind
      {
        if i > 0 {
          assert es[i] == es[1..][i - 1];
        }
      }
    }
  }

  // ---------------------------------------------------------------------------
  // Line highlighting
  // ---------------------------------------------------------------------------

  /** `HighlightLineDiff` with highlighting off: the old line behind a "- "
      marker and the new line behind a "+ " marker. */
  function HighlightLineDiffPlain(oldLine: Bytes, newLine: Bytes): (r: (Bytes, Bytes))
    ensures |r.0| == |oldLine| + 2 && r.0[..2] == Str("- ") && r.0[2..] == oldLine
    ensures |r.1| == |newLine| + 2 && r.1[..2] == Str("+ ") && r.1[2..] == newLine
  {
    (Str("- ") + oldLine, Str("+ ") + newLine)
  }

  /** The pieces of `parts` one after another. */
  function Flatten<T>(parts: seq<seq<T>>): seq<T>
  {
    if |parts| == 0 then [] else parts[0] + Flatten(parts[1..])
  }

  /** `explodeString` over the runes of a line: one single-rune string per
      rune, in order. */
  function ExplodeString<R>(runes: seq<R>): (out: seq<seq<R>>)
    ensures |out| == |runes|
    ensures forall i | 0 <= i < |out| :: |out[i]| == 1 && out[i][0] == runes[i]
  {
    if |runes| == 0 then [] else [[runes[0]]] + ExplodeString(runes[1..])
  }

  /** Joining the exploded pieces gives the runes back. */
  lemma {:induction false} ExplodeFlatten<R>(runes: seq<R>)
    ensures Flatten(ExplodeString(runes)) == runes
    decreases |runes|
  {
    if |runes| > 0 {
      ExplodeFlatten(runes[1..]);
      ConsTail([runes[0]], ExplodeString(runes[1..]));
    }
  }

  // ---------------------------------------------------------------------------
  // The greedy algorithm as functions: the furthest point on each diagonal
  // ---------------------------------------------------------------------------

  /** The diagonals the round `d` visits: `-d, -d+2, ..., d`. */
  predicate InRange(d: int, k: int)
  {
    d >= 0 && -d <= k <= d && (k + d) % 2 == 0
  }

  /** Follows equal lines diagonally from `(x, y)`: the `for x < N && y < M
      && old[x] == new[y]` loop. */
  function Snake<T(==)>(a: seq<T>, b: seq<T>, x: nat, y: nat): (r: nat)
    ensures r >= x
    ensures r > x ==> x < |a| && y < |b| && r <= |a| && r - x + y <= |b|
    decreases |a| - x
  {
    if x < |a| && y < |b| && a[x] == b[y] then Snake(a, b, x + 1, y + 1) else x
  }

  /** Every step of a snake matches an old line with a new one. */
  lemma {:induction false} SnakeMatches<T>(a: seq<T>, b: seq<T>, x: nat, y: nat, i: nat)
    requires x <= i < Snake(a, b, x, y)
    ensures i < |a| && i - x + y < |b| && a[i] == b[i - x + y]
    decreases |a| - x
  {
    if i > x {
      SnakeMatches(a, b, x + 1, y + 1, i);
    }
  }

  /** Where round `d` starts on diagonal `k`: one step down from diagonal
      `k + 1` or one step right from `k - 1`, whichever reached further. */
  function Start<T(==)>(a: seq<T>, b: seq<T>, d: nat, k: int): (x: int)
    requires d > 0 && InRange(d, k)
    ensures 2 * x >= d + k && 2 * (x - k) >= d - k
    decreases d, 0
  {
    if k + d == 0 || (k != d && Furthest(a, b, d - 1, k - 1) < Furthest(a, b, d - 1, k + 1))
    then Furthest(a, b, d - 1, k + 1)
    else Furthest(a, b, d - 1, k - 1) + 1
  }

  /** `V[k]` after round `d`: the furthest x reached on diagonal `k` with
      `d` inserts and deletes. The lower bound says that at least the path
      of `d` plain moves is followed. */
  function Furthest<T(==)>(a: seq<T>, b: seq<T>, d: nat, k: int): (x: int)
    requires InRange(d, k)
    ensures 2 * x >= d + k && 2 * (x - k) >= d - k
    decreases d, 1
  {
    if d == 0 then Snake(a, b, 0, 0)
    else
      var x0 := Start(a, b, d, k);
      Snake(a, b, x0, x0 - k)
  }

  /** The end of the diagonal `|a| - |b|` is reached in round `d`. */
  predicate Reached<T(==)>(a: seq<T>, b: seq<T>, d: nat)
  {
    InRange(d, |a| - |b|) && Furthest(a, b, d, |a| - |b|) >= |a|
  }

  /** The round-`d` point on diagonal `k` is at or beyond both ends. */
  predicate Terminal<T(==)>(a: seq<T>, b: seq<T>, d: nat, k: int)
    requires InRange(d, k)
  {
    Furthest(a, b, d, k) >= |a| && Furthest(a, b, d, k) - k >= |b|
  }

  /** At the latest, round `|a| + |b|` reaches the end. */
  lemma ReachedByMax<T>(a: seq<T>, b: seq<T>)
    ensures Reached(a, b, |a| + |b|)
  {
    var d, k := |a| + |b|, |a| - |b|;
    assert (k + d) % 2 == 0 by {
      assert k + d == 2 * |a|;
    }
    assert 2 * Furthest(a, b, d, k) >= d + k;
  }

  /** Identical texts are one snake from the start. */
  lemma {:induction false} SnakeSame<T>(a: seq<T>, x: nat)
    requires x <= |a|
    ensures Snake(a, a, x, x) == |a|
    decreases |a| - x
  {
    if x < |a| {
      SnakeSame(a, x + 1);
    }
  }

  /** Each round reaches at least one step further right on the next
      diagonal up and as far on the next diagonal down. */
  lemma FurthestStep<T>(a: seq<T>, b: seq<T>, d: nat, k: int)
    requires InRange(d, k)
    ensures Furthest(a, b, d + 1, k + 1) >= Furthest(a, b, d, k) + 1
    ensures Furthest(a, b, d + 1, k - 1) >= Furthest(a, b, d, k)
  {
    assert Start(a, b, d + 1, k + 1) >= Furthest(a, b, d, k) + 1;
    assert Start(a, b, d + 1, k - 1) >= Furthest(a, b, d, k);
  }

  /** How far a coordinate lies beyond its end. */
  function Excess(v: int, n: int): nat
  {
    if v > n then v - n else 0
  }

  // The argument that the search stops exactly at the corner is made for
  // any table `F` of furthest points with the shape the greedy rounds give
  // it, and then applied to `Furthest`.

  /** Round `d` on diagonal `k` either followed a snake, and so stays on the
      grid of `n` old and `m` new lines, or took one step from the previous
      round; and the next round gets at least as far on both neighbours. */
  ghost predicate Shaped(F: (int, int) -> int, n: int, m: int, d: int, k: int)
  {
    InRange(d, k) ==> ShapeAt(n, m, d, k, F(d, k), F(d - 1, k + 1), F(d - 1, k - 1), F(d + 1, k + 1), F(d + 1, k - 1))
  }

  /** `Shaped` for the point `x` with its two predecessors and its two
      successors given by value. */
  predicate ShapeAt(n: int, m: int, d: int, k: int, x: int, down: int, right: int, next1: int, next2: int)
  {
    && (d == 0 ==> x <= n && x <= m)
    && (d > 0 ==>
          || (x <= n && x - k <= m)
          || (InRange(d - 1, k + 1) && x == down)
          || (InRange(d - 1, k - 1) && x == right + 1))
    && next1 >= x + 1
    && next2 >= x
  }

  /** The point `x` on diagonal `k` of round `d`, pulled back by `ex` steps
      in x and `ey` in y, was reached by round `d - ex - ey`. */
  ghost predicate Behind(F: (int, int) -> int, d: int, k: int, x: int, ex: nat, ey: nat)
  {
    && ex + ey <= d
    && InRange(d - ex - ey, k - ex + ey)
    && (ex + ey > 0 ==> F(d - ex - ey, k - ex + ey) >= x - ex)
  }

  /** A point beyond an end, pulled back onto the grid, was reached by an
      earlier round: one round earlier for each step beyond. */
  lemma {:induction false} Clamped(F: (int, int) -> int, n: int, m: int, d: nat, k: int)
    requires InRange(d, k)
    requires forall d', k' :: Shaped(F, n, m, d', k')
    ensures Behind(F, d, k, F(d, k), Excess(F(d, k), n), Excess(F(d, k) - k, m))
    decreases d, 1
  {
    var x := F(d, k);
    assert Shaped(F, n, m, d, k);
    if d == 0 || (x <= n && x - k <= m) {
      assert Excess(x, n) == 0 && Excess(x - k, m) == 0;
    } else if InRange(d - 1, k + 1) && x == F(d - 1, k + 1) {
      ClampedDown(F, n, m, d, k);
    } else {
      ClampedRight(F, n, m, d, k);
    }
  }

  /** The case of `Clamped` for a step down from diagonal `k + 1`. */
  lemma {:induction false} ClampedDown(F: (int, int) -> int, n: int, m: int, d: nat, k: int)
    requires d > 0 && InRange(d - 1, k + 1) && F(d, k) == F(d - 1, k + 1)
    requires forall d', k' :: Shaped(F, n, m, d', k')
    ensures Behind(F, d, k, F(d, k), Excess(F(d, k), n), Excess(F(d, k) - k, m))
    decreases d, 0
  {
    var x := F(d, k);
    Clamped(F, n, m, d - 1, k + 1);
    var ex := Excess(x, n);
    if x - k - 1 < m && ex > 0 {
      assert Shaped(F, n, m, d - 1 - ex, k + 1 - ex);
    }
    DownStep(F, d, k, x, ex, Excess(x - k - 1, m), m);
  }

  /** The case of `Clamped` for a step right from diagonal `k - 1`. */
  lemma {:induction false} ClampedRight(F: (int, int) -> int, n: int, m: int, d: nat, k: int)
    requires d > 0 && InRange(d - 1, k - 1) && F(d, k) == F(d - 1, k - 1) + 1
    requires forall d', k' :: Shaped(F, n, m, d', k')
    ensures Behind(F, d, k, F(d, k), Excess(F(d, k), n), Excess(F(d, k) - k, m))
    decreases d, 0
  {
    var x := F(d, k);
    Clamped(F, n, m, d - 1, k - 1);
    var ey := Excess(x - k, m);
    if x - 1 < n && ey > 0 {
      assert Shaped(F, n, m, d - 1 - ey, k - 1 + ey);
    }
    RightStep(F, d, k, x, Excess(x - 1, n), ey, n);
  }

  /** One step down from diagonal `k + 1`. */
  lemma DownStep(F: (int, int) -> int, d: nat, k: int, x: int, ex: nat, ey: nat, m: int)
    requires d > 0 && InRange(d - 1, k + 1) && x == F(d - 1, k + 1)
    requires ey == Excess(x - k - 1, m)
    requires Behind(F, d - 1, k + 1, x, ex, ey)
    requires x - k - 1 < m && ex > 0 ==> F(d - ex, k - ex) >= F(d - 1 - ex, k + 1 - ex)
    ensures Behind(F, d, k, x, ex, Excess(x - k, m))
  {
    if x - k - 1 >= m {
      assert Excess(x - k, m) == ey + 1;
      assert d - ex - (ey + 1) == d - 1 - ex - ey;
      assert k - ex + (ey + 1) == k + 1 - ex + ey;
    } else {
      assert Excess(x - k, m) == 0 && ey == 0;
    }
  }

  /** One step right from diagonal `k - 1`. */
  lemma RightStep(F: (int, int) -> int, d: nat, k: int, x: int, ex: nat, ey: nat, n: int)
    requires d > 0 && InRange(d - 1, k - 1) && x == F(d - 1, k - 1) + 1
    requires ex == Excess(x - 1, n)
    requires Behind(F, d - 1, k - 1, x - 1, ex, ey)
    requires x - 1 < n && ey > 0 ==> F(d - ey, k + ey) >= F(d - 1 - ey, k - 1 + ey) + 1
    ensures Behind(F, d, k, x, Excess(x, n), ey)
  {
    if x - 1 >= n {
      assert Excess(x, n) == ex + 1;
      assert d - (ex + 1) - ey == d - 1 - ex - ey;
      assert k - (ex + 1) + ey == k - 1 - ex + ey;
    } else {
      assert Excess(x, n) == 0 && ex == 0;
    }
  }

  /** `Furthest` as a total table, 0 outside the visited diagonals. */
  function FurthestAt<T(==)>(a: seq<T>, b: seq<T>, d: int, k: int): int
  {
    if InRange(d, k) then Furthest(a, b, d, k) else 0
  }

  function Table<T(==)>(a: seq<T>, b: seq<T>): (int, int) -> int
  {
    (d, k) => FurthestAt(a, b, d, k)
  }

  lemma TableAt<T>(a: seq<T>, b: seq<T>, d: int, k: int)
    ensures Table(a, b)(d, k) == FurthestAt(a, b, d, k)
  {
  }

  /** Round `d > 0` on diagonal `k` followed a snake or stopped where its
      step from round `d - 1` took it. */
  lemma FurthestCases<T>(a: seq<T>, b: seq<T>, d: nat, k: int)
    requires d > 0 && InRange(d, k)
    ensures var x := Furthest(a, b, d, k);
      || (x <= |a| && x - k <= |b|)
      || (InRange(d - 1, k + 1) && x == Furthest(a, b, d - 1, k + 1))
      || (InRange(d - 1, k - 1) && x == Furthest(a, b, d - 1, k - 1) + 1)
  {
    var x0 := Start(a, b, d, k);
    assert Furthest(a, b, d, k) == Snake(a, b, x0, x0 - k);
  }

  /** `Furthest` has the shape of the greedy rounds. */
  lemma FurthestShaped<T>(a: seq<T>, b: seq<T>, d: int, k: int)
    ensures Shaped(Table(a, b), |a|, |b|, d, k)
  {
    if InRange(d, k) {
      FurthestShapeAt(a, b, d, k);
      TableAt(a, b, d, k);
      TableAt(a, b, d - 1, k + 1);
      TableAt(a, b, d - 1, k - 1);
      TableAt(a, b, d + 1, k + 1);
      TableAt(a, b, d + 1, k - 1);
    }
  }

  lemma FurthestShapeAt<T>(a: seq<T>, b: seq<T>, d: nat, k: int)
    requires InRange(d, k)
    ensures ShapeAt(|a|, |b|, d, k, Furthest(a, b, d, k), FurthestAt(a, b, d - 1, k + 1), FurthestAt(a, b, d - 1, k - 1),
                    Furthest(a, b, d + 1, k + 1), Furthest(a, b, d + 1, k - 1))
  {
    if d > 0 {
      FurthestCases(a, b, d, k);
    } else {
      assert Furthest(a, b, d, k) == Snake(a, b, 0, 0);
    }
    FurthestStep(a, b, d, k);
  }

  lemma TableShaped<T>(a: seq<T>, b: seq<T>)
    ensures forall d, k :: Shaped(Table(a, b), |a|, |b|, d, k)
  {
    forall d, k
      ensures Shaped(Table(a, b), |a|, |b|, d, k)
    {
      FurthestShaped(a, b, d, k);
    }
  }

  /** A point beyond both ends of the grid is its corner, or the corner was
      reached by an earlier round `e`. */
  lemma Corner(F: (int, int) -> int, n: int, m: int, d: nat, k: int) returns (e: nat)
    requires InRange(d, k)
    requires forall d', k' :: Shaped(F, n, m, d', k')
    requires F(d, k) >= n && F(d, k) - k >= m
    ensures || (e == d && k == n - m && F(d, k) == n)
            || (e < d && InRange(e, n - m) && F(e, n - m) >= n)
  {
    Clamped(F, n, m, d, k);
    var x := F(d, k);
    var ex, ey := Excess(x, n), Excess(x - k, m);
    e := d - ex - ey;
    assert k - ex + ey == n - m || ex + ey == 0;
  }

  /** The first round to reach beyond both ends reaches exactly the corner
      `(|a|, |b|)`. */
  lemma FirstTerminalIsCorner<T>(a: seq<T>, b: seq<T>, d: nat, k: int)
    requires InRange(d, k) && Terminal(a, b, d, k)
    requires forall e | 0 <= e < d :: !Reached(a, b, e)
    ensures k == |a| - |b| && Furthest(a, b, d, k) == |a|
  {
    TableShaped(a, b);
    TableAt(a, b, d, k);
    var e := Corner(Table(a, b), |a|, |b|, d, k);
    TableAt(a, b, e, |a| - |b|);
    assert e < d ==> Reached(a, b, e);
  }

  // ---------------------------------------------------------------------------
  // The algorithm as the code runs it: `myersDiff` and `buildEdits`
  // ---------------------------------------------------------------------------

  /** The value Go's `-1 << 31` stores for a diagonal not yet visited. */
  const Unvisited: int := -0x8000_0000

  /** Go's `paths[d][k]`: a missing round or diagonal reads as 0. */
  function Lookup(paths: map<int, map<int, int>>, d: int, k: int): int
  {
    if d in paths && k in paths[d] then paths[d][k] else 0
  }

  /** Old line `i` equals new line `i - k`. */
  ghost predicate LineMatch<T>(a: seq<T>, b: seq<T>, i: int, k: int)
  {
    0 <= i < |a| && 0 <= i - k < |b| && a[i] == b[i - k]
  }

  /** Old line `i` equals new line `i - k` for every `i` in `[lo, hi)`. */
  ghost predicate Matches<T>(a: seq<T>, b: seq<T>, lo: int, hi: int, k: int)
  {
    forall i | lo <= i < hi :: LineMatch(a, b, i, k)
  }

  /** The snake of round `d` on diagonal `k` from `sx` matches lines. */
  lemma SnakeMatchesAll<T>(a: seq<T>, b: seq<T>, sx: nat, k: int, x: int)
    requires 0 <= sx - k && x == Snake(a, b, sx, sx - k)
    ensures Matches(a, b, sx, x, k)
  {
    forall i | sx <= i < x
      ensures LineMatch(a, b, i, k)
    {
      SnakeMatches(a, b, sx, sx - k, i);
    }
  }

  /** The `for x > prevX && y > prevY` loop of `buildEdits`: prepends the
      equal lines of a snake that starts at `lo`, one step after
      `(prevX, prevY)`. */
  method PrependEquals<T(==)>(a: seq<T>, b: seq<T>, x: int, y: int, prevX: int, prevY: int, ghost lo: int, edits: seq<Edit<T>>)
    returns (x': int, y': int, edits': seq<Edit<T>>)
    requires 0 <= lo <= x <= |a| && 0 <= y <= |b|
    requires Matches(a, b, lo, x, x - y)
    requires || (prevX == lo && prevY == lo - (x - y) - 1)
             || (prevX == lo - 1 && prevY == lo - (x - y))
    requires OldSide(edits) == a[x..] && NewSide(edits) == b[y..] && WellKinded(edits)
    ensures x' == lo && y' == lo - (x - y) && 0 <= y'
    ensures OldSide(edits') == a[x'..] && NewSide(edits') == b[y'..]
    ensures WellKinded(edits') && Changes(edits') == Changes(edits)
  {
    var k := x - y;
    x', y', edits' := x, y, edits;
    while x' > prevX && y' > prevY
      invariant lo <= x' <= x && y' == x' - k && 0 <= y'
      invariant OldSide(edits') == a[x'..] && NewSide(edits') == b[y'..]
      invariant WellKinded(edits') && Changes(edits') == Changes(edits)
    {
      x', y' := x' - 1, y' - 1;
      assert LineMatch(a, b, x', k);
      Prepend(Edit(EqualKind, a[x']), edits');
      edits' := [Edit(EqualKind, a[x'])] + edits';
      assert a[x'..] == [a[x']] + a[x' + 1..] && b[y'..] == [b[y']] + b[y' + 1..];
    }
  }

  /** `paths` holds `F`'s value for every round before `rounds`. */
  ghost predicate Recorded(paths: map<int, map<int, int>>, F: (int, int) -> int, rounds: int)
  {
    forall d, k {:trigger Lookup(paths, d, k)} | 0 <= d < rounds && InRange(d, k) :: Lookup(paths, d, k) == F(d, k)
  }

  /** The diagonal `buildEdits` steps back to from diagonal `k` of round
      `d`, given the furthest points `left` on `k - 1` and `down` on `k + 1`
      of round `d - 1`: the same choice the search made going forward. */
  function PrevK(d: int, k: int, left: int, down: int): int
  {
    if k + d == 0 || (k != d && left < down) then k + 1 else k - 1
  }

  /** What stepping back from `x` on diagonal `k` of round `d > 0` needs:
      the point of round `d - 1` it came from lies in the grid, and the
      lines from the start of the snake up to `x` match. */
  ghost predicate TraceStep<T>(a: seq<T>, b: seq<T>, d: int, k: int, x: int, left: int, down: int)
  {
    var pk := PrevK(d, k, left, down);
    var px := if pk == k + 1 then down else left;
    var sx := if pk == k + 1 then px else px + 1;
    0 <= px && 0 <= px - pk && sx <= x && Matches(a, b, sx, x, k)
  }

  /** A table of furthest points that can be walked back: every point lies
      in the grid, round 0's snake matches lines from the origin, and every
      later point is reached as `TraceStep` says. */
  ghost predicate Traceable<T>(a: seq<T>, b: seq<T>, F: (int, int) -> int, d: int, k: int)
  {
    InRange(d, k) ==> TraceAt(a, b, d, k, F(d, k), F(d - 1, k - 1), F(d - 1, k + 1))
  }

  /** `Traceable` for the point `x` and its round `d - 1` neighbours. */
  ghost predicate TraceAt<T>(a: seq<T>, b: seq<T>, d: int, k: int, x: int, left: int, down: int)
  {
    && 0 <= x - k && 0 <= x
    && (d == 0 ==> Matches(a, b, 0, x, 0))
    && (d > 0 ==> TraceStep(a, b, d, k, x, left, down))
  }

  /** How round `d > 0` reached diagonal `k`: from diagonal `pk` of round
      `d - 1`, by a step down (`pk == k + 1`) or right (`pk == k - 1`) to
      `sx`, and then along a snake. */
  lemma Predecessor<T>(a: seq<T>, b: seq<T>, d: nat, k: int) returns (pk: int, sx: int)
    requires d > 0 && InRange(d, k)
    ensures pk == (if k + d == 0 || (k != d && Furthest(a, b, d - 1, k - 1) < Furthest(a, b, d - 1, k + 1)) then k + 1 else k - 1)
    ensures InRange(d - 1, pk)
    ensures sx == (if pk == k + 1 then Furthest(a, b, d - 1, pk) else Furthest(a, b, d - 1, pk) + 1)
    ensures 0 <= sx && 0 <= sx - k && Furthest(a, b, d, k) == Snake(a, b, sx, sx - k)
  {
    if k + d == 0 || (k != d && Furthest(a, b, d - 1, k - 1) < Furthest(a, b, d - 1, k + 1)) {
      pk, sx := k + 1, Furthest(a, b, d - 1, k + 1);
    } else {
      pk, sx := k - 1, Furthest(a, b, d - 1, k - 1) + 1;
    }
    assert sx == Start(a, b, d, k);
  }

  /** Each point of round `d > 0` of the greedy search is reached as
      `TraceStep` says. */
  lemma FurthestTraceStep<T>(a: seq<T>, b: seq<T>, d: nat, k: int)
    requires d > 0 && InRange(d, k)
    ensures TraceStep(a, b, d, k, Furthest(a, b, d, k), FurthestAt(a, b, d - 1, k - 1), FurthestAt(a, b, d - 1, k + 1))
  {
    var pk, sx := Predecessor(a, b, d, k);
    var x, left, down := Furthest(a, b, d, k), FurthestAt(a, b, d - 1, k - 1), FurthestAt(a, b, d - 1, k + 1);
    assert pk == PrevK(d, k, left, down);
    assert sx == if pk == k + 1 then down else left + 1;
    SnakeMatchesAll(a, b, sx, k, x);
  }

  /** The furthest points of the greedy search can be walked back. */
  lemma TableTraceable<T>(a: seq<T>, b: seq<T>)
    ensures forall d, k :: Traceable(a, b, Table(a, b), d, k)
  {
    forall d, k
      ensures Traceable(a, b, Table(a, b), d, k)
    {
      TableTraceableAt(a, b, d, k);
    }
  }

  lemma TableTraceableAt<T>(a: seq<T>, b: seq<T>, d: int, k: int)
    ensures Traceable(a, b, Table(a, b), d, k)
  {
    if InRange(d, k) {
      var x, left, down := FurthestAt(a, b, d, k), FurthestAt(a, b, d - 1, k - 1), FurthestAt(a, b, d - 1, k + 1);
      if d == 0 {
        SnakeMatchesAll(a, b, 0, 0, x);
      } else {
        FurthestTraceStep(a, b, d, k);
      }
      assert TraceAt(a, b, d, k, x, left, down);
      TableAt(a, b, d, k);
      TableAt(a, b, d - 1, k - 1);
      TableAt(a, b, d - 1, k + 1);
    }
  }

  /** What the choice of `buildEdits` on round `d > 0` finds in `paths`:
      the end `(prevX, prevX - prevK)` of round `d - 1`'s snake that the
      search continued from, and the lines matched on the way to `x`. */
  lemma BackStep<T>(a: seq<T>, b: seq<T>, paths: map<int, map<int, int>>, F: (int, int) -> int, D: nat, d: nat, x: int, k: int, prevK: int, prevX: int)
    requires Recorded(paths, F, D) && (forall d, k :: Traceable(a, b, F, d, k)) && 0 < d <= D
    requires InRange(d, k) && F(d, k) == x
    requires prevK == if k == -(d as int) || (k != d && Lookup(paths, d - 1, k - 1) < Lookup(paths, d - 1, k + 1)) then k + 1 else k - 1
    requires prevX == Lookup(paths, d - 1, prevK)
    ensures InRange(d - 1, prevK) && prevX == F(d - 1, prevK)
    ensures 0 <= prevX && 0 <= prevX - prevK
    ensures var sx := if prevK == k + 1 then prevX else prevX + 1; sx <= x && Matches(a, b, sx, x, k)
  {
    assert Traceable(a, b, F, d, k);
    assert prevK == PrevK(d, k, F(d - 1, k - 1), F(d - 1, k + 1));
  }

  /** The insert (a step down, from `(x, y - 1)`) or delete (a step right,
      from `(x - 1, y)`) that `buildEdits` prepends before a snake. */
  method PrependChange<T>(a: seq<T>, b: seq<T>, x: int, y: int, prevX: int, prevY: int, edits: seq<Edit<T>>)
    returns (x': int, y': int, edits': seq<Edit<T>>)
    requires 0 <= prevX && 0 <= prevY && x <= |a| && y <= |b|
    requires (prevX == x && prevY == y - 1) || (prevX == x - 1 && prevY == y)
    requires OldSide(edits) == a[x..] && NewSide(edits) == b[y..] && WellKinded(edits)
    ensures x' == prevX && y' == prevY
    ensures OldSide(edits') == a[x'..] && NewSide(edits') == b[y'..]
    ensures WellKinded(edits') && Changes(edits') == Changes(edits) + 1
  {
    KindsDistinct();
    x', y' := x, y;
    if x' == prevX {
      y' := y' - 1;
      Prepend(Edit(InsertKind, b[y']), edits);
      edits' := [Edit(InsertKind, b[y'])] + edits;
      assert b[y'..] == [b[y']] + b[y' + 1..];
    } else {
      x' := x' - 1;
      Prepend(Edit(DeleteKind, a[x']), edits);
      edits' := [Edit(DeleteKind, a[x'])] + edits;
      assert a[x'..] == [a[x']] + a[x' + 1..];
    }
  }

  /** One round of `buildEdits`' main loop: from the end `(x, y)` of round
      `d`'s snake back to the end of round `d - 1`'s, prepending the snake
      and the insert or delete before it. */
  method BacktrackRound<T(==)>(a: seq<T>, b: seq<T>, paths: map<int, map<int, int>>, ghost F: (int, int) -> int, D: nat, d: nat, x: int, y: int, edits: seq<Edit<T>>)
    returns (x': int, y': int, edits': seq<Edit<T>>)
    requires Recorded(paths, F, D) && (forall d, k :: Traceable(a, b, F, d, k)) && 0 < d <= D
    requires 0 <= x <= |a| && 0 <= y <= |b| && InRange(d, x - y) && F(d, x - y) == x
    requires OldSide(edits) == a[x..] && NewSide(edits) == b[y..] && WellKinded(edits)
    ensures 0 <= x' <= x && 0 <= y' <= y && InRange(d - 1, x' - y') && F(d - 1, x' - y') == x'
    ensures OldSide(edits') == a[x'..] && NewSide(edits') == b[y'..]
    ensures WellKinded(edits') && Changes(edits') == Changes(edits) + 1
  {
    var k := x - y;
    var prevK;
    if k == -(d as int) || (k != d && Lookup(paths, d - 1, k - 1) < Lookup(paths, d - 1, k + 1)) {
      prevK := k + 1;
    } else {
      prevK := k - 1;
    }
    var prevX := Lookup(paths, d - 1, prevK);
    var prevY := prevX - prevK;
    BackStep(a, b, paths, F, D, d, x, k, prevK, prevX);
    ghost var sx := if prevK == k + 1 then prevX else prevX + 1;
    x', y', edits' := WalkBack(a, b, x, y, prevX, prevY, sx, edits);
    assert x' - y' == prevK;
  }

  /** The snake from `sx` back to `(x, y)` and the change before it, which
      leaves the walk at `(prevX, prevY)`. */
  method WalkBack<T(==)>(a: seq<T>, b: seq<T>, x: int, y: int, prevX: int, prevY: int, ghost sx: int, edits: seq<Edit<T>>)
    returns (x': int, y': int, edits': seq<Edit<T>>)
    requires 0 <= x <= |a| && 0 <= y <= |b| && 0 <= prevX && 0 <= prevY
    requires sx == (if prevX - prevY == x - y + 1 then prevX else prevX + 1)
    requires prevX - prevY == x - y + 1 || prevX - prevY == x - y - 1
    requires sx <= x && Matches(a, b, sx, x, x - y)
    requires OldSide(edits) == a[x..] && NewSide(edits) == b[y..] && WellKinded(edits)
    ensures x' == prevX && y' == prevY
    ensures OldSide(edits') == a[x'..] && NewSide(edits') == b[y'..]
    ensures WellKinded(edits') && Changes(edits') == Changes(edits) + 1
  {
    x', y', edits' := PrependEquals(a, b, x, y, prevX, prevY, sx, edits);
    x', y', edits' := PrependChange(a, b, x', y', prevX, prevY, edits');
  }

  /** The last loop of `buildEdits`: prepends the equal lines the texts
      start with, up to `x`. */
  method PrependPrefix<T(==)>(a: seq<T>, b: seq<T>, x: int, edits: seq<Edit<T>>) returns (edits': seq<Edit<T>>)
    requires 0 <= x <= |a| && x <= |b| && Matches(a, b, 0, x, 0)
    requires OldSide(edits) == a[x..] && NewSide(edits) == b[x..] && WellKinded(edits)
    ensures OldSide(edits') == a && NewSide(edits') == b
    ensures WellKinded(edits') && Changes(edits') == Changes(edits)
  {
    var x', y' := x, x;
    edits' := edits;
    while x' > 0 && y' > 0 && a[x' - 1] == b[y' - 1]
      invariant 0 <= x' <= x && y' == x'
      invariant OldSide(edits') == a[x'..] && NewSide(edits') == b[y'..]
      invariant WellKinded(edits') && Changes(edits') == Changes(edits)
    {
      x', y' := x' - 1, y' - 1;
      Prepend(Edit(EqualKind, a[x']), edits');
      edits' := [Edit(EqualKind, a[x'])] + edits';
      assert a[x'..] == [a[x']] + a[x' + 1..] && b[y'..] == [b[y']] + b[y' + 1..];
    }
    assert x' > 0 ==> LineMatch(a, b, x' - 1, 0);
    assert a[0..] == a && b[0..] == b;
  }

  /** `buildEdits`: walks back from the corner, round by round, to the
      point each round started from, and then prepends the equal lines of
      round 0's snake. `F` is the table of furthest points the search
      recorded in `paths`. */
  method BuildEdits<T(==)>(a: seq<T>, b: seq<T>, paths: map<int, map<int, int>>, ghost F: (int, int) -> int, D: nat) returns (edits: seq<Edit<T>>)
    requires Recorded(paths, F, D) && forall d, k :: Traceable(a, b, F, d, k)
    requires InRange(D, |a| - |b|) && F(D, |a| - |b|) == |a|
    ensures OldSide(edits) == a && NewSide(edits) == b
    ensures Changes(edits) == D && WellKinded(edits)
  {
    var x, y := |a|, |b|;
    edits := [];
    var d := D;
    while d > 0
      invariant 0 <= d <= D
      invariant 0 <= x <= |a| && 0 <= y <= |b| && InRange(d, x - y) && F(d, x - y) == x
      invariant OldSide(edits) == a[x..] && NewSide(edits) == b[y..]
      invariant Changes(edits) == D - d && WellKinded(edits)
    {
      x, y, edits := BacktrackRound(a, b, paths, F, D, d, x, y, edits);
      d := d - 1;
    }
    assert Traceable(a, b, F, 0, 0);
    edits := PrependPrefix(a, b, x, edits);
  }

  /** What `v` holds when round `d` starts: round `d - 1`'s furthest point
      on each of its diagonals, or for round 0 the seed `v[1] == 0`. */
  ghost predicate Previous<T>(a: seq<T>, b: seq<T>, v: map<int, int>, d: nat)
  {
    if d == 0 then 1 in v && v[1] == 0
    else forall k | InRange(d - 1, k) :: k in v && v[k] == Furthest(a, b, d - 1, k)
  }

  /** The start of round `d`'s snake on diagonal `k`: the Go rule applied to
      the neighbours `v[k - 1]` and `v[k + 1]` is `Start`. */
  lemma ChoiceIsStart<T>(a: seq<T>, b: seq<T>, v: map<int, int>, d: nat, k: int)
    requires d > 0 && InRange(d, k) && Previous(a, b, v, d)
    requires k - 1 in v && k + 1 in v
    ensures (if k == -(d as int) || (k != d && v[k - 1] < v[k + 1]) then v[k + 1] else v[k - 1] + 1) == Start(a, b, d, k)
  {
    if k != -(d as int) {
      assert InRange(d - 1, k - 1);
    }
    if k != d {
      assert InRange(d - 1, k + 1);
    }
  }

  /** The first half of the inner loop body of `myersDiff`: marks missing
      neighbours of diagonal `k` as unvisited and picks where round `d`'s
      snake on `k` starts. */
  method Choose<T(==)>(a: seq<T>, b: seq<T>, v: map<int, int>, d: nat, k: int) returns (x: int, v': map<int, int>)
    requires InRange(d, k) && Previous(a, b, v, d)
    ensures x == (if d == 0 then 0 else Start(a, b, d, k))
    ensures forall key | key in v :: key in v' && v'[key] == v[key]
    ensures k - 1 in v' && v'[k - 1] == (if k - 1 in v then v[k - 1] else Unvisited)
    ensures k + 1 in v' && v'[k + 1] == (if k + 1 in v then v[k + 1] else Unvisited)
    ensures forall key | key in v' :: key in v || key == k - 1 || key == k + 1
  {
    v' := v;
    if k - 1 !in v' {
      v' := v'[k - 1 := Unvisited];
    }
    if k + 1 !in v' {
      v' := v'[k + 1 := Unvisited];
    }
    if k == -(d as int) || (k != d && v'[k - 1] < v'[k + 1]) {
      x := v'[k + 1];
    } else {
      x := v'[k - 1] + 1;
    }
    if d > 0 {
      ChoiceIsStart(a, b, v', d, k);
    }
  }

  /** The `for x < N && y < M && oldLines[x] == newLines[y]` loop: follows
      the diagonal while the lines match. */
  method FollowSnake<T(==)>(a: seq<T>, b: seq<T>, x: nat, k: int) returns (x': int)
    requires 0 <= x - k
    ensures x' == Snake(a, b, x, x - k)
  {
    x' := x;
    var y := x - k;
    while x' < |a| && y < |b| && a[x'] == b[y]
      invariant x <= x' && y == x' - k && 0 <= y
      invariant Snake(a, b, x', y) == Snake(a, b, x, x - k)
      decreases |a| - x'
    {
      x', y := x' + 1, y + 1;
    }
  }

  /** Recording a round at or after `rounds` keeps the earlier ones. */
  lemma RecordedKeep(paths: map<int, map<int, int>>, F: (int, int) -> int, rounds: int, d: int, m: map<int, int>)
    requires Recorded(paths, F, rounds) && rounds <= d
    ensures Recorded(paths[d := m], F, rounds)
  {
    forall e, k | 0 <= e < rounds && InRange(e, k)
      ensures Lookup(paths[d := m], e, k) == F(e, k)
    {
      assert Lookup(paths[d := m], e, k) == Lookup(paths, e, k);
    }
  }

  /** After the diagonals of round `d` below `k`: each holds its furthest
      point in `v` and `paths[d]`, and none was at or beyond both ends. */
  ghost predicate VisitedBelow<T>(a: seq<T>, b: seq<T>, v: map<int, int>, paths: map<int, map<int, int>>, d: nat, k: int)
  {
    forall j | InRange(d, j) && j < k ::
      j in v && v[j] == Furthest(a, b, d, j) && Lookup(paths, d, j) == Furthest(a, b, d, j) && !Terminal(a, b, d, j)
  }

  /** The inner loop body of `myersDiff` up to the end test: the furthest
      point of round `d` on diagonal `k`, stored in `v` and `paths[d]`. */
  method Visit<T(==)>(a: seq<T>, b: seq<T>, v: map<int, int>, paths: map<int, map<int, int>>, d: nat, k: int)
    returns (x: int, v': map<int, int>, paths': map<int, map<int, int>>)
    requires InRange(d, k) && Previous(a, b, v, d) && d in paths
    ensures x == Furthest(a, b, d, k)
    ensures k in v' && v'[k] == x && forall key | key in v && key != k :: key in v' && v'[key] == v[key]
    ensures d in paths' && Lookup(paths', d, k) == x
    ensures forall e, j | e != d || j != k :: Lookup(paths', e, j) == Lookup(paths, e, j)
  {
    var v1;
    x, v1 := Choose(a, b, v, d, k);
    x := FollowSnake(a, b, x, k);
    v' := v1[k := x];
    paths' := paths[d := paths[d][k := x]];
  }

  /** Rounds before `rounds` stay recorded when their entries do not change. */
  lemma RecordedFrame(paths: map<int, map<int, int>>, paths': map<int, map<int, int>>, F: (int, int) -> int, rounds: int)
    requires Recorded(paths, F, rounds)
    requires forall e, j | 0 <= e < rounds :: Lookup(paths', e, j) == Lookup(paths, e, j)
    ensures Recorded(paths', F, rounds)
  {
  }

  /** Visiting diagonal `k` of round `d` when its point is not at or beyond
      both ends keeps the loop's invariants, with `k + 2` next. */
  lemma VisitStep<T>(a: seq<T>, b: seq<T>, v: map<int, int>, paths: map<int, map<int, int>>,
                     v': map<int, int>, paths': map<int, map<int, int>>, d: nat, k: int, x: int)
    requires InRange(d, k) && d in paths && Recorded(paths, Table(a, b), d)
    requires Previous(a, b, v, d) && VisitedBelow(a, b, v, paths, d, k)
    requires x == Furthest(a, b, d, k) && !Terminal(a, b, d, k)
    requires k in v' && v'[k] == x && forall key | key in v && key != k :: key in v' && v'[key] == v[key]
    requires d in paths' && Lookup(paths', d, k) == x
    requires forall e, j | e != d || j != k :: Lookup(paths', e, j) == Lookup(paths, e, j)
    ensures d in paths' && Recorded(paths', Table(a, b), d) && Previous(a, b, v', d)
    ensures VisitedBelow(a, b, v', paths', d, k + 2)
  {
    RecordedFrame(paths, paths', Table(a, b), d);
    if d > 0 {
      forall j | InRange(d - 1, j)
        ensures j in v' && v'[j] == Furthest(a, b, d - 1, j)
      {
        assert j != k;
      }
    }
    forall j | InRange(d, j) && j < k + 2
      ensures j in v' && v'[j] == Furthest(a, b, d, j) && Lookup(paths', d, j) == Furthest(a, b, d, j) && !Terminal(a, b, d, j)
    {
      if j != k {
        assert j < k;
      }
    }
  }

  /** After the last diagonal of round `d` the round is recorded, `v` holds
      it for the next round, and it did not reach the corner. */
  lemma RoundDone<T>(a: seq<T>, b: seq<T>, v: map<int, int>, paths: map<int, map<int, int>>, d: nat)
    requires Recorded(paths, Table(a, b), d) && VisitedBelow(a, b, v, paths, d, d + 2)
    ensures Recorded(paths, Table(a, b), d + 1) && Previous(a, b, v, d + 1) && !Reached(a, b, d)
  {
    forall e, j | 0 <= e < d + 1 && InRange(e, j)
      ensures Lookup(paths, e, j) == Table(a, b)(e, j)
    {
      if e == d {
        TableAt(a, b, e, j);
      }
    }
    assert InRange(d, |a| - |b|) ==> !Terminal(a, b, d, |a| - |b|);
  }

  /** One round of `myersDiff`'s outer loop: records the furthest point of
      round `d` on each diagonal in `v` and `paths`, and stops at the first
      one at or beyond both ends, which is the corner. */
  method SearchRound<T(==)>(a: seq<T>, b: seq<T>, v: map<int, int>, paths: map<int, map<int, int>>, d: nat)
    returns (v': map<int, int>, paths': map<int, map<int, int>>, found: bool)
    requires Recorded(paths, Table(a, b), d) && Previous(a, b, v, d)
    requires forall e | 0 <= e < d :: !Reached(a, b, e)
    ensures found ==> Recorded(paths', Table(a, b), d) && InRange(d, |a| - |b|) && Furthest(a, b, d, |a| - |b|) == |a|
    ensures !found ==> Recorded(paths', Table(a, b), d + 1) && Previous(a, b, v', d + 1) && !Reached(a, b, d)
  {
    RecordedKeep(paths, Table(a, b), d, d, map[]);
    v', paths' := v, paths[d := map[]];
    found := false;
    var k := -(d as int);
    while k <= d
      invariant -(d as int) <= k <= d + 2 && (k + d) % 2 == 0
      invariant d in paths' && Recorded(paths', Table(a, b), d) && Previous(a, b, v', d)
      invariant VisitedBelow(a, b, v', paths', d, k)
      decreases d + 2 - k
    {
      var x, v1, p1 := Visit(a, b, v', paths', d, k);
      if x >= |a| && x - k >= |b| {
        FirstTerminalIsCorner(a, b, d, k);
        RecordedFrame(paths', p1, Table(a, b), d);
        return v1, p1, true;
      }
      VisitStep(a, b, v', paths', v1, p1, d, k, x);
      v', paths' := v1, p1;
      k := k + 2;
    }
    RoundDone(a, b, v', paths', d);
  }

  /** `myersDiff`: the greedy search round by round until a snake reaches
      the corner, then `buildEdits` on the recorded points. The script
      turns the old lines into the new ones with the number of changes
      of the first round that reaches the corner. */
  method MyersDiff<T(==)>(a: seq<T>, b: seq<T>) returns (edits: seq<Edit<T>>)
    ensures OldSide(edits) == a && NewSide(edits) == b && WellKinded(edits)
    ensures Reached(a, b, Changes(edits)) && forall d | 0 <= d < Changes(edits) :: !Reached(a, b, d)
    ensures Changes(edits) <= |a| + |b|
    ensures a == b ==> |edits| == |a| && forall i | 0 <= i < |edits| :: edits[i].kind == EqualKind
  {
    var max := |a| + |b|;
    var v := map[1 := 0];
    var paths: map<int, map<int, int>> := map[];
    var d := 0;
    while d <= max
      invariant 0 <= d <= max + 1
      invariant Recorded(paths, Table(a, b), d) && Previous(a, b, v, d)
      invariant forall e | 0 <= e < d :: !Reached(a, b, e)
    {
      var found;
      v, paths, found := SearchRound(a, b, v, paths, d);
      if found {
        TableTraceable(a, b);
        TableAt(a, b, d, |a| - |b|);
        edits := BuildEdits(a, b, paths, Table(a, b), d);
        if a == b {
          SnakeSame(a, 0);
          assert Reached(a, b, 0);
          NoChangesAllEqual(edits);
        }
        return;
      }
      d := d + 1;
    }
    ReachedByMax(a, b);
    assert false;
  }
}

=== FILE: enumeration.dfy ===
/** Go's `for k, v := range m` visits the keys of a map in an unspecified
    order. The model takes that order as a parameter: a sequence that lists
    every key exactly once. The lemmas here show that what such loops build
    does not depend on the order, up to rearrangement. */
module Enumeration {

  /** No value occurs twice in `s`. */
  predicate Distinct<T(==)>(s: seq<T>)
  {
    forall i, j | 0 <= i < j < |s| :: s[i] != s[j]
  }

  /** `order` lists every element of `keys` once and nothing else. */
  predicate Enumerates<T(==)>(order: seq<T>, keys: set<T>)
  {
    && Distinct(order)
    && (forall x | x in order :: x in keys)
    && (forall x | x in keys :: x in order)
  }

  /** A value occurs once in a sequence without repetitions, or not at all. */
  lemma {:induction false} DistinctMultiplicity<T>(s: seq<T>, x: T)
    requires Distinct(s)
    ensures multiset(s)[x] == if x in s then 1 else 0
    decreases |s|
  {
    if |s| > 0 {
      assert s == [s[0]] + s[1..];
      DistinctMultiplicity(s[1..], x);
      if s[0] == x {
        assert x !in s[1..];
      }
    }
  }

  /** Two enumerations of the same keys are rearrangements of each other. */
  lemma EnumerationsPermute<T>(o1: seq<T>, o2: seq<T>, keys: set<T>)
    requires Enumerates(o1, keys) && Enumerates(o2, keys)
    ensures multiset(o1) == multiset(o2)
  {
    forall x
      ensures multiset(o1)[x] == multiset(o2)[x]
    {
      DistinctMultiplicity(o1, x);
      DistinctMultiplicity(o2, x);
    }
  }

  /** The list a loop builds by appending `f(k)` for each visited `k`. */
  function FlatMap<T, U>(f: T -> seq<U>, s: seq<T>): seq<U>
    decreases |s|
  {
    if |s| == 0 then [] else f(s[0]) + FlatMap(f, s[1..])
  }

  lemma {:induction false} FlatMapAppend<T, U>(f: T -> seq<U>, a: seq<T>, b: seq<T>)
    ensures FlatMap(f, a + b) == FlatMap(f, a) + FlatMap(f, b)
    decreases |a|
  {
    if |a| == 0 {
      assert a + b == b;
    } else {
      assert (a + b)[1..] == a[1..] + b;
      FlatMapAppend(f, a[1..], b);
    }
  }

  /** Removing the element at `p` removes one occurrence of it. */
  lemma RemoveOne<T>(s: seq<T>, p: nat)
    requires p < |s|
    ensures s == s[..p] + [s[p]] + s[p + 1..]
    ensures multiset(s[..p] + s[p + 1..]) == multiset(s) - multiset{s[p]}
  {
    assert s == s[..p] + [s[p]] + s[p + 1..];
    assert multiset(s) == multiset(s[..p]) + multiset{s[p]} + multiset(s[p + 1..]);
  }

  /** The list built around a key in the middle of the order. */
  lemma FlatMapMiddle<T, U>(f: T -> seq<U>, before: seq<T>, x: T, after: seq<T>)
    ensures multiset(FlatMap(f, before + [x] + after))
         == multiset(f(x)) + multiset(FlatMap(f, before + after))
  {
    FlatMapAppend(f, before + [x], after);
    FlatMapAppend(f, before, [x]);
    FlatMapAppend(f, before, after);
    assert FlatMap(f, [x]) == f(x) by {
      assert [x][1..] == [];
    }
  }

  /** Visiting the same keys in another order appends the same elements. */
  lemma {:induction false} FlatMapPermutation<T, U>(f: T -> seq<U>, s1: seq<T>, s2: seq<T>)
    requires multiset(s1) == multiset(s2)
    ensures multiset(FlatMap(f, s1)) == multiset(FlatMap(f, s2))
    decreases |s1|
  {
    if |s1| == 0 {
      assert |s2| == |multiset(s2)|;
    } else {
      var x := s1[0];
      assert x in multiset(s2);
      var p :| 0 <= p < |s2| && s2[p] == x;
      RemoveOne(s2, p);
      RemoveOne(s1, 0);
      var before, after := s2[..p], s2[p + 1..];
      assert s1[..0] + s1[1..] == s1[1..];
      assert multiset(s1[1..]) == multiset(before + after);
      FlatMapPermutation(f, s1[1..], before + after);
      FlatMapMiddle(f, before, x, after);
    }
  }

  /** Appending, for each key, a rearrangement of what another loop appends
      gives a rearrangement of that loop's list. */
  lemma {:induction false} FlatMapPointwise<T, U>(f: T -> seq<U>, g: T -> seq<U>, s: seq<T>)
    requires forall i | 0 <= i < |s| :: multiset(f(s[i])) == multiset(g(s[i]))
    ensures multiset(FlatMap(f, s)) == multiset(FlatMap(g, s))
    decreases |s|
  {
    if |s| > 0 {
      FlatMapPointwise(f, g, s[1..]);
      assert multiset(f(s[0])) == multiset(g(s[0]));
    }
  }

  /** Every element of the built list comes from some visited key. */
  lemma {:induction false} FlatMapMember<T, U>(f: T -> seq<U>, s: seq<T>, y: U)
    requires y in FlatMap(f, s)
    ensures exists i | 0 <= i < |s| :: y in f(s[i])
    decreases |s|
  {
    if y !in f(s[0]) {
      FlatMapMember(f, s[1..], y);
      var i :| 0 <= i < |s[1..]| && y in f(s[1..][i]);
      assert y in f(s[i + 1]);
    }
  }

  /** What a visited key appends is in the built list. */
  lemma {:induction false} FlatMapHas<T, U>(f: T -> seq<U>, s: seq<T>, i: nat, y: U)
    requires i < |s| && y in f(s[i])
    ensures y in FlatMap(f, s)
    decreases i
  {
    if i > 0 {
      FlatMapHas(f, s[1..], i - 1, y);
    }
  }

  /** The keys a loop appends when `keep` holds of them, in visiting order. */
  function Select<T>(keep: T -> bool, s: seq<T>): seq<T>
  {
    FlatMap(x => if keep(x) then [x] else [], s)
  }

  /** A value is selected exactly when it is visited and kept. */
  lemma SelectMember<T>(keep: T -> bool, s: seq<T>, x: T)
    ensures x in Select(keep, s) <==> x in s && keep(x)
  {
    var f := y => if keep(y) then [y] else [];
    if x in Select(keep, s) {
      FlatMapMember(f, s, x);
      var i :| 0 <= i < |s| && x in f(s[i]);
      assert s[i] == x;
    }
    if x in s && keep(x) {
      var i :| 0 <= i < |s| && s[i] == x;
      assert x in f(s[i]);
      FlatMapHas(f, s, i, x);
    }
  }

  /** Nothing is selected exactly when no visited value is kept. */
  lemma SelectEmpty<T>(keep: T -> bool, s: seq<T>)
    ensures |Select(keep, s)| == 0 <==> forall i | 0 <= i < |s| :: !keep(s[i])
  {
    if |Select(keep, s)| > 0 {
      SelectMember(keep, s, Select(keep, s)[0]);
    }
    forall i | 0 <= i < |s| && keep(s[i])
      ensures |Select(keep, s)| > 0
    {
      SelectMember(keep, s, s[i]);
    }
  }

  /** Selecting from a rearrangement selects a rearrangement. */
  lemma SelectPermutation<T>(keep: T -> bool, s1: seq<T>, s2: seq<T>)
    requires multiset(s1) == multiset(s2)
    ensures multiset(Select(keep, s1)) == multiset(Select(keep, s2))
  {
    FlatMapPermutation(x => if keep(x) then [x] else [], s1, s2);
  }
}

=== FILE: filepath.dfy ===
/** The four functions of Go's `path/filepath` package that `WriteTree`
    relies on, for slash-separated paths without a volume name: `Split`,
    `Clean`, `Base` and `Dir`. */
module FilePath {
  import opened Bytes

  const Slash: byte := 47
  const Dot: Bytes := [46]
  const DotDot: Bytes := [46, 46]

  /** `filepath.Split`: the directory part, up to and including the last
      slash (empty when there is none), and the file name after it. */
  function SplitDir(path: Bytes): (dir: Bytes)
    ensures dir <= path
    ensures |dir| == 0 || dir[|dir| - 1] == Slash
  {
    path[..LastIndexOf(path, Slash) + 1]
  }

  function SplitFile(path: Bytes): (file: Bytes)
    ensures Slash !in file
    ensures SplitDir(path) + file == path
  {
    AfterLast(path, Slash)
  }

  /** The lexical resolution step of `filepath.Clean`: drops empty and "."
      elements, lets ".." cancel the element before it, drops ".." at the
      root of a rooted path and keeps it at the front of a relative one. */
  function Resolve(elements: seq<Bytes>, rooted: bool, kept: seq<Bytes>): seq<Bytes>
    decreases |elements|
  {
    if |elements| == 0 then kept
    else
      var e := elements[0];
      var next :=
        if e == [] || e == Dot then kept
        else if e != DotDot then kept + [e]
        else if |kept| > 0 && kept[|kept| - 1] != DotDot then kept[..|kept| - 1]
        else if rooted then kept
        else kept + [e];
      Resolve(elements[1..], rooted, next)
  }

  /** `filepath.Clean`: the shortest lexically equivalent path, "." for
      an empty result. */
  function Clean(path: Bytes): (r: Bytes)
    ensures |r| > 0
  {
    var rooted := |path| > 0 && path[0] == Slash;
    var elements := Resolve(Split(path, Slash), rooted, []);
    var joined := (if rooted then [Slash] else []) + Join(elements, Slash);
    if |joined| == 0 then Dot else joined
  }

  /** `filepath.Base`: the last element after trailing slashes are dropped;
      "." for the empty path and "/" for a path of slashes. */
  function Base(path: Bytes): (r: Bytes)
    ensures |r| > 0
    ensures r == [Slash] || Slash !in r
  {
    if |path| == 0 then Dot
    else
      var t := TrimSlashes(path);
      if |t| == 0 then [Slash] else AfterLast(t, Slash)
  }

  /** `filepath.Dir`: everything up to the last slash, cleaned. */
  function Dir(path: Bytes): (r: Bytes)
    ensures |r| > 0
  {
    Clean(SplitDir(path))
  }

  function TrimSlashes(path: Bytes): (r: Bytes)
    ensures r <= path
    ensures |r| == 0 || r[|r| - 1] != Slash
    decreases |path|
  {
    if |path| > 0 && path[|path| - 1] == Slash then TrimSlashes(path[..|path| - 1]) else path
  }

  // ---------------------------------------------------------------------------
  // The paths git stores: elements that are non-empty, hold no slash and are
  // neither "." nor "..".
  // ---------------------------------------------------------------------------

  predicate NormalName(c: Bytes)
  {
    |c| > 0 && Slash !in c && c != Dot && c != DotDot
  }

  predicate NormalNames(cs: seq<Bytes>)
  {
    forall i | 0 <= i < |cs| :: NormalName(cs[i])
  }

  lemma {:induction false} JoinSnoc(cs: seq<Bytes>, x: Bytes)
    requires |cs| >= 1
    ensures Join(cs + [x], Slash) == Join(cs, Slash) + [Slash] + x
    decreases |cs|
  {
    if |cs| == 1 {
      assert (cs + [x])[1..] == [x];
    } else {
      assert (cs + [x])[1..] == cs[1..] + [x];
      JoinSnoc(cs[1..], x);
    }
  }

  /** Splitting a join of slash-free elements gives the elements back. */
  lemma {:induction false} SplitJoin(cs: seq<Bytes>)
    requires |cs| >= 1
    requires forall i | 0 <= i < |cs| :: Slash !in cs[i]
    ensures Split(Join(cs, Slash), Slash) == cs
    decreases |cs|
  {
    if |cs| == 1 {
      IndexOfAbsent(cs[0], Slash);
    } else {
      var j := Join(cs, Slash);
      var n := |cs[0]|;
      assert j == cs[0] + [Slash] + Join(cs[1..], Slash);
      forall k | 0 <= k < n
        ensures j[k] != Slash
      {
        assert j[k] == cs[0][k];
      }
      IndexOfIs(j, Slash, n);
      SplitStep(j, Slash, n);
      assert j[..n] == cs[0];
      assert j[n + 1..] == Join(cs[1..], Slash);
      SplitJoin(cs[1..]);
      assert cs == [cs[0]] + cs[1..];
    }
  }

  /** Normal elements are all kept by the resolution step. */
  lemma {:induction false} ResolveNormal(cs: seq<Bytes>, tail: seq<Bytes>, rooted: bool, kept: seq<Bytes>)
    requires NormalNames(cs)
    ensures Resolve(cs + tail, rooted, kept) == Resolve(tail, rooted, kept + cs)
    decreases |cs|
  {
    if |cs| == 0 {
      assert cs + tail == tail;
      assert kept + cs == kept;
    } else {
      assert (cs + tail)[0] == cs[0];
      assert (cs + tail)[1..] == cs[1..] + tail;
      ResolveNormal(cs[1..], tail, rooted, kept + [cs[0]]);
      assert kept + [cs[0]] + cs[1..] == kept + cs;
    }
  }

  lemma JoinStart(cs: seq<Bytes>)
    requires |cs| >= 1 && |cs[0]| > 0
    ensures |Join(cs, Slash)| > 0 && Join(cs, Slash)[0] == cs[0][0]
  {
  }

  lemma {:induction false} JoinEnd(cs: seq<Bytes>)
    requires |cs| >= 1 && |cs[|cs| - 1]| > 0
    ensures |Join(cs, Slash)| > 0
    ensures Join(cs, Slash)[|Join(cs, Slash)| - 1] == cs[|cs| - 1][|cs[|cs| - 1]| - 1]
  {
    if |cs| > 1 {
      var init := cs[..|cs| - 1];
      assert cs == init + [cs[|cs| - 1]];
      JoinSnoc(init, cs[|cs| - 1]);
    }
  }

  /** A normal relative path is already clean. */
  lemma CleanJoin(cs: seq<Bytes>)
    requires |cs| >= 1 && NormalNames(cs)
    ensures Clean(Join(cs, Slash)) == Join(cs, Slash)
  {
    var j := Join(cs, Slash);
    assert NormalName(cs[0]);
    JoinStart(cs);
    assert j[0] != Slash;
    SplitJoin(cs);
    assert Resolve(cs, false, []) == cs by {
      ResolveNormal(cs, [], false, []);
      assert cs + [] == cs;
      assert [] + cs == cs;
    }
    CleanRelative(j, cs);
  }

  /** `Clean` of a relative path whose elements resolve to `kept`. */
  lemma CleanRelative(path: Bytes, kept: seq<Bytes>)
    requires |path| > 0 && path[0] != Slash
    requires Resolve(Split(path, Slash), false, []) == kept
    requires |Join(kept, Slash)| > 0
    ensures Clean(path) == Join(kept, Slash)
  {
    assert [] + Join(kept, Slash) == Join(kept, Slash);
  }

  /** Cleaning the directory part of a normal path drops its trailing slash. */
  lemma CleanDirectory(cs: seq<Bytes>)
    requires |cs| >= 1 && NormalNames(cs)
    ensures Clean(Join(cs, Slash) + [Slash]) == Join(cs, Slash)
  {
    var elements: seq<Bytes> := cs + [[]];
    var p := Join(cs, Slash) + [Slash];
    JoinSnoc(cs, []);
    assert p == Join(elements, Slash);
    assert NormalName(cs[0]);
    forall i | 0 <= i < |elements|
      ensures Slash !in elements[i]
    {
      if i < |cs| {
        assert NormalName(cs[i]);
      }
    }
    SplitJoin(elements);
    JoinStart(cs);
    assert p[0] != Slash;
    assert Resolve(elements, false, []) == cs by {
      ResolveNormal(cs, [[]], false, []);
      var empty: seq<Bytes> := [[]];
      assert empty[1..] == [];
      assert [] + cs == cs;
    }
    CleanRelative(p, cs);
  }

  /** The base of a path with no trailing slash is what follows its last
      slash, with or without one more slash appended. */
  lemma BaseOf(p: Bytes)
    requires |p| > 0 && p[|p| - 1] != Slash
    ensures Base(p) == AfterLast(p, Slash)
    ensures Base(p + [Slash]) == AfterLast(p, Slash)
  {
    assert TrimSlashes(p) == p;
    assert (p + [Slash])[..|p|] == p;
    assert TrimSlashes(p + [Slash]) == p;
  }

  /** Splitting a path whose last slash is at a known place. */
  lemma SplitAt(p: Bytes, dir: Bytes, file: Bytes)
    requires p == dir + [Slash] + file
    requires Slash !in file
    ensures SplitDir(p) == dir + [Slash]
    ensures SplitFile(p) == file
  {
    forall t | |dir| < t < |p|
      ensures p[t] != Slash
    {
      assert p[t] == file[t - |dir| - 1];
    }
    ScanBackIs(p, |p|, Slash, |dir|);
    assert p[..|dir| + 1] == dir + [Slash];
    assert p[|dir| + 1..] == file;
  }

  /** The last element of a normal path is its base. */
  lemma BaseJoin(cs: seq<Bytes>)
    requires |cs| >= 1 && NormalNames(cs)
    ensures Base(Join(cs, Slash)) == cs[|cs| - 1]
    ensures Base(Join(cs, Slash) + [Slash]) == cs[|cs| - 1]
  {
    var j := Join(cs, Slash);
    assert NormalName(cs[|cs| - 1]);
    JoinEnd(cs);
    BaseOf(j);
    forall i | 0 <= i < |cs|
      ensures Slash !in cs[i]
    {
      assert NormalName(cs[i]);
    }
    SplitJoin(cs);
    SplitLast(j, Slash);
  }

  /** The directory of a normal path of two or more elements is the path of
      all but its last element. */
  lemma DirJoin(cs: seq<Bytes>)
    requires |cs| >= 2 && NormalNames(cs)
    ensures Dir(Join(cs, Slash)) == Join(cs[..|cs| - 1], Slash)
  {
    JoinInit(cs);
    assert NormalName(cs[|cs| - 1]);
    SplitAt(Join(cs, Slash), Join(cs[..|cs| - 1], Slash), cs[|cs| - 1]);
    assert NormalNames(cs[..|cs| - 1]);
    CleanDirectory(cs[..|cs| - 1]);
  }

  lemma JoinInit(cs: seq<Bytes>)
    requires |cs| >= 2
    ensures Join(cs, Slash) == Join(cs[..|cs| - 1], Slash) + [Slash] + cs[|cs| - 1]
  {
    var init, last := cs[..|cs| - 1], cs[|cs| - 1];
    calc {
      Join(cs, Slash);
      { InitLast(cs); }
      Join(init + [last], Slash);
      { JoinSnoc(init, last); }
      Join(init, Slash) + [Slash] + last;
    }
  }

  /** A join of two or more non-empty elements has a slash and is not "/". */
  lemma JoinHasSlash(cs: seq<Bytes>)
    requires |cs| >= 2 && |cs[0]| > 0
    ensures Slash in Join(cs, Slash) && Join(cs, Slash) != [Slash]
  {
    var j := Join(cs, Slash);
    assert j == cs[0] + [Slash] + Join(cs[1..], Slash);
    assert j[|cs[0]|] == Slash;
    assert |j| > 1;
  }
}

=== FILE: layout.dfy ===
/** Encodings written back to back: where each one starts. Generic in the
    encoder, so that these facts are proved once about positions alone. */
module Layout {
  import opened Bytes

  /** The encodings of `xs`, one after another. */
  function Encodings<T>(xs: seq<T>, enc: T -> Bytes): Bytes
    decreases |xs|
  {
    if |xs| == 0 then [] else enc(xs[0]) + Encodings(xs[1..], enc)
  }

  /** `content` holds the encoding of each element from its start, and the
      next element starts right after it. */
  predicate LaidOut<T>(content: Bytes, starts: seq<nat>, xs: seq<T>, enc: T -> Bytes)
  {
    && |starts| == |xs| + 1
    && forall i | 0 <= i < |xs| ::
         && starts[i + 1] == starts[i] + |enc(xs[i])| <= |content|
         && content[starts[i]..starts[i] + |enc(xs[i])|] == enc(xs[i])
  }

  /** A slice of a copy of `b` inside `s` is the same slice of `b`. */
  lemma CopySlice(s: Bytes, off: nat, b: Bytes, i: nat, j: nat)
    requires off + |b| <= |s| && s[off..off + |b|] == b && i <= j <= |b|
    ensures s[off + i..off + j] == b[i..j]
  {
    forall k | 0 <= k < j - i
      ensures s[off + i..off + j][k] == b[i..j][k]
    {
      assert s[off + i + k] == s[off..off + |b|][i + k];
    }
  }

  /** The first encoding and the rest, each found where they start. */
  lemma EncodingsSplit<T>(xs: seq<T>, enc: T -> Bytes, content: Bytes, offset: nat)
    requires |xs| > 0
    requires offset + |Encodings(xs, enc)| <= |content|
    requires content[offset..offset + |Encodings(xs, enc)|] == Encodings(xs, enc)
    ensures content[offset..offset + |enc(xs[0])|] == enc(xs[0])
    ensures content[offset + |enc(xs[0])|..offset + |enc(xs[0])| + |Encodings(xs[1..], enc)|] == Encodings(xs[1..], enc)
  {
    var c := Encodings(xs, enc);
    CopySlice(content, offset, c, 0, |enc(xs[0])|);
    assert c[0..|enc(xs[0])|] == enc(xs[0]);
    CopySlice(content, offset, c, |enc(xs[0])|, |c|);
    assert c[|enc(xs[0])|..|c|] == Encodings(xs[1..], enc);
  }

  /** An encoding at `offset`, followed by the rest laid out, is laid out. */
  lemma LaidOutCons<T>(content: Bytes, offset: nat, xs: seq<T>, enc: T -> Bytes, rest: seq<nat>)
    requires |xs| > 0
    requires offset + |enc(xs[0])| <= |content|
    requires content[offset..offset + |enc(xs[0])|] == enc(xs[0])
    requires LaidOut(content, rest, xs[1..], enc) && rest[0] == offset + |enc(xs[0])|
    ensures LaidOut(content, [offset] + rest, xs, enc)
  {
    var starts := [offset] + rest;
    forall i | 0 <= i < |xs|
      ensures && starts[i + 1] == starts[i] + |enc(xs[i])| <= |content|
              && content[starts[i]..starts[i] + |enc(xs[i])|] == enc(xs[i])
    {
      if i > 0 {
        assert starts[i] == rest[i - 1] && starts[i + 1] == rest[i];
        assert xs[i] == xs[1..][i - 1];
      }
    }
  }

  /** Encodings placed back to back at `offset` are laid out one by one,
      the first starting at `offset`. */
  lemma {:induction false} LayOut<T>(xs: seq<T>, enc: T -> Bytes, content: Bytes, offset: nat) returns (starts: seq<nat>)
    requires offset + |Encodings(xs, enc)| <= |content|
    requires content[offset..offset + |Encodings(xs, enc)|] == Encodings(xs, enc)
    ensures LaidOut(content, starts, xs, enc) && starts[0] == offset
    decreases |xs|
  {
    if |xs| == 0 {
      starts := [offset];
    } else {
      EncodingsSplit(xs, enc, content, offset);
      var rest := LayOut(xs[1..], enc, content, offset + |enc(xs[0])|);
      LaidOutCons(content, offset, xs, enc, rest);
      starts := [offset] + rest;
    }
  }

  /** Dropping the first element of a layout leaves a layout. */
  lemma LaidOutTail<T>(content: Bytes, starts: seq<nat>, xs: seq<T>, enc: T -> Bytes)
    requires |xs| > 0 && LaidOut(content, starts, xs, enc)
    ensures LaidOut(content, starts[1..], xs[1..], enc)
  {
    forall i | 0 <= i < |xs| - 1
      ensures && starts[1..][i + 1] == starts[1..][i] + |enc(xs[1..][i])| <= |content|
              && content[starts[1..][i]..starts[1..][i] + |enc(xs[1..][i])|] == enc(xs[1..][i])
    {
      assert starts[1..][i] == starts[i + 1] && starts[1..][i + 1] == starts[i + 2];
      assert xs[1..][i] == xs[i + 1];
    }
  }

  /** A layout ends where the encodings, taken together, end. */
  lemma {:induction false} LaidOutEnd<T>(content: Bytes, starts: seq<nat>, xs: seq<T>, enc: T -> Bytes)
    requires LaidOut(content, starts, xs, enc)
    ensures starts[|xs|] == starts[0] + |Encodings(xs, enc)|
    decreases |xs|
  {
    if |xs| > 0 {
      LaidOutTail(content, starts, xs, enc);
      LaidOutEnd(content, starts[1..], xs[1..], enc);
      assert starts[1..][0] == starts[0] + |enc(xs[0])|;
      assert starts[1..][|xs| - 1] == starts[|xs|];
    }
  }
}

=== FILE: push.dfy ===
/** The part of `ccgit push` that reads the server's ref advertisement: the
    reply to `GET <remote>/info/refs?service=git-receive-pack`, from which
    the client takes the remote branch's object id and the ref it names.
    The HTTP exchange, the object walk and the pack upload are not modelled. */
module Push {
  import opened Wrappers
  import opened Bytes

  /** What `parseReceivePack` returns: the 40 bytes where the remote object
      id sits and the ref named after it. */
  datatype Advertised = Advertised(hash: Bytes, refName: Bytes)

  /** The `nil, ""` pair returned for an advertisement the parser gives up on. */
  const NoAdvertisement: Advertised := Advertised([], [])

  /** The ref assumed when the remote object id is all zero. */
  const DefaultRef: Bytes := Str("refs/heads/main")

  /** `n` copies of `b`. */
  function Repeat(b: byte, n: nat): (r: Bytes)
    ensures |r| == n && forall i | 0 <= i < n :: r[i] == b
  {
    if n == 0 then [] else [b] + Repeat(b, n - 1)
  }

  /** `make([]byte, 40)`: forty zero bytes, the value the object id is compared with. */
  const ZeroHash: Bytes := Repeat(0, 40)

  /** The ref after an object id: the last space-separated word before the
      first NUL of `line`. */
  function RefOf(line: Bytes): (name: Bytes)
    ensures NUL !in name && SP !in name
  {
    var words := BeforeFirst(line, NUL);
    BeforeFirstExcludes(line, NUL);
    AfterLastExcludes(words, SP);
    AfterLast(words, SP)
  }

  /** `parseReceivePack`: the first pkt-line's four hexadecimal length digits
      are read with `strconv.ParseInt(_, 16, 64)`; the object id is taken
      `4 + length + 4` bytes in, which skips the rest of that line, the
      flush packet and the next line's length; the ref is the last word
      before the NUL that ends the next line, counted from one byte into the
      object id, unless the object id is forty zero bytes, which stands for
      `refs/heads/main`. A length that does not parse, a zero length, or a
      reply too short for the object id gives `NoAdvertisement`. `None` is a
      Go slice panic: a reply shorter than four bytes, or a negative length
      that moves the object id before the start of the reply. */
  function ParseReceivePack(data: Bytes): (r: Option<Advertised>)
    ensures r.None? ==> |data| < 4 || data[0] == Minus
    ensures r.Some? && r.value != NoAdvertisement ==> |r.value.hash| == 40
    ensures r.Some? ==> NUL !in r.value.refName && SP !in r.value.refName
    ensures r.Some? && r.value.hash == ZeroHash ==> r.value.refName == DefaultRef
  {
    ParseAdvertisement(data, ZeroHash)
  }

  /** The parser with the object id that stands for "no branch yet" as a
      parameter. */
  function ParseAdvertisement(data: Bytes, zero: Bytes): (r: Option<Advertised>)
    ensures r.None? ==> |data| < 4 || data[0] == Minus
    ensures r.Some? && r.value != NoAdvertisement ==> |r.value.hash| == 40
    ensures r.Some? ==> NUL !in r.value.refName && SP !in r.value.refName
    ensures r.Some? && r.value.hash == zero && zero != [] ==> r.value.refName == DefaultRef
  {
    if |data| < 4 then None
    else
      match ParseInt(data[..4], 16)
      case None => Some(NoAdvertisement)
      case Some(chunkSize) =>
        if chunkSize == 0 then Some(NoAdvertisement)
        else
          var offset := 4 + chunkSize + 4;
          if |data| < offset + 40 then Some(NoAdvertisement)
          else if offset < 0 then
            ParseIntNegative(data[..4], 16);
            None
          else
            var hash := data[offset..offset + 40];
            DefaultRefLetters();
            Some(Advertised(hash, if hash == zero then DefaultRef else RefOf(data[offset + 1..])))
  }

  const Minus: byte := 45

  lemma DefaultRefLetters()
    ensures DefaultRef == [114, 101, 102, 115, 47, 104, 101, 97, 100, 115, 47, 109, 97, 105, 110]
    ensures NUL !in DefaultRef && SP !in DefaultRef
  {
  }

  lemma BeforeFirstExcludes(s: Bytes, b: byte)
    ensures b !in BeforeFirst(s, b)
  {
  }

  lemma AfterLastExcludes(s: Bytes, b: byte)
    ensures b !in AfterLast(s, b)
  {
    var r := LastIndexOf(s, b);
    forall j | 0 <= j < |s| - (r + 1)
      ensures AfterLast(s, b)[j] != b
    {
      assert AfterLast(s, b)[j] == s[r + 1 + j];
    }
  }

  /** Only a leading minus sign makes `strconv.ParseInt` negative. */
  lemma ParseIntNegative(s: Bytes, base: nat)
    requires ParseInt(s, base).Some? && ParseInt(s, base).value < 0
    ensures |s| > 0 && s[0] == Minus
  {
  }

  // ---------------------------------------------------------------------------
  // The advertisement as a server sends it
  // ---------------------------------------------------------------------------

  /** The four lower-case hexadecimal digits of a pkt-line length. */
  function PktLength(n: nat): (r: Bytes)
    requires n < 0x1_0000
    ensures |r| == 4
  {
    [HexDigit(n / 16 / 16 / 16), HexDigit(n / 16 / 16 % 16), HexDigit(n / 16 % 16), HexDigit(n % 16)]
  }

  const Flush: Bytes := [48, 48, 48, 48]

  /** A ref advertisement: the `# service=...` pkt-line (its length counts
      its own four digits), a flush packet, then a line holding the object
      id, a space, the ref, a NUL and whatever follows (the capability list
      and further lines). `lineLength` is the second line's length field,
      which the parser skips unread. */
  function Advertisement(service: Bytes, lineLength: Bytes, hash: Bytes, refName: Bytes, rest: Bytes): Bytes
    requires |service| + 4 < 0x1_0000
  {
    PktLength(|service| + 4) + service + Flush + lineLength + hash + [SP] + refName + [NUL] + rest
  }

  lemma HexDigitValue(d: nat)
    requires d < 16
    ensures DigitValue(HexDigit(d)) == d && IsDigitIn(HexDigit(d), 16)
    ensures HexDigit(d) != 43 && HexDigit(d) != Minus
  {
  }

  /** The value of four hexadecimal digits, most significant first. */
  lemma FourDigits(w: byte, x: byte, y: byte, z: byte)
    ensures DigitsValue([w, x, y, z], 16)
         == ((DigitValue(w) * 16 + DigitValue(x)) * 16 + DigitValue(y)) * 16 + DigitValue(z)
  {
    assert [w, x, y, z][..3] == [w, x, y];
    ThreeDigits(w, x, y);
  }

  lemma ThreeDigits(x: byte, y: byte, z: byte)
    ensures DigitsValue([x, y, z], 16) == (DigitValue(x) * 16 + DigitValue(y)) * 16 + DigitValue(z)
  {
    assert [x, y, z][..2] == [x, y];
    assert [x, y][..1] == [x];
    assert [x][..0] == [];
    assert DigitsValue([x], 16) == DigitValue(x);
    assert DigitsValue([x, y], 16) == DigitValue(x) * 16 + DigitValue(y);
  }

  /** A pkt-line length reads back as the number it encodes. */
  lemma ParsePktLength(n: nat)
    requires n < 0x1_0000
    ensures ParseInt(PktLength(n), 16) == Some(n)
  {
    var q1 := n / 16;
    var q2 := q1 / 16;
    var q3 := q2 / 16;
    assert n == q1 * 16 + n % 16 && q1 == q2 * 16 + q1 % 16 && q2 == q3 * 16 + q2 % 16;
    assert q3 < 16;
    var s := PktLength(n);
    HexDigitValue(q3);
    HexDigitValue(q2 % 16);
    HexDigitValue(q1 % 16);
    HexDigitValue(n % 16);
    DigitsOkIff(s, 16);
    FourDigits(s[0], s[1], s[2], s[3]);
    assert s == [s[0], s[1], s[2], s[3]];
    assert DigitsValue(s, 16) == n;
  }

  /** An advertisement whose object id is not all zero bytes gives back that
      object id and the ref named after it. */
  lemma AdvertisementRead(service: Bytes, lineLength: Bytes, hash: Bytes, refName: Bytes, rest: Bytes)
    requires |service| + 4 < 0x1_0000 && |lineLength| == 4
    requires |hash| == 40 && hash != ZeroHash && NUL !in hash
    requires NUL !in refName && SP !in refName
    ensures ParseReceivePack(Advertisement(service, lineLength, hash, refName, rest)) == Some(Advertised(hash, refName))
  {
    var data := Advertisement(service, lineLength, hash, refName, rest);
    var prefix := PktLength(|service| + 4) + service + Flush + lineLength;
    var offset := |prefix|;
    var line := hash[1..] + [SP] + refName;
    AdvertisementLayout(prefix, hash, refName, rest, data);
    ParsePktLength(|service| + 4);
    assert data[..4] == PktLength(|service| + 4);
    assert data[offset..offset + 40] == hash;
    assert NUL !in line;
    SplitFirstLine(line, NUL, rest);
    AfterLastIs(hash[1..], SP, refName);
    assert RefOf(data[offset + 1..]) == refName;
  }

  lemma AdvertisementLayout(prefix: Bytes, hash: Bytes, refName: Bytes, rest: Bytes, data: Bytes)
    requires |prefix| >= 4 && |hash| == 40
    requires data == prefix + hash + [SP] + refName + [NUL] + rest
    ensures data[..4] == prefix[..4]
    ensures data[|prefix|..|prefix| + 40] == hash
    ensures data[|prefix| + 1..] == hash[1..] + [SP] + refName + [NUL] + rest
  {
    SlicesOf(prefix, hash, [SP] + refName + [NUL] + rest);
    assert data == prefix + hash + ([SP] + refName + [NUL] + rest);
  }

  lemma SlicesOf<T>(p: seq<T>, h: seq<T>, t: seq<T>)
    requires |p| >= 4 && |h| >= 1
    ensures (p + h + t)[..4] == p[..4]
    ensures (p + h + t)[|p|..|p| + |h|] == h
    ensures (p + h + t)[|p| + 1..] == h[1..] + t
  {
  }

  /** Whatever the rest of the line says, an all-zero object id stands for
      the default branch. */
  lemma ZeroHashMeansMain(service: Bytes, lineLength: Bytes, refName: Bytes, rest: Bytes)
    requires |service| + 4 < 0x1_0000 && |lineLength| == 4
    ensures ParseReceivePack(Advertisement(service, lineLength, ZeroHash, refName, rest)) == Some(Advertised(ZeroHash, DefaultRef))
  {
    var data := Advertisement(service, lineLength, ZeroHash, refName, rest);
    var prefix := PktLength(|service| + 4) + service + Flush + lineLength;
    AdvertisementLayout(prefix, ZeroHash, refName, rest, data);
    ParsePktLength(|service| + 4);
    assert data[..4] == PktLength(|service| + 4);
  }

  /** `strconv.ParseInt` accepts a sign: a length field of `-001` is -1 and
      puts the object id at offset 7, inside the length field's own line. */
  lemma SignedLengthAccepted(data: Bytes)
    requires |data| >= 47 && data[..4] == [Minus, 48, 48, 49]
    ensures ParseReceivePack(data) == Some(Advertised(data[7..47], if data[7..47] == ZeroHash then DefaultRef else RefOf(data[8..])))
  {
    var s := data[..4];
    DigitsOkIff(s[1..], 16);
    ThreeDigits(48, 48, 49);
    assert s[1..] == [48, 48, 49];
    assert ParseInt(s, 16) == Some(-1);
  }

  /** A length below -8 points before the start of the reply: the slice panics. */
  lemma NegativeLengthPanics(data: Bytes)
    requires |data| >= 39 && data[..4] == [Minus, 48, 48, 57]
    ensures ParseReceivePack(data).None?
  {
    var s := data[..4];
    DigitsOkIff(s[1..], 16);
    ThreeDigits(48, 48, 57);
    assert s[1..] == [48, 48, 57];
    assert ParseInt(s, 16) == Some(-9);
  }

  /** A zero length, or one that does not parse, gives up on the reply. */
  lemma ZeroLengthGivesNothing(data: Bytes)
    requires |data| >= 4 && data[..4] == Flush
    ensures ParseReceivePack(data) == Some(NoAdvertisement)
  {
    var s := data[..4];
    DigitsOkIff(s, 16);
    FourDigits(48, 48, 48, 48);
  }

  // ---------------------------------------------------------------------------
  // The empty repository's advertisement
  // ---------------------------------------------------------------------------

  /** The object id a server advertises for a repository with no refs, as
      forty ASCII `0` characters, followed by the pseudo-ref `capabilities^{}`. */
  const ZeroId: Bytes := Repeat(48, 40)

  const CapabilitiesRef: Bytes := Str("capabilities^{}")

  lemma CapabilitiesRefLetters()
    ensures CapabilitiesRef == [99, 97, 112, 97, 98, 105, 108, 105, 116, 105, 101, 115, 94, 123, 125]
    ensures NUL !in CapabilitiesRef && SP !in CapabilitiesRef
  {
  }

  /** As written, the object id is compared with forty zero bytes, which a
      textual advertisement never holds: an empty repository's reply yields
      the pseudo-ref `capabilities^{}` instead of `refs/heads/main`. */
  lemma EmptyRepositoryAsWritten(service: Bytes, lineLength: Bytes, rest: Bytes)
    requires |service| + 4 < 0x1_0000 && |lineLength| == 4
    ensures ParseReceivePack(Advertisement(service, lineLength, ZeroId, CapabilitiesRef, rest))
         == Some(Advertised(ZeroId, CapabilitiesRef))
    ensures CapabilitiesRef != DefaultRef
  {
    CapabilitiesRefLetters();
    DefaultRefLetters();
    assert ZeroId[0] == 48 && ZeroHash[0] == 0;
    AdvertisementRead(service, lineLength, ZeroId, CapabilitiesRef, rest);
  }

  /** `parseReceivePack` comparing the object id with the textual zero id. */
  function ParseReceivePackIntended(data: Bytes): (r: Option<Advertised>)
    ensures r.None? ==> |data| < 4 || data[0] == Minus
    ensures r.Some? && r.value != NoAdvertisement ==> |r.value.hash| == 40
    ensures r.Some? ==> NUL !in r.value.refName && SP !in r.value.refName
    ensures r.Some? && r.value.hash == ZeroId ==> r.value.refName == DefaultRef
  {
    ParseAdvertisement(data, ZeroId)
  }

  /** Compared with the textual zero id, an empty repository's reply names
      the default branch. */
  lemma EmptyRepositoryIntended(service: Bytes, lineLength: Bytes, rest: Bytes)
    requires |service| + 4 < 0x1_0000 && |lineLength| == 4
    ensures ParseReceivePackIntended(Advertisement(service, lineLength, ZeroId, CapabilitiesRef, rest))
         == Some(Advertised(ZeroId, DefaultRef))
  {
    var data := Advertisement(service, lineLength, ZeroId, CapabilitiesRef, rest);
    var prefix := PktLength(|service| + 4) + service + Flush + lineLength;
    AdvertisementLayout(prefix, ZeroId, CapabilitiesRef, rest, data);
    ParsePktLength(|service| + 4);
    assert data[..4] == PktLength(|service| + 4);
  }

  /** The correction changes nothing for an object id that is neither zero
      form. */
  lemma IntendedAgreesElsewhere(data: Bytes)
    requires var r := ParseReceivePack(data); r.Some? ==> r.value.hash != ZeroHash && r.value.hash != ZeroId
    ensures ParseReceivePackIntended(data) == ParseReceivePack(data)
  {
  }
}

=== FILE: readindex.dfy ===
/** The index decoder of pkg/commands/read-index.go: `ReadIndex`,
    `readEntry` for versions 2, 3 and 4, and the "TREE" cache-tree
    extension parser. A Go panic or `log.Fatal` ends the process; here it is
    an `Err`. */
module IndexDecoder {
  import opened Wrappers
  import opened Bytes
  import opened Types
  import opened Utils
  import opened Layout

  /** Why decoding stopped the process. */
  datatype IndexError =
    | OutOfRange             // a slice or index past the end of the content
    | FlagsOutOfBounds       // the flags word does not fit (a logged fatal error)
    | StripTooLong           // a version-4 strip count longer than the previous path
    | BadCacheTree(reason: CacheTreeError)

  datatype CacheTreeError =
    | NoPathTerminator
    | NoSpaceAfterEntryCount
    | InvalidEntryCount
    | NoNewlineAfterSubtreeCount
    | InvalidSubtreeCount
    | ShortOid

  // ---------------------------------------------------------------------------
  // readEntry
  // ---------------------------------------------------------------------------

  /** A decoded entry, the offset after it, and the path a following
      version-4 entry is relative to. */
  datatype EntryRead = EntryRead(entry: Entry, next: nat, previousPath: Bytes)

  datatype PathRead = PathRead(path: Bytes, next: nat, previousPath: Bytes)

  /** The version-dependent tail of `readEntry`, from the first byte after
      the flags word(s) at `offset`; `entryStart` is where the entry began. */
  function ReadPath(content: Bytes, entryStart: nat, offset: nat, version: u32,
                    nameLen: nat, previousPath: Bytes): (r: Result<PathRead, IndexError>)
    requires entryStart <= offset <= |content|
    ensures r.Ok? && (version == 2 || version == 3) && nameLen <= |content| ==> (r.value.next - entryStart) % 8 == 0
    ensures r.Ok? && version == 4 ==> r.value.path == []
    ensures r.Ok? ==> offset <= r.value.next
    ensures r.Ok? && version != 4 ==> r.value.previousPath == previousPath
  {
    if version == 2 || version == 3 then
      if nameLen < 0xFFF then
        if nameLen > |content| then
          // the `break` out of the switch: no path, no terminator, no padding
          Ok(PathRead([], offset, previousPath))
        else if offset + nameLen > |content| then
          Err(OutOfRange)
        else
          var end := offset + nameLen + 1;
          Ok(PathRead(content[offset..offset + nameLen], end + Padding(end - entryStart), previousPath))
      else
        var nul := Scan(content, offset, NUL);
        if nul == |content| then Err(OutOfRange)
        else
          var end := nul + 1;
          Ok(PathRead(content[offset..nul], end + Padding(end - entryStart), previousPath))
    else if version == 4 then
      match ReadVarInt(content, offset)
      case None => Err(OutOfRange)
      case Some(strip) =>
        var nul := Scan(content, strip.next, NUL);
        if nul == |content| then Err(OutOfRange)
        else if strip.value > |previousPath| then Err(StripTooLong)
        else
          // the full path is only stored as the next entry's base: the
          // entry's own path is the outer, never assigned, variable
          var path := previousPath[..|previousPath| - strip.value] + content[strip.next..nul];
          Ok(PathRead([], nul + 1, path))
    else
      Ok(PathRead([], offset, previousPath))
  }

  /** The bit of `w` whose weight is `weight` (a power of two, such as
      0x4000 for bit 14). */
  function Bit(w: nat, weight: nat): bool
    requires weight > 0
  {
    w / weight % 2 == 1
  }

  /** `readEntry`: decodes the entry at `offset` of an index of the given version. */
  function ReadEntry(content: Bytes, offset: nat, version: u32, previousPath: Bytes): (r: Result<EntryRead, IndexError>)
    ensures r.Ok? ==> offset + 62 <= r.value.next
    ensures r.Ok? ==> offset + 62 <= |content| && r.value.entry.sha1 == content[offset + 40..offset + 60]
    ensures r.Ok? && version == 4 ==> r.value.entry.path == []
    ensures r.Ok? && version != 4 ==> r.value.previousPath == previousPath
    ensures r.Ok? ==> r.value.entry.objectType < 16 && r.value.entry.perms < 0x200 && r.value.entry.nameLength < 0x1000
    ensures r.Ok? && !r.value.entry.extendedFlag ==>
              !r.value.entry.skipWorktree && !r.value.entry.intentToAdd && !r.value.entry.future
  {
    ZeroBits();
    if offset + 60 > |content| then Err(OutOfRange)
    else if offset + 62 > |content| then Err(FlagsOutOfBounds)
    else
      var flags := Uint16(content[offset + 60..offset + 62]);
      var extended := Bit(flags, 0x4000);
      var afterFlags := offset + 62;
      if extended && afterFlags + 2 > |content| then Err(OutOfRange)
      else
        var ext := if extended then Uint16(content[afterFlags..afterFlags + 2]) else 0;
        var pathStart := if extended then afterFlags + 2 else afterFlags;
        var p :- ReadPath(content, offset, pathStart, version, flags % 0x1000, previousPath);
        var entry := DecodeEntry(StatAt(content, offset), content[offset + 40..offset + 60], flags, ext, p.path);
        Ok(EntryRead(entry, p.next, p.previousPath))
  }

  /** `n` consecutive big-endian 32-bit words starting at `at`. */
  function Words(content: Bytes, at: nat, n: nat): (w: seq<u32>)
    requires at + 4 * n <= |content|
    ensures |w| == n
    decreases n
  {
    if n == 0 then [] else [Uint32(content[at..at + 4])] + Words(content, at + 4, n - 1)
  }

  lemma {:induction false} WordsIndex(content: Bytes, at: nat, n: nat, i: nat)
    requires at + 4 * n <= |content| && i < n
    ensures Words(content, at, n)[i] == Uint32(content[at + 4 * i..at + 4 * i + 4])
    decreases n
  {
    if i > 0 {
      WordsIndex(content, at + 4, n - 1, i - 1);
    }
  }

  /** The ten big-endian stat words at `offset`. */
  function StatAt(content: Bytes, offset: nat): (w: seq<u32>)
    requires offset + 40 <= |content|
    ensures |w| == 10
  {
    Words(content, offset, 10)
  }

  /** The entry `readEntry` builds from the words it read: the type and
      permission fields come from the low 16 bits of the mode word, the
      flags word splits into assume-valid (bit 15), extended (bit 14), stage
      (bits 12-13) and name length (bits 0-11), and the extended word gives
      future (bit 15), skip-worktree (bit 14) and intent-to-add (bit 13). */
  function DecodeEntry(w: seq<u32>, sha1: Digest, flags: u16, ext: u16, path: Bytes): (e: Entry)
    requires |w| == 10
    ensures e.objectType < 16 && e.perms < 0x200 && e.nameLength < 0x1000 && e.stage < 4
  {
    var mode := w[6];
    Entry(
      ctimeSeconds := w[0], ctimeNanoseconds := w[1],
      mtimeSeconds := w[2], mtimeNanoseconds := w[3],
      dev := w[4], ino := w[5], mode := mode,
      uid := w[7], gid := w[8], size := w[9],
      objectType := mode % 0x1_0000 / 0x1000 % 16,
      perms := mode % 0x200,
      nameLength := flags % 0x1000,
      stage := flags / 0x1000 % 4,
      assumeValid := Bit(flags, 0x8000),
      extendedFlag := Bit(flags, 0x4000),
      skipWorktree := Bit(ext, 0x4000),
      intentToAdd := Bit(ext, 0x2000),
      future := Bit(ext, 0x8000),
      sha1 := sha1,
      path := path)
  }

  /** 1 for a set flag, 0 for a clear one. */
  function Flag(b: bool): nat
  {
    if b then 1 else 0
  }

  /** Whatever the flag words hold, each field comes from its own bits: the
      flags word is assume-valid (bit 15), extended (bit 14), stage (bits
      12-13) and name length (bits 0-11); the extended word is future (bit
      15), skip-worktree (bit 14) and intent-to-add (bit 13) above thirteen
      ignored bits. */
  lemma DecodeFlagFields(w: seq<u32>, sha1: Digest, path: Bytes,
                         assumeValid: bool, extended: bool, stage: nat, nameLength: nat,
                         future: bool, skipWorktree: bool, intentToAdd: bool, unused: nat)
    requires |w| == 10 && stage < 4 && nameLength < 0x1000 && unused < 0x2000
    ensures var flags := Flag(assumeValid) * 0x8000 + Flag(extended) * 0x4000 + stage * 0x1000 + nameLength;
            var ext := Flag(future) * 0x8000 + Flag(skipWorktree) * 0x4000 + Flag(intentToAdd) * 0x2000 + unused;
            var e := DecodeEntry(w, sha1, flags, ext, path);
      && e.assumeValid == assumeValid && e.extendedFlag == extended
      && e.stage == stage && e.nameLength == nameLength
      && e.future == future && e.skipWorktree == skipWorktree && e.intentToAdd == intentToAdd
  {
  }

  /** What a version-2 entry written by `Entry.ToBytes` decodes to: the
      encoder keeps only the low 4 type bits and 9 permission bits, writes
      the saturated name length, and no flag. */
  function Normalize(e: Entry): Entry
  {
    e.(mode := ModeWord(e.objectType, e.perms),
       objectType := e.objectType % 16,
       perms := e.perms % 0x200,
       nameLength := NameFlags(e.path),
       stage := 0,
       assumeValid := false,
       extendedFlag := false,
       skipWorktree := false,
       intentToAdd := false,
       future := false)
  }

  lemma ModeWordFields(objectType: u16, perms: u16)
    ensures ModeWord(objectType, perms) % 0x1_0000 / 0x1000 % 16 == objectType % 16
    ensures ModeWord(objectType, perms) % 0x200 == perms % 0x200
  {
    var m := ModeWord(objectType, perms);
    assert m < 0x1_0000;
    assert m / 0x1000 == objectType % 16;
  }

  lemma SmallFlags(flags: u16)
    requires flags < 0x1000
    ensures !Bit(flags, 0x4000) && !Bit(flags, 0x8000) && flags / 0x1000 % 4 == 0 && flags % 0x1000 == flags
  {
  }

  lemma ZeroBits()
    ensures !Bit(0, 0x2000) && !Bit(0, 0x4000) && !Bit(0, 0x8000)
  {
  }

  /** Decoding the words the encoder wrote gives the normalised entry. */
  lemma DecodeEncoded(e: Entry)
    ensures DecodeEntry(StatWords(e), e.sha1, NameFlags(e.path), 0, e.path) == Normalize(e)
  {
    SmallFlags(NameFlags(e.path));
    ZeroBits();
    ModeWordFields(e.objectType, e.perms);
  }

  /** The fixed 62-byte part of an encoded entry reads back as its stat
      words, hash and flags. */
  lemma FixedPartRoundTrip(e: Entry, content: Bytes, offset: nat)
    requires offset + |EntryToBytes(e)| <= |content|
    requires content[offset..offset + |EntryToBytes(e)|] == EntryToBytes(e)
    ensures StatAt(content, offset) == StatWords(e)
    ensures content[offset + 40..offset + 60] == e.sha1
    ensures Uint16(content[offset + 60..offset + 62]) == NameFlags(e.path)
    ensures content[offset + 62..offset + 62 + |e.path|] == e.path
    ensures content[offset + 62 + |e.path|] == NUL
  {
    EntryLayout(e);
    FixedPartAt(content, offset, EntryToBytes(e), StatWords(e), e.sha1, NameFlags(e.path), e.path);
  }

  /** The same, for any bytes `b` laid out as an entry's encoding is. */
  lemma FixedPartAt(content: Bytes, offset: nat, b: Bytes, words: seq<u32>, sha1: Bytes, flags: u16, path: Bytes)
    requires offset + |b| <= |content| && content[offset..offset + |b|] == b
    requires |words| == 10 && 63 + |path| <= |b|
    requires forall i | 0 <= i < 10 :: b[4 * i..4 * i + 4] == Be32(words[i])
    requires b[40..60] == sha1 && b[60..62] == Be16(flags)
    requires b[62..62 + |path|] == path && b[62 + |path|] == NUL
    ensures StatAt(content, offset) == words
    ensures content[offset + 40..offset + 60] == sha1
    ensures Uint16(content[offset + 60..offset + 62]) == flags
    ensures content[offset + 62..offset + 62 + |path|] == path
    ensures content[offset + 62 + |path|] == NUL
  {
    forall i | 0 <= i < 10
      ensures StatAt(content, offset)[i] == words[i]
    {
      StatWordRoundTrip(content, offset, b, words[i], i);
    }
    CopySlice(content, offset, b, 40, 60);
    CopySlice(content, offset, b, 60, 62);
    Be16RoundTrip(flags);
    CopySlice(content, offset, b, 62, 62 + |path|);
    assert content[offset + 62 + |path|] == content[offset..offset + |b|][62 + |path|];
  }

  /** The `i`th stat word read where an encoding `b` was copied. */
  lemma StatWordRoundTrip(content: Bytes, offset: nat, b: Bytes, w: u32, i: nat)
    requires offset + |b| <= |content| && content[offset..offset + |b|] == b
    requires i < 10 && 40 <= |b| && b[4 * i..4 * i + 4] == Be32(w)
    ensures StatAt(content, offset)[i] == w
  {
    WordsIndex(content, offset, 10, i);
    CopySlice(content, offset, b, 4 * i, 4 * i + 4);
    Be32RoundTrip(w);
  }

  /** The path of an encoded entry reads back, and the offset lands after
      the padding. */
  lemma PathRoundTrip(e: Entry, content: Bytes, offset: nat, previousPath: Bytes)
    requires |e.path| < 0xFFF || NUL !in e.path
    requires offset + |EntryToBytes(e)| <= |content|
    requires content[offset + 62..offset + 62 + |e.path|] == e.path
    requires content[offset + 62 + |e.path|] == NUL
    ensures ReadPath(content, offset, offset + 62, 2, NameFlags(e.path), previousPath)
         == Ok(PathRead(e.path, offset + |EntryToBytes(e)|, previousPath))
  {
    var start := offset + 62;
    if |e.path| >= 0xFFF {
      ScanPast(content, start, e.path, NUL);
    }
  }

  /** A version-2 entry read back from its own encoding, wherever it sits
      in the content: the stat words, the hash and the path come back, and
      the offset moves past the padding. A path of 0xFFF bytes or more is
      found by its terminator, so it must hold no NUL. */
  lemma EntryRoundTrip(e: Entry, content: Bytes, offset: nat, previousPath: Bytes)
    requires |e.path| < 0xFFF || NUL !in e.path
    requires offset + |EntryToBytes(e)| <= |content|
    requires content[offset..offset + |EntryToBytes(e)|] == EntryToBytes(e)
    ensures ReadEntry(content, offset, 2, previousPath)
         == Ok(EntryRead(Normalize(e), offset + |EntryToBytes(e)|, previousPath))
  {
    FixedPartRoundTrip(e, content, offset);
    PathRoundTrip(e, content, offset, previousPath);
    DecodeEncoded(e);
    ReadEntryIs(content, offset, StatWords(e), e.sha1, NameFlags(e.path), e.path,
                offset + |EntryToBytes(e)|, previousPath, Normalize(e));
  }

  /** A version-2 entry whose fixed part and path are known reads as them. */
  lemma ReadEntryIs(content: Bytes, offset: nat, words: seq<u32>, sha1: Bytes, flags: u16, path: Bytes,
                    next: nat, previousPath: Bytes, entry: Entry)
    requires offset + 62 <= |content| && flags < 0x1000
    requires StatAt(content, offset) == words
    requires content[offset + 40..offset + 60] == sha1
    requires DecodeEntry(words, sha1, flags, 0, path) == entry
    requires Uint16(content[offset + 60..offset + 62]) == flags
    requires ReadPath(content, offset, offset + 62, 2, flags, previousPath) == Ok(PathRead(path, next, previousPath))
    ensures ReadEntry(content, offset, 2, previousPath)
         == Ok(EntryRead(entry, next, previousPath))
  {
    SmallFlags(flags);
  }

  /** A version-4 path: the strip count drops that many bytes from the end
      of the previous path and the NUL-terminated suffix is appended; the
      result only becomes the base of the next entry, and no padding follows. */
  lemma V4PathRead(content: Bytes, offset: nat, strip: nat, suffix: Bytes, rest: Bytes, previousPath: Bytes)
    requires strip <= |previousPath| && strip < Word64 && NUL !in suffix
    requires offset <= |content| && content[offset..] == EncodeVarInt(strip) + suffix + [NUL] + rest
    ensures var r := ReadPath(content, offset, offset, 4, 0, previousPath);
      && r.Ok?
      && r.value.path == []
      && r.value.next == |content| - |rest|
      && r.value.previousPath == previousPath[..|previousPath| - strip] + suffix
  {
    var tail := suffix + [NUL] + rest;
    Assoc(EncodeVarInt(strip), suffix, [NUL], rest);
    StripCountAt(content, offset, strip, tail);
    V4PathAfter(content, offset, EncodeVarInt(strip), strip, suffix, rest, previousPath);
  }

  /** Concatenation regrouped to the right. */
  lemma Assoc<T>(a: seq<T>, b: seq<T>, c: seq<T>, d: seq<T>)
    ensures a + b + c + d == a + (b + c + d)
  {
  }

  /** `V4PathRead` for any strip-count encoding `v` that reads as `strip`. */
  lemma V4PathAfter(content: Bytes, offset: nat, v: Bytes, strip: nat, suffix: Bytes, rest: Bytes, previousPath: Bytes)
    requires strip <= |previousPath| && NUL !in suffix
    requires offset <= |content| && content[offset..] == v + (suffix + [NUL] + rest)
    requires ReadVarInt(content, offset) == Some(VarInt(strip, offset + |v|))
    ensures var r := ReadPath(content, offset, offset, 4, 0, previousPath);
      && r.Ok?
      && r.value.next == |content| - |rest|
      && r.value.previousPath == previousPath[..|previousPath| - strip] + suffix
  {
    var s := offset + |v|;
    SuffixAfterStrip(content, offset, v, suffix, rest);
    ReadPathV4Is(content, offset, previousPath, strip, s, s + |suffix|);
  }

  /** Where the suffix of a version-4 path ends, after a strip count `v`. */
  lemma SuffixAfterStrip(content: Bytes, offset: nat, v: Bytes, suffix: Bytes, rest: Bytes)
    requires NUL !in suffix
    requires offset <= |content| && content[offset..] == v + (suffix + [NUL] + rest)
    ensures var s := offset + |v|;
      && s + |suffix| < |content| && Scan(content, s, NUL) == s + |suffix| == |content| - |rest| - 1
      && content[s..s + |suffix|] == suffix
  {
    var tail := suffix + [NUL] + rest;
    DropDrop(content, offset, |v|);
    TakeDropOf(v, tail);
    SuffixAt(content, offset + |v|, suffix, rest);
  }

  /** The version-4 branch of `ReadPath` once the strip count and the
      terminator are known. */
  lemma ReadPathV4Is(content: Bytes, offset: nat, previousPath: Bytes, strip: nat, s: nat, nul: nat)
    requires offset <= |content|
    requires ReadVarInt(content, offset) == Some(VarInt(strip, s))
    requires Scan(content, s, NUL) == nul < |content| && strip <= |previousPath|
    ensures var r := ReadPath(content, offset, offset, 4, 0, previousPath);
      && r.Ok?
      && r.value.next == nul + 1
      && r.value.previousPath == previousPath[..|previousPath| - strip] + content[s..nul]
  {
  }

  lemma StripCountAt(content: Bytes, offset: nat, strip: nat, tail: Bytes)
    requires strip < Word64
    requires offset <= |content| && content[offset..] == EncodeVarInt(strip) + tail
    ensures ReadVarInt(content, offset) == Some(VarInt(strip, offset + |EncodeVarInt(strip)|))
  {
    ReadEncodeVarInt(strip, tail);
    ReadVarIntShift(content, offset, EncodeVarInt(strip) + tail);
  }

  lemma SuffixAt(content: Bytes, s: nat, suffix: Bytes, rest: Bytes)
    requires NUL !in suffix
    requires s <= |content| && content[s..] == suffix + [NUL] + rest
    ensures Scan(content, s, NUL) == s + |suffix| == |content| - |rest| - 1
    ensures content[s..s + |suffix|] == suffix
  {
    assert content[s..s + |suffix|] == suffix;
    assert content[s + |suffix|] == NUL;
    ScanPast(content, s, suffix, NUL);
  }

  /** A version-4 entry without the extended flag decodes with an empty path. */
  lemma V4EntryPath(fixed: Bytes, strip: nat, suffix: Bytes, rest: Bytes, previousPath: Bytes)
    requires |fixed| == 62 && fixed[60] < 0x40
    requires strip <= |previousPath| && strip < Word64 && NUL !in suffix
    ensures var content := fixed + EncodeVarInt(strip) + suffix + [NUL] + rest;
      var r := ReadEntry(content, 0, 4, previousPath);
      && r.Ok?
      && r.value.entry.path == []
      && r.value.previousPath == previousPath[..|previousPath| - strip] + suffix
      && r.value.next == |content| - |rest|
  {
    var content := fixed + EncodeVarInt(strip) + suffix + [NUL] + rest;
    assert content[60..62] == fixed[60..62];
    var flags := Uint16(content[60..62]);
    assert !Bit(flags, 0x4000) by {
      assert flags < 0x4000;
    }
    assert content[62..] == EncodeVarInt(strip) + suffix + [NUL] + rest;
    V4PathRead(content, 62, strip, suffix, rest, previousPath);
    var nameLen := flags % 0x1000;
    V4PathIgnoresNameLength(content, 62, nameLen, previousPath);
  }

  /** The version-4 tail does not look at the name-length field. */
  lemma V4PathIgnoresNameLength(content: Bytes, offset: nat, nameLen: nat, previousPath: Bytes)
    requires offset <= |content|
    ensures ReadPath(content, offset, offset, 4, nameLen, previousPath) == ReadPath(content, offset, offset, 4, 0, previousPath)
  {
  }

  /** Reading a varint at `offset` is reading it at 0 of what follows. */
  lemma ReadVarIntShift(content: Bytes, offset: nat, tail: Bytes)
    requires offset <= |content| && content[offset..] == tail
    ensures var a := ReadVarInt(content, offset);
      var b := ReadVarInt(tail, 0);
      && a.Some? == b.Some?
      && (a.Some? ==> a.value == VarInt(b.value.value, b.value.next + offset))
  {
    var a := ReadVarInt(content, offset);
    var b := ReadVarInt(tail, 0);
    if b.Some? {
      var k := b.value.next;
      assert tail[k - 1] == content[offset + k - 1];
      assert a.Some?;
      var n := a.value.next;
      assert n == offset + k;
      assert content[offset..n] == tail[0..k];
    }
  }

  // ---------------------------------------------------------------------------
  // The cache-tree extension
  // ---------------------------------------------------------------------------

  /** A record read off the front of the extension, and the bytes after it. */
  datatype RecordRead = RecordRead(entry: TreeCacheEntry, rest: Bytes)

  /** The bytes before the first `b` and the bytes after it, `None` when
      there is no `b`: one of the scanning loops of `parseCacheTreeExtension`. */
  datatype Field = Field(value: Bytes, rest: Bytes)

  function ReadField(data: Bytes, b: byte): (r: Option<Field>)
    ensures r.None? <==> b !in data
    ensures r.Some? ==> b !in r.value.value && |r.value.rest| < |data|
  {
    var i := IndexOf(data, b);
    IndexOfAbsent(data, b);
    if i < 0 then None
    else
      assert forall k | 0 <= k < i :: data[..i][k] == data[k];
      Some(Field(data[..i], data[i + 1..]))
  }

  /** A run free of `b`, then `b`, is read back as that run and what follows. */
  lemma FieldOf(v: Bytes, b: byte, rest: Bytes)
    requires b !in v
    ensures ReadField(v + [b] + rest, b) == Some(Field(v, rest))
  {
    SplitFirstLine(v, b, rest);
  }

  /** One turn of the loop in `parseCacheTreeExtension`: a path up to NUL,
      the entry count up to SP, the subtree count up to LF, then a 20-byte
      object id only when the entry count is not negative. */
  function ParseRecord(data: Bytes): (r: Result<RecordRead, CacheTreeError>)
    ensures r.Ok? ==> |r.value.rest| < |data| && ParsedShape(r.value.entry)
  {
    match ReadField(data, NUL)
    case None => Err(NoPathTerminator)
    case Some(path) =>
      match ReadField(path.rest, SP)
      case None => Err(NoSpaceAfterEntryCount)
      case Some(ec) =>
        match ParseInt(ec.value, 10)
        case None => Err(InvalidEntryCount)
        case Some(entryCount) => ParseSubtrees(path.value, entryCount, ec.rest)
  }

  /** The subtree count and the object id after the entry count. */
  function ParseSubtrees(path: Bytes, entryCount: int, data: Bytes): (r: Result<RecordRead, CacheTreeError>)
    requires NUL !in path
    ensures r.Ok? ==> |r.value.rest| < |data| && ParsedShape(r.value.entry)
    ensures r.Ok? ==> r.value.entry.path == path && r.value.entry.entryCount == entryCount
  {
    match ReadField(data, LF)
    case None => Err(NoNewlineAfterSubtreeCount)
    case Some(sc) =>
      match ParseInt(sc.value, 10)
      case None => Err(InvalidSubtreeCount)
      case Some(subtreeCount) =>
        if entryCount >= 0 && |sc.rest| < 20 then Err(ShortOid)
        else
          var n := if entryCount >= 0 then 20 else 0;
          Ok(RecordRead(TreeCacheEntry(path, entryCount, subtreeCount, sc.rest[..n]), sc.rest[n..]))
  }

  /** `parseCacheTreeExtension`: records one after another until the data
      runs out; the first damaged record fails the whole extension. */
  function ParseCacheTree(data: Bytes): (r: Result<seq<TreeCacheEntry>, CacheTreeError>)
    decreases |data|
    ensures r.Ok? ==> forall k | 0 <= k < |r.value| :: ParsedShape(r.value[k])
  {
    if |data| == 0 then Ok([])
    else
      var record :- ParseRecord(data);
      var rest :- ParseCacheTree(record.rest);
      ParsedShapeCons(record.entry, rest);
      Ok([record.entry] + rest)
  }

  /** What every record the parser returns satisfies: a NUL-free path, and
      an object id exactly when the entry count is not negative. */
  predicate ParsedShape(e: TreeCacheEntry)
  {
    (e.entryCount >= 0 <==> |e.oid| == 20) && NUL !in e.path
  }

  lemma ParsedShapeCons(e: TreeCacheEntry, rest: seq<TreeCacheEntry>)
    requires ParsedShape(e) && forall k | 0 <= k < |rest| :: ParsedShape(rest[k])
    ensures forall k | 0 <= k < |[e] + rest| :: ParsedShape(([e] + rest)[k])
  {
    forall k | 0 <= k < |[e] + rest|
      ensures ParsedShape(([e] + rest)[k])
    {
      if k > 0 {
        assert ([e] + rest)[k] == rest[k - 1];
      }
    }
  }

  /** One cache-tree record as Git writes it. */
  function CacheTreeRecord(e: TreeCacheEntry): Bytes
  {
    e.path + [NUL] + FormatInt(e.entryCount) + [SP] + FormatInt(e.subtreeCount) + [LF] + e.oid
  }

  function CacheTreeBytes(es: seq<TreeCacheEntry>): Bytes
  {
    if |es| == 0 then [] else CacheTreeRecord(es[0]) + CacheTreeBytes(es[1..])
  }

  /** A record the parser can read back: a NUL-free path, counts in the
      signed 64-bit range, and an object id exactly when the count is not negative. */
  predicate WellFormedRecord(e: TreeCacheEntry)
  {
    && NUL !in e.path
    && -Int64Max - 1 <= e.entryCount <= Int64Max
    && -Int64Max - 1 <= e.subtreeCount <= Int64Max
    && (if e.entryCount >= 0 then |e.oid| == 20 else e.oid == [])
  }

  lemma FormatIntHasNoSeparators(i: int)
    ensures NUL !in FormatInt(i) && SP !in FormatInt(i) && LF !in FormatInt(i)
  {
    var d := Decimal(if i < 0 then -i else i);
    forall k | 0 <= k < |d|
      ensures d[k] != NUL && d[k] != SP && d[k] != LF
    {
      assert IsDigitIn(d[k], 10);
    }
  }

  /** Scanning from `from` stops at `from + |run|` when `run` sits there free
      of `b` and `b` follows it. */
  lemma ScanPast(s: Bytes, from: nat, run: Bytes, b: byte)
    requires from + |run| < |s| && s[from..from + |run|] == run && b !in run && s[from + |run|] == b
    ensures Scan(s, from, b) == from + |run|
  {
    forall j | from <= j < from + |run|
      ensures s[j] != b
    {
      assert s[j] == run[j - from];
    }
    ScanIs(s, from, b, from + |run|);
  }

  /** A well-formed record, followed by anything, parses back to itself and
      leaves exactly what followed it. */
  lemma RecordParse(e: TreeCacheEntry, rest: Bytes)
    requires WellFormedRecord(e)
    ensures ParseRecord(CacheTreeRecord(e) + rest) == Ok(RecordRead(e, rest))
  {
    var ec := FormatInt(e.entryCount);
    var sc := FormatInt(e.subtreeCount);
    FormatIntHasNoSeparators(e.entryCount);
    FormatIntHasNoSeparators(e.subtreeCount);
    ParseFormatInt(e.entryCount);
    ParseFormatInt(e.subtreeCount);
    var afterCount := sc + [LF] + e.oid + rest;
    var afterPath := ec + [SP] + afterCount;
    RecordGroups(e.path, NUL, ec, SP, sc, LF, e.oid, rest);
    assert CacheTreeRecord(e) + rest == e.path + [NUL] + afterPath;
    FieldOf(e.path, NUL, afterPath);
    FieldOf(ec, SP, afterCount);
    SubtreesParse(e, sc, rest);
  }

  /** The subtree count, its newline and the object id parse back. */
  lemma SubtreesParse(e: TreeCacheEntry, sc: Bytes, rest: Bytes)
    requires NUL !in e.path && LF !in sc && ParseInt(sc, 10) == Some(e.subtreeCount)
    requires if e.entryCount >= 0 then |e.oid| == 20 else e.oid == []
    ensures ParseSubtrees(e.path, e.entryCount, sc + [LF] + e.oid + rest) == Ok(RecordRead(e, rest))
  {
    RecordGroups(e.path, NUL, [], SP, sc, LF, e.oid, rest);
    FieldOf(sc, LF, e.oid + rest);
    TakeDropOf(e.oid, rest);
  }

  /** How a record followed by more bytes groups after each separator. */
  lemma RecordGroups<T>(p: seq<T>, n: T, ec: seq<T>, s: T, sc: seq<T>, l: T, oid: seq<T>, rest: seq<T>)
    ensures p + [n] + ec + [s] + sc + [l] + oid + rest == p + [n] + (ec + [s] + (sc + [l] + oid + rest))
    ensures sc + [l] + oid + rest == sc + [l] + (oid + rest)
  {
  }

  lemma DropDrop<T>(s: seq<T>, i: nat, k: nat)
    requires i + k <= |s|
    ensures s[i + k..] == s[i..][k..]
  {
  }

  lemma TakeDropOf<T>(a: seq<T>, b: seq<T>)
    ensures (a + b)[..|a|] == a && (a + b)[|a|..] == b
  {
  }

  /** Encoding well-formed records and parsing them back is the identity. */
  lemma {:induction false} CacheTreeRoundTrip(es: seq<TreeCacheEntry>)
    requires forall k | 0 <= k < |es| :: WellFormedRecord(es[k])
    ensures ParseCacheTree(CacheTreeBytes(es)) == Ok(es)
  {
    if |es| > 0 {
      var tail := CacheTreeBytes(es[1..]);
      CacheTreeRoundTrip(es[1..]);
      RecordParse(es[0], tail);
      ConsTail(es[0], es[1..]);
      assert es == [es[0]] + es[1..];
    }
  }

  /** The first error the parser meets, for each kind of damage. */
  lemma CacheTreeErrors(path: Bytes, count: Bytes)
    requires NUL !in path && SP !in count && LF !in count
    ensures ParseCacheTree(path) == (if |path| == 0 then Ok([]) else Err(NoPathTerminator))
    ensures ParseCacheTree(path + [NUL] + count) == Err(NoSpaceAfterEntryCount)
    ensures ParseInt(count, 10).None? ==> ParseCacheTree(path + [NUL] + count + [SP]) == Err(InvalidEntryCount)
  {
    FieldOf(path, NUL, count);
    FieldOf(path, NUL, count + [SP]);
    assert path + [NUL] + count + [SP] == path + [NUL] + (count + [SP]);
    FieldOf(count, SP, []);
    assert count + [SP] + [] == count + [SP];
  }

  /** The errors met after a well-read entry count `n`: no newline after the
      subtree count, a subtree count that does not parse, and fewer than 20
      bytes of object id when `n` is not negative. */
  lemma CacheTreeSubtreeErrors(path: Bytes, ec: Bytes, n: int, sub: Bytes, oid: Bytes)
    requires NUL !in path && SP !in ec && ParseInt(ec, 10) == Some(n) && LF !in sub
    ensures ParseCacheTree(path + [NUL] + ec + [SP] + sub) == Err(NoNewlineAfterSubtreeCount)
    ensures ParseInt(sub, 10).None? ==>
              ParseCacheTree(path + [NUL] + ec + [SP] + sub + [LF] + oid) == Err(InvalidSubtreeCount)
    ensures ParseInt(sub, 10).Some? && n >= 0 && |oid| < 20 ==>
              ParseCacheTree(path + [NUL] + ec + [SP] + sub + [LF] + oid) == Err(ShortOid)
  {
    NoNewlineAfterCount(path, ec, sub);
    if ParseInt(sub, 10).None? || (n >= 0 && |oid| < 20) {
      AfterSubtreeCount(path, ec, n, sub, oid);
    }
  }

  /** A subtree count without its newline. */
  lemma NoNewlineAfterCount(path: Bytes, ec: Bytes, sub: Bytes)
    requires NUL !in path && SP !in ec && ParseInt(ec, 10).Some? && LF !in sub
    ensures ParseCacheTree(path + [NUL] + ec + [SP] + sub) == Err(NoNewlineAfterSubtreeCount)
  {
    RecordAfterCount(path, ec, sub);
    assert ReadField(sub, LF).None?;
    FirstRecordFails(path + [NUL] + ec + [SP] + sub, NoNewlineAfterSubtreeCount);
  }

  /** A subtree count that does not parse, or too short an object id. */
  lemma AfterSubtreeCount(path: Bytes, ec: Bytes, n: int, sub: Bytes, oid: Bytes)
    requires NUL !in path && SP !in ec && ParseInt(ec, 10) == Some(n) && LF !in sub
    requires ParseInt(sub, 10).None? || (n >= 0 && |oid| < 20)
    ensures ParseCacheTree(path + [NUL] + ec + [SP] + sub + [LF] + oid)
         == Err(if ParseInt(sub, 10).None? then InvalidSubtreeCount else ShortOid)
  {
    var after := sub + [LF] + oid;
    var err := if ParseInt(sub, 10).None? then InvalidSubtreeCount else ShortOid;
    FieldOf(sub, LF, oid);
    assert ParseSubtrees(path, n, after) == Err(err);
    SubtreesFail(path, ec, after, err);
    Assoc(path + [NUL] + ec + [SP], sub, [LF], oid);
  }

  /** A record whose subtree count or object id fails fails the extension. */
  lemma SubtreesFail(path: Bytes, ec: Bytes, after: Bytes, err: CacheTreeError)
    requires NUL !in path && SP !in ec && ParseInt(ec, 10).Some?
    requires ParseSubtrees(path, ParseInt(ec, 10).value, after) == Err(err)
    ensures ParseCacheTree(path + [NUL] + ec + [SP] + after) == Err(err)
  {
    RecordAfterCount(path, ec, after);
    FirstRecordFails(path + [NUL] + ec + [SP] + after, err);
  }

  /** A first record that fails fails the whole extension. */
  lemma FirstRecordFails(data: Bytes, err: CacheTreeError)
    requires |data| > 0 && ParseRecord(data) == Err(err)
    ensures ParseCacheTree(data) == Err(err)
  {
  }

  /** A path, its NUL, a parsing entry count and its SP are read past, and
      the record's fate is left to what follows. */
  lemma RecordAfterCount(path: Bytes, ec: Bytes, after: Bytes)
    requires NUL !in path && SP !in ec && ParseInt(ec, 10).Some?
    ensures ParseRecord(path + [NUL] + ec + [SP] + after) == ParseSubtrees(path, ParseInt(ec, 10).value, after)
  {
    assert path + [NUL] + ec + [SP] + after == path + [NUL] + (ec + [SP] + after);
    FieldOf(path, NUL, ec + [SP] + after);
    FieldOf(ec, SP, after);
  }

  // ---------------------------------------------------------------------------
  // ReadIndex
  // ---------------------------------------------------------------------------

  datatype EntriesRead = EntriesRead(entries: seq<Entry>, next: nat, previousPath: Bytes)

  /** The entry loop: `count` entries in a row, each reading from where the
      last one stopped. */
  function ReadEntries(content: Bytes, offset: nat, version: u32, count: nat, previousPath: Bytes): (r: Result<EntriesRead, IndexError>)
    decreases count
    ensures r.Ok? ==> |r.value.entries| == count
    ensures r.Ok? ==> offset + 62 * count <= r.value.next
  {
    if count == 0 then Ok(EntriesRead([], offset, previousPath))
    else
      var first :- ReadEntry(content, offset, version, previousPath);
      var rest :- ReadEntries(content, first.next, version, count - 1, first.previousPath);
      Ok(EntriesRead([first.entry] + rest.entries, rest.next, rest.previousPath))
  }

  const TreeSignature: Bytes := Str("TREE")

  /** The extension loop: runs while the offset is before the trailing
      20-byte checksum; keeps only "TREE" extensions. */
  function ReadExtensions(content: Bytes, offset: nat): (r: Result<seq<TreeCacheExtension>, IndexError>)
    requires |content| >= 20
    decreases |content| - offset
    ensures r.Ok? ==> forall k | 0 <= k < |r.value| :: r.value[k].sig == TreeSignature
  {
    if offset >= |content| - 20 then Ok([])
    else
      var sig := content[offset..offset + 4];
      var size := Uint32(content[offset + 4..offset + 8]);
      var start := offset + 8;
      if start + size > |content| then Err(OutOfRange)
      else
        var data := content[start..start + size];
        if sig == TreeSignature then
          match ParseCacheTree(data)
          case Err(e) => Err(BadCacheTree(e))
          case Ok(entries) =>
            var rest :- ReadExtensions(content, start + size);
            Ok([TreeCacheExtension(sig, entries)] + rest)
        else
          ReadExtensions(content, start + size)
  }

  /** A decoded index and whether its trailing checksum disagreed (which the
      source only logs). */
  datatype IndexRead = IndexRead(index: IndexFile, checksumMismatch: bool)

  /** `ReadIndex` on the content of .git/index (`None` when it cannot be opened). */
  function ReadIndex(file: Option<Bytes>, sha: Bytes -> Digest): (r: Result<IndexRead, IndexError>)
    ensures file.None? ==> r == Ok(IndexRead(EmptyIndex, false))
    ensures file.Some? && |file.value| < 20 ==> r == Ok(IndexRead(EmptyIndex, false))
    ensures r.Ok? && file.Some? && |file.value| >= 20 ==>
      var c := file.value;
      && r.value.index.sign == c[..4]
      && r.value.index.version == Uint32(c[4..8])
      && r.value.index.entriesLen == Uint32(c[8..12])
      && |r.value.index.entries| == r.value.index.entriesLen
      && (r.value.checksumMismatch <==> sha(c[..|c| - 20]) != c[|c| - 20..])
  {
    if file.None? then Ok(IndexRead(EmptyIndex, false))
    else
      var content := file.value;
      if |content| < 20 then Ok(IndexRead(EmptyIndex, false))
      else
        var sign := content[..4];
        var version := Uint32(content[4..8]);
        var entriesLen := Uint32(content[8..12]);
        var es :- ReadEntries(content, 12, version, entriesLen, []);
        var extensions :- ReadExtensions(content, es.next);
        var mismatch := sha(content[..|content| - 20]) != content[|content| - 20..];
        Ok(IndexRead(IndexFile(entriesLen, version, sign, es.entries, extensions), mismatch))
  }
}

=== FILE: sorting.dfy ===
/** Sorting a list by a byte-string key. This is the model of every
    `sort.Slice(xs, func(i, j int) bool { return key(xs[i]) < key(xs[j]) })`
    in the repository. Go's sort.Slice is not stable, so the order of elements
    with equal keys is unspecified; the model fixes one order (insertion sort)
    and proves that it is the only possible one when keys are distinct. */
module Sorting {
  import opened Bytes

  /** Every element's key is at most every later element's key. */
  predicate SortedBy<T>(s: seq<T>, key: T -> Bytes)
  {
    forall i, j | 0 <= i < j < |s| :: LessEq(key(s[i]), key(s[j]))
  }

  /** Keys strictly ascend: no two elements share a key. */
  predicate StrictlySortedBy<T>(s: seq<T>, key: T -> Bytes)
  {
    forall i, j | 0 <= i < j < |s| :: Less(key(s[i]), key(s[j]))
  }

  /** No two different elements of `s` share a key. */
  predicate KeysDetermine<T(==)>(s: seq<T>, key: T -> Bytes)
  {
    forall x, y | x in s && y in s && key(x) == key(y) :: x == y
  }

  /** No two positions of `s` share a key. */
  predicate KeysDistinct<T>(s: seq<T>, key: T -> Bytes)
  {
    forall i, j | 0 <= i < j < |s| :: key(s[i]) != key(s[j])
  }

  /** Putting `x` in front of a sorted list whose head's key is not below
      `x`'s keeps it sorted. */
  lemma InsertFrontSorted<T>(x: T, s: seq<T>, key: T -> Bytes)
    requires SortedBy(s, key)
    requires |s| == 0 || LessEq(key(x), key(s[0]))
    ensures SortedBy([x] + s, key)
  {
    var r := [x] + s;
    forall i, j | 0 <= i < j < |r|
      ensures LessEq(key(r[i]), key(r[j]))
    {
      if i == 0 {
        if j > 1 {
          LessEqTransitive(key(x), key(s[0]), key(s[j - 1]));
        }
      } else {
        assert r[i] == s[i - 1] && r[j] == s[j - 1];
      }
    }
  }

  /** Putting the head `h` of a sorted list back in front of its tail with
      `x` inserted keeps it sorted, when `h`'s key is below `x`'s. */
  lemma InsertBehindSorted<T>(h: T, t: seq<T>, x: T, rest: seq<T>, key: T -> Bytes)
    requires SortedBy([h] + t, key) && SortedBy(rest, key)
    requires multiset(rest) == multiset(t) + multiset{x}
    requires LessEq(key(h), key(x))
    ensures SortedBy([h] + rest, key)
  {
    var s := [h] + t;
    var r := [h] + rest;
    forall i, j | 0 <= i < j < |r|
      ensures LessEq(key(r[i]), key(r[j]))
    {
      assert r[j] == rest[j - 1];
      if i == 0 {
        assert rest[j - 1] in multiset(rest);
        if rest[j - 1] != x {
          assert rest[j - 1] in multiset(t);
          var m :| 0 <= m < |t| && t[m] == rest[j - 1];
          assert s[0] == h && s[m + 1] == rest[j - 1];
          assert LessEq(key(s[0]), key(s[m + 1]));
        }
      } else {
        assert r[i] == rest[i - 1];
      }
    }
  }

  /** Puts `x` in front of the first element whose key is not below its own. */
  function Insert<T>(x: T, s: seq<T>, key: T -> Bytes): (r: seq<T>)
    requires SortedBy(s, key)
    ensures SortedBy(r, key)
    ensures multiset(r) == multiset(s) + multiset{x}
  {
    if |s| == 0 || LessEq(key(x), key(s[0])) then
      InsertFrontSorted(x, s, key);
      [x] + s
    else
      var rest := Insert(x, s[1..], key);
      assert s == [s[0]] + s[1..];
      LessEqTotal(key(x), key(s[0]));
      InsertBehindSorted(s[0], s[1..], x, rest, key);
      [s[0]] + rest
  }

  /** Insertion sort by key: a sorted permutation of `s`. */
  function SortBy<T>(s: seq<T>, key: T -> Bytes): (r: seq<T>)
    ensures SortedBy(r, key)
    ensures multiset(r) == multiset(s)
  {
    if |s| == 0 then []
    else
      assert s == [s[0]] + s[1..];
      Insert(s[0], SortBy(s[1..], key), key)
  }

  /** A sorted list whose keys are pairwise distinct ascends strictly. */
  lemma SortedDistinctIsStrict<T>(s: seq<T>, key: T -> Bytes)
    requires SortedBy(s, key) && KeysDistinct(s, key)
    ensures StrictlySortedBy(s, key)
  {
  }

  lemma TailMultiset<T>(r: seq<T>)
    requires |r| > 0
    ensures multiset(r[1..]) == multiset(r) - multiset{r[0]}
  {
    assert r == [r[0]] + r[1..];
  }

  /** Two sorted arrangements of the same elements start with the same
      element when the key determines the element. */
  lemma SortedSameHead<T>(r1: seq<T>, r2: seq<T>, key: T -> Bytes)
    requires SortedBy(r1, key) && SortedBy(r2, key)
    requires multiset(r1) == multiset(r2)
    requires KeysDetermine(r1, key)
    requires |r1| > 0 && |r2| > 0
    ensures r1[0] == r2[0]
  {
    assert r1[0] in multiset(r2) && r2[0] in multiset(r1);
    var i :| 0 <= i < |r2| && r2[i] == r1[0];
    var j :| 0 <= j < |r1| && r1[j] == r2[0];
    assert LessEq(key(r2[0]), key(r1[0])) by {
      if i > 0 {
        assert LessEq(key(r2[0]), key(r2[i]));
      }
    }
    assert LessEq(key(r1[0]), key(r2[0])) by {
      if j > 0 {
        assert LessEq(key(r1[0]), key(r1[j]));
      }
    }
    LessEqAntisymmetric(key(r1[0]), key(r2[0]));
    assert r1[0] in r1 && r2[0] in r1;
  }

  lemma SortedTail<T>(s: seq<T>, key: T -> Bytes)
    requires |s| > 0 && SortedBy(s, key)
    ensures SortedBy(s[1..], key)
  {
    forall i, j | 0 <= i < j < |s| - 1
      ensures LessEq(key(s[1..][i]), key(s[1..][j]))
    {
      assert s[1..][i] == s[i + 1] && s[1..][j] == s[j + 1];
    }
  }

  lemma SameHeadSameTail<T>(a: seq<T>, b: seq<T>)
    requires |a| > 0 && |b| > 0 && a[0] == b[0] && a[1..] == b[1..]
    ensures a == b
  {
    assert a == [a[0]] + a[1..] && b == [b[0]] + b[1..];
  }

  lemma KeysDetermineTail<T>(s: seq<T>, key: T -> Bytes)
    requires |s| > 0 && KeysDetermine(s, key)
    ensures KeysDetermine(s[1..], key)
  {
    forall x, y | x in s[1..] && y in s[1..] && key(x) == key(y)
      ensures x == y
    {
      assert x in s && y in s;
    }
  }

  /** Two sorted arrangements of the same elements coincide when the key
      determines the element: the result of a sort does not depend on the
      order its input came in. */
  lemma {:induction false} SortedUnique<T>(r1: seq<T>, r2: seq<T>, key: T -> Bytes)
    requires SortedBy(r1, key) && SortedBy(r2, key)
    requires multiset(r1) == multiset(r2)
    requires KeysDetermine(r1, key)
    ensures r1 == r2
    decreases |r1|
  {
    assert |r1| == |multiset(r1)| == |multiset(r2)| == |r2|;
    if |r1| > 0 {
      SortedSameHead(r1, r2, key);
      TailMultiset(r1);
      TailMultiset(r2);
      KeysDetermineTail(r1, key);
      SortedTail(r1, key);
      SortedTail(r2, key);
      SortedUnique(r1[1..], r2[1..], key);
      SameHeadSameTail(r1, r2);
    }
  }

  /** Sorting two arrangements of the same elements gives the same list when
      the key determines the element. */
  lemma SortByCanonical<T>(s1: seq<T>, s2: seq<T>, key: T -> Bytes)
    requires multiset(s1) == multiset(s2)
    requires KeysDetermine(s1, key)
    ensures SortBy(s1, key) == SortBy(s2, key)
  {
    var r1 := SortBy(s1, key);
    var r2 := SortBy(s2, key);
    forall x | x in r1
      ensures x in s1
    {
      assert x in multiset(r1);
    }
    SortedUnique(r1, r2, key);
  }

  lemma RemoveAt<T>(r: seq<T>, p: nat)
    requires p < |r|
    ensures multiset(r[..p] + r[p + 1..]) == multiset(r) - multiset{r[p]}
  {
    assert r == r[..p] + [r[p]] + r[p + 1..];
  }

  /** Removing position `p` and putting its element back there restores `r`. */
  lemma RemoveAtInsertBack<T>(r: seq<T>, p: nat)
    requires p < |r|
    ensures var rest := r[..p] + r[p + 1..];
      rest[..p] + [r[p]] + rest[p..] == r
  {
    var rest := r[..p] + r[p + 1..];
    assert rest[..p] == r[..p];
    assert rest[p..] == r[p + 1..];
    assert r == r[..p] + [r[p]] + r[p + 1..];
  }

  /** Putting an element whose key is new anywhere into a list with
      distinct keys keeps them distinct. */
  lemma InsertKeysDistinct<T>(rest: seq<T>, p: nat, x: T, key: T -> Bytes)
    requires p <= |rest|
    requires KeysDistinct(rest, key)
    requires forall k | 0 <= k < |rest| :: key(rest[k]) != key(x)
    ensures KeysDistinct(rest[..p] + [x] + rest[p..], key)
  {
    var r := rest[..p] + [x] + rest[p..];
    forall i, j | 0 <= i < j < |r|
      ensures key(r[i]) != key(r[j])
    {
      if i == p {
        assert r[j] == rest[j - 1];
      } else if j == p {
        assert r[i] == rest[i];
      } else {
        var i' := if i < p then i else i - 1;
        var j' := if j < p then j else j - 1;
        assert r[i] == rest[i'] && r[j] == rest[j'];
      }
    }
  }

  lemma TailKeysDistinct<T>(s: seq<T>, key: T -> Bytes)
    requires |s| > 0 && KeysDistinct(s, key)
    ensures KeysDistinct(s[1..], key)
  {
    forall i, j | 0 <= i < j < |s[1..]|
      ensures key(s[1..][i]) != key(s[1..][j])
    {
      assert s[1..][i] == s[i + 1] && s[1..][j] == s[j + 1];
    }
  }

  /** The elements of a rearranged tail all have keys other than the head's. */
  lemma HeadKeyIsNew<T>(s: seq<T>, rest: seq<T>, key: T -> Bytes)
    requires |s| > 0 && KeysDistinct(s, key)
    requires multiset(rest) == multiset(s[1..])
    ensures forall k | 0 <= k < |rest| :: key(rest[k]) != key(s[0])
  {
    forall k | 0 <= k < |rest|
      ensures key(rest[k]) != key(s[0])
    {
      assert rest[k] in multiset(s[1..]);
      var m :| 0 <= m < |s[1..]| && s[1..][m] == rest[k];
      assert s[m + 1] == rest[k];
    }
  }

  /** Rearranging a list keeps its keys pairwise distinct. */
  lemma {:induction false} PermutationKeysDistinct<T>(s: seq<T>, r: seq<T>, key: T -> Bytes)
    requires multiset(s) == multiset(r)
    requires KeysDistinct(s, key)
    ensures KeysDistinct(r, key)
    decreases |s|
  {
    if |s| > 0 {
      var x := s[0];
      assert x in multiset(r);
      var p :| 0 <= p < |r| && r[p] == x;
      var rest := r[..p] + r[p + 1..];
      RemoveAt(r, p);
      TailMultiset(s);
      TailKeysDistinct(s, key);
      PermutationKeysDistinct(s[1..], rest, key);
      HeadKeyIsNew(s, rest, key);
      InsertKeysDistinct(rest, p, x, key);
      RemoveAtInsertBack(r, p);
    }
  }
}

=== FILE: status.dfy ===
/** `git status`: which paths of the working tree, the index and the HEAD
    tree are untracked, changed, staged or deleted, and how the report
    labels them; and `extractCommitTreeHash`, which finds the tree a
    commit object names.

    All hashes are compared as lower-case hex strings, as the source does.
    The working tree is a map from path to file content and the HEAD tree
    a map from path to hex hash; the order in which Go ranges over each
    map is a parameter. */
module Status {
  import opened Bytes
  import opened Sorting
  import opened Enumeration
  import opened Types
  import opened Utils

  // ---------------------------------------------------------------------------
  // The three maps
  // ---------------------------------------------------------------------------

  /** The index as a map from path to hex hash; a later entry for the same
      path overwrites an earlier one. */
  function IndexHashes(entries: seq<Entry>): map<Bytes, Bytes>
    decreases |entries|
  {
    if |entries| == 0 then map[]
    else
      var last := entries[|entries| - 1];
      IndexHashes(entries[..|entries| - 1])[last.path := Hex(last.sha1)]
  }

  /** The working tree as a map from path to the hex hash of its blob. */
  function WorkingHashes(files: map<Bytes, Bytes>, sha: Bytes -> Digest): map<Bytes, Bytes>
  {
    map p | p in files :: Hex(BlobObject(files[p], sha).hash)
  }

  /** `headTree[path]`: Go's zero value, the empty string, when absent. */
  function HeadHash(head: map<Bytes, Bytes>, p: Bytes): Bytes
  {
    if p in head then head[p] else []
  }

  /** A path is in the index exactly when some entry has it. */
  lemma {:induction false} IndexHashesKeys(entries: seq<Entry>, p: Bytes)
    ensures p in IndexHashes(entries) <==> exists i | 0 <= i < |entries| :: entries[i].path == p
    decreases |entries|
  {
    if |entries| > 0 {
      var init := entries[..|entries| - 1];
      IndexHashesKeys(init, p);
      if exists i | 0 <= i < |init| :: init[i].path == p {
        var i :| 0 <= i < |init| && init[i].path == p;
        assert entries[i].path == p;
      }
      if exists i | 0 <= i < |entries| :: entries[i].path == p {
        var i :| 0 <= i < |entries| && entries[i].path == p;
        if i < |init| {
          assert init[i].path == p;
        }
      }
    }
  }

  /** The hash the index holds for a path is that of its last entry. */
  lemma {:induction false} IndexHashesLast(entries: seq<Entry>, i: nat)
    requires i < |entries|
    requires forall t | i < t < |entries| :: entries[t].path != entries[i].path
    ensures entries[i].path in IndexHashes(entries)
    ensures IndexHashes(entries)[entries[i].path] == Hex(entries[i].sha1)
    decreases |entries|
  {
    if i < |entries| - 1 {
      var init := entries[..|entries| - 1];
      assert forall t | i < t < |init| :: init[t] == entries[t];
      IndexHashesLast(init, i);
    }
  }

  /** Every hash the index holds is 40 hex digits, so never Go's empty
      string. */
  lemma {:induction false} IndexHashesNonEmpty(entries: seq<Entry>, p: Bytes)
    requires p in IndexHashes(entries)
    ensures |IndexHashes(entries)[p]| == 40
    decreases |entries|
  {
    var last := entries[|entries| - 1];
    if p != last.path {
      IndexHashesNonEmpty(entries[..|entries| - 1], p);
    }
  }

  // ---------------------------------------------------------------------------
  // The two classification loops
  // ---------------------------------------------------------------------------

  datatype Lists = Lists(changed: seq<Bytes>, untracked: seq<Bytes>, deleted: seq<Bytes>, staged: seq<Bytes>)

  /** The first loop, over the working tree, appends to `untracked`,
      `changed` and `staged`; the second, over HEAD, appends to `staged`
      and `deleted`. */
  function ClassifyPaths(disk: map<Bytes, Bytes>, index: map<Bytes, Bytes>, head: map<Bytes, Bytes>,
                         diskOrder: seq<Bytes>, headOrder: seq<Bytes>): Lists
  {
    Lists(
      Select(p => p in index && p in disk && disk[p] != index[p], diskOrder),
      Select(p => p !in index && p !in head, diskOrder),
      Select(p => p in index && p !in disk, headOrder),
      Select(p => p in index && index[p] != HeadHash(head, p), diskOrder)
      + Select(p => p !in index && p !in disk, headOrder))
  }

  /** Each list holds exactly the paths the source's conditions pick. */
  lemma ClassifyMembers(disk: map<Bytes, Bytes>, index: map<Bytes, Bytes>, head: map<Bytes, Bytes>,
                        diskOrder: seq<Bytes>, headOrder: seq<Bytes>, p: Bytes)
    requires Enumerates(diskOrder, disk.Keys) && Enumerates(headOrder, head.Keys)
    ensures var l := ClassifyPaths(disk, index, head, diskOrder, headOrder);
      && (p in l.untracked <==> p in disk && p !in index && p !in head)
      && (p in l.changed <==> p in disk && p in index && disk[p] != index[p])
      && (p in l.deleted <==> p in head && p in index && p !in disk)
      && (p in l.staged <==> (p in disk && p in index && index[p] != HeadHash(head, p))
                             || (p in head && p !in index && p !in disk))
  {
    SelectMember(p => p in index && p in disk && disk[p] != index[p], diskOrder, p);
    SelectMember(p => p !in index && p !in head, diskOrder, p);
    SelectMember(p => p in index && p !in disk, headOrder, p);
    SelectMember(p => p in index && index[p] != HeadHash(head, p), diskOrder, p);
    SelectMember(p => p !in index && p !in disk, headOrder, p);
  }

  // ---------------------------------------------------------------------------
  // The report
  // ---------------------------------------------------------------------------

  datatype FileInfo = FileInfo(path: Bytes, stage: Bytes)

  /** What `Status` prints: whether the tree is clean, the staged and the
      unstaged changes sorted by path, and the untracked paths in the order
      they were found. */
  datatype Report = Report(clean: bool, staged: seq<FileInfo>, unstaged: seq<FileInfo>, untracked: seq<Bytes>)

  const NewFile: Bytes := Str("new file")
  const Deleted: Bytes := Str("deleted")
  const Modified: Bytes := Str("modified")

  lemma LabelsDistinct()
    ensures NewFile != Deleted && NewFile != Modified && Deleted != Modified
  {
    assert NewFile[0] != Deleted[0] && NewFile[0] != Modified[0] && Deleted[0] != Modified[0];
  }

  /** The label of a staged path. */
  function StageLabel(head: map<Bytes, Bytes>, disk: map<Bytes, Bytes>, p: Bytes): Bytes
  {
    if p !in head then NewFile else if p !in disk then Deleted else Modified
  }

  function PathOf(f: FileInfo): Bytes
  {
    f.path
  }

  /** Each path with its label, in order. */
  function Labelled(labelOf: Bytes -> Bytes, paths: seq<Bytes>): seq<FileInfo>
  {
    FlatMap(p => [FileInfo(p, labelOf(p))], paths)
  }

  function MakeReport(l: Lists, head: map<Bytes, Bytes>, disk: map<Bytes, Bytes>): Report
  {
    Report(
      |l.deleted| == 0 && |l.changed| == 0 && |l.untracked| == 0 && |l.staged| == 0,
      SortBy(Labelled(p => StageLabel(head, disk, p), l.staged), PathOf),
      SortBy(Labelled(p => Deleted, l.deleted) + Labelled(p => Modified, l.changed), PathOf),
      l.untracked)
  }

  /** `Status`, with the HEAD tree's hashes, the working tree's contents and
      both iteration orders as parameters. */
  function Status(index: IndexFile, files: map<Bytes, Bytes>, head: map<Bytes, Bytes>,
                  diskOrder: seq<Bytes>, headOrder: seq<Bytes>, sha: Bytes -> Digest): (r: Report)
    requires Enumerates(diskOrder, files.Keys) && Enumerates(headOrder, head.Keys)
    ensures SortedBy(r.staged, PathOf) && SortedBy(r.unstaged, PathOf)
  {
    var disk := WorkingHashes(files, sha);
    MakeReport(ClassifyPaths(disk, IndexHashes(index.entries), head, diskOrder, headOrder), head, disk)
  }

  /** A labelled pair is in the list exactly when its path is and its label
      is the path's label. */
  lemma LabelledMember(labelOf: Bytes -> Bytes, paths: seq<Bytes>, p: Bytes, s: Bytes)
    ensures FileInfo(p, s) in Labelled(labelOf, paths) <==> p in paths && s == labelOf(p)
  {
    var f := q => [FileInfo(q, labelOf(q))];
    if FileInfo(p, s) in Labelled(labelOf, paths) {
      FlatMapMember(f, paths, FileInfo(p, s));
      var i :| 0 <= i < |paths| && FileInfo(p, s) in f(paths[i]);
      assert paths[i] == p;
    }
    if p in paths && s == labelOf(p) {
      var i :| 0 <= i < |paths| && paths[i] == p;
      assert FileInfo(p, s) in f(paths[i]);
      FlatMapHas(f, paths, i, FileInfo(p, s));
    }
  }

  lemma SortedMember<T>(s: seq<T>, key: T -> Bytes, x: T)
    ensures x in SortBy(s, key) <==> x in s
  {
    assert x in SortBy(s, key) <==> x in multiset(SortBy(s, key));
  }

  /** How the staged changes are labelled: a new file is on disk and in the
      index but not in HEAD; a deletion is in HEAD only; a modification is
      everywhere with an index hash unlike HEAD's. */
  lemma StagedLabels(index: IndexFile, files: map<Bytes, Bytes>, head: map<Bytes, Bytes>,
                     diskOrder: seq<Bytes>, headOrder: seq<Bytes>, sha: Bytes -> Digest, p: Bytes)
    requires Enumerates(diskOrder, files.Keys) && Enumerates(headOrder, head.Keys)
    ensures var r := Status(index, files, head, diskOrder, headOrder, sha);
            var ix := IndexHashes(index.entries);
      && (FileInfo(p, NewFile) in r.staged <==> p in files && p in ix && p !in head)
      && (FileInfo(p, Deleted) in r.staged <==> p in head && p !in ix && p !in files)
      && (FileInfo(p, Modified) in r.staged <==> p in head && p in files && p in ix && ix[p] != head[p])
  {
    var disk := WorkingHashes(files, sha);
    var ix := IndexHashes(index.entries);
    var l := ClassifyPaths(disk, ix, head, diskOrder, headOrder);
    var labelOf := q => StageLabel(head, disk, q);
    assert disk.Keys == files.Keys;
    ClassifyMembers(disk, ix, head, diskOrder, headOrder, p);
    LabelsDistinct();
    if p in ix {
      IndexHashesNonEmpty(index.entries, p);
    }
    forall s | s in {NewFile, Deleted, Modified}
      ensures FileInfo(p, s) in Status(index, files, head, diskOrder, headOrder, sha).staged
              <==> p in l.staged && s == labelOf(p)
    {
      SortedMember(Labelled(labelOf, l.staged), PathOf, FileInfo(p, s));
      LabelledMember(labelOf, l.staged, p, s);
    }
  }

  /** The unstaged changes: deletions are in HEAD and the index but not on
      disk; modifications are on disk with a hash unlike the index's. */
  lemma UnstagedLabels(index: IndexFile, files: map<Bytes, Bytes>, head: map<Bytes, Bytes>,
                       diskOrder: seq<Bytes>, headOrder: seq<Bytes>, sha: Bytes -> Digest, p: Bytes, s: Bytes)
    requires Enumerates(diskOrder, files.Keys) && Enumerates(headOrder, head.Keys)
    ensures var r := Status(index, files, head, diskOrder, headOrder, sha);
            var ix := IndexHashes(index.entries);
            var disk := WorkingHashes(files, sha);
      && (FileInfo(p, Deleted) in r.unstaged <==> p in head && p in ix && p !in files)
      && (FileInfo(p, Modified) in r.unstaged <==> p in files && p in ix && disk[p] != ix[p])
      && (FileInfo(p, s) in r.unstaged ==> s == Deleted || s == Modified)
  {
    var disk := WorkingHashes(files, sha);
    var ix := IndexHashes(index.entries);
    var l := ClassifyPaths(disk, ix, head, diskOrder, headOrder);
    var dels := Labelled(q => Deleted, l.deleted);
    var mods := Labelled(q => Modified, l.changed);
    assert disk.Keys == files.Keys;
    ClassifyMembers(disk, ix, head, diskOrder, headOrder, p);
    LabelsDistinct();
    forall t | t in {Deleted, Modified, s}
      ensures FileInfo(p, t) in Status(index, files, head, diskOrder, headOrder, sha).unstaged
              <==> (p in l.deleted && t == Deleted) || (p in l.changed && t == Modified)
    {
      SortedMember(dels + mods, PathOf, FileInfo(p, t));
      LabelledMember(q => Deleted, l.deleted, p, t);
      LabelledMember(q => Modified, l.changed, p, t);
    }
  }

  /** The working tree, the index and HEAD agree in the sense `Status`
      checks: every working file is either in the index with the hash it
      has on disk and in HEAD, or missing from the index but in HEAD, and
      every HEAD path is on disk. */
  predicate Agree(disk: map<Bytes, Bytes>, index: map<Bytes, Bytes>, head: map<Bytes, Bytes>)
  {
    && (forall p | p in disk ::
          if p in index then disk[p] == index[p] && index[p] == HeadHash(head, p) else p in head)
    && (forall p | p in head :: p in disk)
  }

  /** "nothing to commit" is printed exactly when the three maps agree. */
  lemma NothingToCommit(disk: map<Bytes, Bytes>, index: map<Bytes, Bytes>, head: map<Bytes, Bytes>,
                        diskOrder: seq<Bytes>, headOrder: seq<Bytes>)
    requires Enumerates(diskOrder, disk.Keys) && Enumerates(headOrder, head.Keys)
    ensures MakeReport(ClassifyPaths(disk, index, head, diskOrder, headOrder), head, disk).clean
        <==> Agree(disk, index, head)
  {
    var l := ClassifyPaths(disk, index, head, diskOrder, headOrder);
    if |l.deleted| == 0 && |l.changed| == 0 && |l.untracked| == 0 && |l.staged| == 0 {
      CleanAgrees(disk, index, head, diskOrder, headOrder);
    }
    if Agree(disk, index, head) {
      AgreeClean(disk, index, head, diskOrder, headOrder);
    }
  }

  lemma CleanAgrees(disk: map<Bytes, Bytes>, index: map<Bytes, Bytes>, head: map<Bytes, Bytes>,
                    diskOrder: seq<Bytes>, headOrder: seq<Bytes>)
    requires Enumerates(diskOrder, disk.Keys) && Enumerates(headOrder, head.Keys)
    requires var l := ClassifyPaths(disk, index, head, diskOrder, headOrder);
      |l.deleted| == 0 && |l.changed| == 0 && |l.untracked| == 0 && |l.staged| == 0
    ensures Agree(disk, index, head)
  {
    forall p | p in disk
      ensures if p in index then disk[p] == index[p] && index[p] == HeadHash(head, p) else p in head
    {
      ClassifyMembers(disk, index, head, diskOrder, headOrder, p);
    }
    forall p | p in head
      ensures p in disk
    {
      ClassifyMembers(disk, index, head, diskOrder, headOrder, p);
    }
  }

  lemma AgreeClean(disk: map<Bytes, Bytes>, index: map<Bytes, Bytes>, head: map<Bytes, Bytes>,
                   diskOrder: seq<Bytes>, headOrder: seq<Bytes>)
    requires Enumerates(diskOrder, disk.Keys) && Enumerates(headOrder, head.Keys)
    requires Agree(disk, index, head)
    ensures var l := ClassifyPaths(disk, index, head, diskOrder, headOrder);
      |l.deleted| == 0 && |l.changed| == 0 && |l.untracked| == 0 && |l.staged| == 0
  {
    var l := ClassifyPaths(disk, index, head, diskOrder, headOrder);
    if |l.deleted| > 0 {
      ClassifyMembers(disk, index, head, diskOrder, headOrder, l.deleted[0]);
    }
    if |l.changed| > 0 {
      ClassifyMembers(disk, index, head, diskOrder, headOrder, l.changed[0]);
    }
    if |l.untracked| > 0 {
      ClassifyMembers(disk, index, head, diskOrder, headOrder, l.untracked[0]);
    }
    if |l.staged| > 0 {
      ClassifyMembers(disk, index, head, diskOrder, headOrder, l.staged[0]);
    }
  }

  lemma LabelledPermutation(labelOf: Bytes -> Bytes, s1: seq<Bytes>, s2: seq<Bytes>)
    requires multiset(s1) == multiset(s2)
    ensures multiset(Labelled(labelOf, s1)) == multiset(Labelled(labelOf, s2))
  {
    FlatMapPermutation(p => [FileInfo(p, labelOf(p))], s1, s2);
  }

  /** A path labelled by a function of the path has one label. */
  lemma LabelledKeysDetermine(labelOf: Bytes -> Bytes, paths: seq<Bytes>)
    ensures KeysDetermine(Labelled(labelOf, paths), PathOf)
  {
    var s := Labelled(labelOf, paths);
    forall x, y | x in s && y in s && PathOf(x) == PathOf(y)
      ensures x == y
    {
      LabelledMember(labelOf, paths, x.path, x.stage);
      LabelledMember(labelOf, paths, y.path, y.stage);
    }
  }

  /** Both loops build the same lists, up to order, whatever order the maps
      are visited in. */
  lemma ClassifyPermutation(disk: map<Bytes, Bytes>, index: map<Bytes, Bytes>, head: map<Bytes, Bytes>,
                            d1: seq<Bytes>, h1: seq<Bytes>, d2: seq<Bytes>, h2: seq<Bytes>)
    requires Enumerates(d1, disk.Keys) && Enumerates(h1, head.Keys)
    requires Enumerates(d2, disk.Keys) && Enumerates(h2, head.Keys)
    ensures var l1 := ClassifyPaths(disk, index, head, d1, h1);
            var l2 := ClassifyPaths(disk, index, head, d2, h2);
      && multiset(l1.changed) == multiset(l2.changed)
      && multiset(l1.untracked) == multiset(l2.untracked)
      && multiset(l1.deleted) == multiset(l2.deleted)
      && multiset(l1.staged) == multiset(l2.staged)
  {
    EnumerationsPermute(d1, d2, disk.Keys);
    EnumerationsPermute(h1, h2, head.Keys);
    SelectPermutation(p => p in index && p in disk && disk[p] != index[p], d1, d2);
    SelectPermutation(p => p !in index && p !in head, d1, d2);
    SelectPermutation(p => p in index && p !in disk, h1, h2);
    SelectPermutation(p => p in index && index[p] != HeadHash(head, p), d1, d2);
    SelectPermutation(p => p !in index && p !in disk, h1, h2);
  }

  /** The unstaged list never has a path twice: deletions are missing from
      disk and modifications are on it. */
  lemma UnstagedKeysDetermine(disk: map<Bytes, Bytes>, index: map<Bytes, Bytes>, head: map<Bytes, Bytes>,
                              diskOrder: seq<Bytes>, headOrder: seq<Bytes>)
    requires Enumerates(diskOrder, disk.Keys) && Enumerates(headOrder, head.Keys)
    ensures var l := ClassifyPaths(disk, index, head, diskOrder, headOrder);
      KeysDetermine(Labelled(p => Deleted, l.deleted) + Labelled(p => Modified, l.changed), PathOf)
  {
    var l := ClassifyPaths(disk, index, head, diskOrder, headOrder);
    var dels := Labelled(p => Deleted, l.deleted);
    var mods := Labelled(p => Modified, l.changed);
    forall x, y | x in dels + mods && y in dels + mods && PathOf(x) == PathOf(y)
      ensures x == y
    {
      ClassifyMembers(disk, index, head, diskOrder, headOrder, x.path);
      LabelledMember(p => Deleted, l.deleted, x.path, x.stage);
      LabelledMember(p => Modified, l.changed, x.path, x.stage);
      LabelledMember(p => Deleted, l.deleted, y.path, y.stage);
      LabelledMember(p => Modified, l.changed, y.path, y.stage);
    }
  }

  /** What `Status` prints does not depend on the order Go visits the maps
      in, except for the order of the untracked files. */
  lemma StatusOrderIndependent(index: IndexFile, files: map<Bytes, Bytes>, head: map<Bytes, Bytes>,
                               d1: seq<Bytes>, h1: seq<Bytes>, d2: seq<Bytes>, h2: seq<Bytes>,
                               sha: Bytes -> Digest)
    requires Enumerates(d1, files.Keys) && Enumerates(h1, head.Keys)
    requires Enumerates(d2, files.Keys) && Enumerates(h2, head.Keys)
    ensures var r1 := Status(index, files, head, d1, h1, sha);
            var r2 := Status(index, files, head, d2, h2, sha);
      && r1.clean == r2.clean
      && r1.staged == r2.staged
      && r1.unstaged == r2.unstaged
      && multiset(r1.untracked) == multiset(r2.untracked)
  {
    var disk := WorkingHashes(files, sha);
    var ix := IndexHashes(index.entries);
    assert disk.Keys == files.Keys;
    var l1 := ClassifyPaths(disk, ix, head, d1, h1);
    var l2 := ClassifyPaths(disk, ix, head, d2, h2);
    ClassifyPermutation(disk, ix, head, d1, h1, d2, h2);
    assert |l1.changed| == |multiset(l1.changed)| && |l2.changed| == |multiset(l2.changed)|;
    assert |l1.untracked| == |multiset(l1.untracked)| && |l2.untracked| == |multiset(l2.untracked)|;
    assert |l1.deleted| == |multiset(l1.deleted)| && |l2.deleted| == |multiset(l2.deleted)|;
    assert |l1.staged| == |multiset(l1.staged)| && |l2.staged| == |multiset(l2.staged)|;
    var labelOf := q => StageLabel(head, disk, q);
    LabelledPermutation(labelOf, l1.staged, l2.staged);
    LabelledKeysDetermine(labelOf, l1.staged);
    SortByCanonical(Labelled(labelOf, l1.staged), Labelled(labelOf, l2.staged), PathOf);
    LabelledPermutation(p => Deleted, l1.deleted, l2.deleted);
    LabelledPermutation(p => Modified, l1.changed, l2.changed);
    UnstagedKeysDetermine(disk, ix, head, d1, h1);
    SortByCanonical(Labelled(p => Deleted, l1.deleted) + Labelled(p => Modified, l1.changed),
                    Labelled(p => Deleted, l2.deleted) + Labelled(p => Modified, l2.changed), PathOf);
  }

  // ---------------------------------------------------------------------------
  // extractCommitTreeHash
  // ---------------------------------------------------------------------------

  /** `extractCommitTreeHash`: joins back what follows the first NUL, keeps
      its first line and returns that line's last space-separated field. */
  function ExtractCommitTreeHash(data: Bytes): Bytes
  {
    var content := Join(Split(data, NUL)[1..], NUL);
    var line := Split(content, LF)[0];
    var fields := Split(line, SP);
    fields[|fields| - 1]
  }

  /** The hash is the last space-separated field of the first line after
      the first NUL; empty when there is no NUL. */
  lemma ExtractCommitTreeHashIs(data: Bytes)
    ensures ExtractCommitTreeHash(data) == AfterLast(BeforeFirst(AfterFirst(data, NUL), LF), SP)
    ensures NUL !in data ==> ExtractCommitTreeHash(data) == []
  {
    SplitRestJoin(data, NUL);
    SplitFirst(AfterFirst(data, NUL), LF);
    SplitLast(BeforeFirst(AfterFirst(data, NUL), LF), SP);
    if NUL !in data {
      IndexOfAbsent(data, NUL);
    }
  }

  /** The tree hash a commit object is built with is the one read back. */
  lemma CommitTreeHashRoundTrip(treeHash: Digest, parent: Bytes, ts: int, zone: int,
                                messages: seq<Bytes>, sha: Bytes -> Digest)
    ensures ExtractCommitTreeHash(GetCommitHashObject(treeHash, parent, ts, zone, messages, sha).framed)
         == Hex(treeHash)
  {
    var framed := GetCommitHashObject(treeHash, parent, ts, zone, messages, sha).framed;
    var body := CommitBody(treeHash, parent, ts, zone, messages);
    calc {
      ExtractCommitTreeHash(framed);
      { ExtractCommitTreeHashIs(framed); }
      AfterLast(BeforeFirst(AfterFirst(framed, NUL), LF), SP);
      AfterLast(BeforeFirst(body, LF), SP);
      { CommitBodyLines(treeHash, parent, ts, zone, messages); }
      AfterLast(Str("tree ") + Hex(treeHash), SP);
      { TreeWord(); }
      AfterLast(Str("tree") + [SP] + Hex(treeHash), SP);
      { HexHasNoSeparators(treeHash); AfterLastIs(Str("tree"), SP, Hex(treeHash)); }
      Hex(treeHash);
    }
  }

  lemma TreeWord()
    ensures Str("tree ") == Str("tree") + [SP]
  {
  }
}

=== FILE: types.dfy ===
/** The records of pkg/types: index entries, tree entries, the cache-tree
    extension, and the two serialisers defined on them (`Entry.ToBytes` and
    `TreeObject.ToBytes`). */
module Types {
  import opened Wrappers
  import opened Bytes
  import opened Sorting

  /** One staged path of the index. `mode` is the 32-bit word as read from
      disk; `objectType` and `perms` are the fields the encoder writes. */
  datatype Entry = Entry(
    ctimeSeconds: u32,
    ctimeNanoseconds: u32,
    mtimeSeconds: u32,
    mtimeNanoseconds: u32,
    dev: u32,
    ino: u32,
    mode: u32,
    uid: u32,
    gid: u32,
    size: u32,
    objectType: u16,
    perms: u16,
    nameLength: u16,
    stage: u8,
    assumeValid: bool,
    extendedFlag: bool,
    skipWorktree: bool,
    intentToAdd: bool,
    future: bool,
    sha1: Digest,
    path: Bytes)

  /** One record of the "TREE" cache-tree extension; `oid` is empty for an
      invalidated record (negative entry count). */
  datatype TreeCacheEntry = TreeCacheEntry(path: Bytes, entryCount: int, subtreeCount: int, oid: Bytes)

  datatype TreeCacheExtension = TreeCacheExtension(sig: Bytes, entries: seq<TreeCacheEntry>)

  /** A decoded index file. The empty value stands for a missing index. */
  datatype IndexFile = IndexFile(
    entriesLen: u32,
    version: u32,
    sign: Bytes,
    entries: seq<Entry>,
    extensions: seq<TreeCacheExtension>)

  const EmptyIndex := IndexFile(0, 0, [], [], [])

  datatype TreeEntry = TreeEntry(mode: Bytes, name: Bytes, hash: Bytes)

  datatype TreeObject = TreeObject(entries: seq<TreeEntry>)

  // ---------------------------------------------------------------------------
  // Object framing: `<kind> <decimal length>\0<content>`
  // ---------------------------------------------------------------------------

  function Frame(kind: Bytes, content: Bytes): Bytes
  {
    kind + [SP] + Decimal(|content|) + [NUL] + content
  }

  /** The header of a framed object holds no NUL when its kind holds none, so
      the content starts right after the first NUL. */
  lemma FrameSplitsAtFirstNul(kind: Bytes, content: Bytes)
    requires NUL !in kind
    ensures IndexOf(Frame(kind, content), NUL) == |kind| + 1 + |Decimal(|content|)|
    ensures AfterFirst(Frame(kind, content), NUL) == content
    ensures Frame(kind, content)[..|kind| + 1 + |Decimal(|content|)|] == kind + [SP] + Decimal(|content|)
  {
    var d := Decimal(|content|);
    var f := Frame(kind, content);
    var h := |kind| + 1 + |d|;
    assert f[h] == NUL;
    forall j | 0 <= j < h
      ensures f[j] != NUL
    {
      if j < |kind| {
        assert f[j] == kind[j];
      } else if j > |kind| {
        assert f[j] == d[j - |kind| - 1];
        assert IsDigitIn(d[j - |kind| - 1], 10);
      }
    }
    assert NUL !in f[..h];
    assert f[h + 1..] == content;
  }

  /** The kind word of a tree object is four letters, none of them NUL. */
  lemma TreeKindLetters()
    ensures Str("tree") == [116, 114, 101, 101]
    ensures NUL !in Str("tree")
  {
  }

  /** The three parts of a framed object: kind, declared size, content. */
  datatype FrameParts = FrameParts(kind: Bytes, size: int, content: Bytes)

  /** Reads a framed object back: the header ends at the first NUL, the kind
      at the header's first space, and the rest of the header is a decimal. */
  function ParseFrame(b: Bytes): Option<FrameParts>
  {
    var i := IndexOf(b, NUL);
    if i < 0 then None
    else
      var header := b[..i];
      var j := IndexOf(header, SP);
      if j < 0 then None
      else
        match ParseInt(header[j + 1..], 10)
        case None => None
        case Some(n) => Some(FrameParts(header[..j], n, b[i + 1..]))
  }

  /** Framing is undone by `ParseFrame` for any kind free of space and NUL. */
  lemma FrameRoundTrip(kind: Bytes, content: Bytes)
    requires NUL !in kind && SP !in kind
    requires |content| <= Int64Max
    ensures ParseFrame(Frame(kind, content)) == Some(FrameParts(kind, |content|, content))
  {
    var f := Frame(kind, content);
    FrameSplitsAtFirstNul(kind, content);
    var i := IndexOf(f, NUL);
    var header := f[..i];
    assert header == kind + [SP] + Decimal(|content|);
    forall j | 0 <= j < |kind|
      ensures header[j] != SP
    {
      assert header[j] == kind[j];
    }
    ScanIs(header, 0, SP, |kind|);
    assert header[|kind| + 1..] == FormatInt(|content|);
    ParseFormatInt(|content|);
    assert header[..|kind|] == kind;
  }

  // ---------------------------------------------------------------------------
  // Entry.ToBytes
  // ---------------------------------------------------------------------------

  /** The mode word the encoder writes: 4 object-type bits over 9 permission bits. */
  function ModeWord(objectType: u16, perms: u16): u32
  {
    (objectType % 16) * 0x1000 + perms % 0x200
  }

  /** The name-length field of the flags word: the path length, saturated at 0xFFF. */
  function NameFlags(path: Bytes): u16
  {
    if |path| < 0xFFF then |path| else 0xFFF
  }

  /** Zero bytes that bring a length of `n` up to a multiple of 8. */
  function Padding(n: nat): (r: nat)
    ensures r < 8 && (n + r) % 8 == 0
  {
    (8 - n % 8) % 8
  }

  /** The ten 32-bit stat words of an entry, in on-disk order. */
  function StatWords(e: Entry): seq<u32>
  {
    [e.ctimeSeconds, e.ctimeNanoseconds, e.mtimeSeconds, e.mtimeNanoseconds,
     e.dev, e.ino, ModeWord(e.objectType, e.perms), e.uid, e.gid, e.size]
  }

  function Words32(ws: seq<u32>): (r: Bytes)
    ensures |r| == 4 * |ws|
  {
    if |ws| == 0 then [] else Be32(ws[0]) + Words32(ws[1..])
  }

  lemma {:induction false} Words32Slice(ws: seq<u32>, i: nat)
    requires i < |ws|
    ensures Words32(ws)[4 * i..4 * i + 4] == Be32(ws[i])
  {
    if i > 0 {
      Words32Slice(ws[1..], i - 1);
      assert Words32(ws)[4 * i..4 * i + 4] == Words32(ws[1..])[4 * (i - 1)..4 * (i - 1) + 4];
    }
  }

  /** `Entry.ToBytes`: the version-2 on-disk form of one index entry. */
  function EntryToBytes(e: Entry): (r: Bytes)
    ensures |r| % 8 == 0
    ensures |r| == 63 + |e.path| + Padding(63 + |e.path|)
  {
    var body := Words32(StatWords(e)) + e.sha1 + Be16(NameFlags(e.path)) + e.path + [NUL];
    body + Zeros(Padding(|body|))
  }

  /** Where each field of an entry sits in its encoding. */
  lemma EntryLayout(e: Entry)
    ensures var r := EntryToBytes(e);
      && (forall i | 0 <= i < 10 :: r[4 * i..4 * i + 4] == Be32(StatWords(e)[i]))
      && r[24..28] == Be32(ModeWord(e.objectType, e.perms))
      && r[40..60] == e.sha1
      && r[60..62] == Be16(NameFlags(e.path))
      && r[62..62 + |e.path|] == e.path
      && r[62 + |e.path|] == NUL
      && (forall i | 63 + |e.path| <= i < |r| :: r[i] == 0)
  {
    var r := EntryToBytes(e);
    var w := Words32(StatWords(e));
    var body := w + e.sha1 + Be16(NameFlags(e.path)) + e.path + [NUL];
    assert r == body + Zeros(Padding(|body|));
    assert r[..|body|] == body;
    forall i | 0 <= i < 10
      ensures r[4 * i..4 * i + 4] == Be32(StatWords(e)[i])
    {
      Words32Slice(StatWords(e), i);
      assert r[4 * i..4 * i + 4] == w[4 * i..4 * i + 4];
    }
    assert StatWords(e)[6] == ModeWord(e.objectType, e.perms);
    assert r[24..28] == r[4 * 6..4 * 6 + 4];
    assert r[40..60] == body[40..60] == e.sha1;
    assert r[60..62] == body[60..62] == Be16(NameFlags(e.path));
    assert r[62..62 + |e.path|] == body[62..62 + |e.path|] == e.path;
    assert r[62 + |e.path|] == body[62 + |e.path|];
    forall i | 63 + |e.path| <= i < |r|
      ensures r[i] == 0
    {
      assert r[i] == Zeros(Padding(|body|))[i - |body|];
    }
  }

  // ---------------------------------------------------------------------------
  // TreeObject.ToBytes
  // ---------------------------------------------------------------------------

  const DirMode: Bytes := Str("040000")

  /** The name a tree entry is ordered by: a directory (mode exactly "040000")
      compares as if its name ended in '/'. */
  function TreeSortKey(e: TreeEntry): Bytes
  {
    if e.mode == DirMode then e.name + Str("/") else e.name
  }

  /** One entry of a tree body: mode, space, name, NUL, raw hash. */
  function EntryRecord(e: TreeEntry): Bytes
  {
    e.mode + [SP] + e.name + [NUL] + e.hash
  }

  function TreeBody(entries: seq<TreeEntry>): Bytes
  {
    if |entries| == 0 then [] else EntryRecord(entries[0]) + TreeBody(entries[1..])
  }

  /** The canonical order of a tree's entries. */
  function SortTree(entries: seq<TreeEntry>): seq<TreeEntry>
  {
    SortBy(entries, TreeSortKey)
  }

  /** `TreeObject.ToBytes`: sorts the receiver's entries in place and returns
      the framed tree object. The second component is the receiver afterwards. */
  function TreeObjectToBytes(t: TreeObject): (r: (Bytes, TreeObject))
    ensures SortedBy(r.1.entries, TreeSortKey)
    ensures multiset(r.1.entries) == multiset(t.entries)
    ensures r.0 == Frame(Str("tree"), TreeBody(r.1.entries))
  {
    var sorted := SortTree(t.entries);
    (Frame(Str("tree"), TreeBody(sorted)), TreeObject(sorted))
  }

  /** The bytes of the tree object holding `entries`. */
  function TreeBytes(entries: seq<TreeEntry>): Bytes
  {
    TreeObjectToBytes(TreeObject(entries)).0
  }

  /** The serialised tree does not depend on the order its entries came in,
      as long as no two different entries share a sort key. */
  lemma TreeBytesCanonical(s1: seq<TreeEntry>, s2: seq<TreeEntry>)
    requires multiset(s1) == multiset(s2)
    requires KeysDetermine(s1, TreeSortKey)
    ensures TreeBytes(s1) == TreeBytes(s2)
  {
    SortByCanonical(s1, s2, TreeSortKey);
  }

  /** '.' (46) is below '/' (47): "foo.bar" orders before "foo/". */
  lemma DottedBeforeSlash()
    ensures Less(Str("foo.bar"), Str("foo/"))
  {
    var a: Bytes := [102, 111, 111, 46, 98, 97, 114];
    var b: Bytes := [102, 111, 111, 47];
    assert Str("foo.bar") == a;
    assert Str("foo/") == b;
    assert a[1..][1..][1..] == [46, 98, 97, 114] && b[1..][1..][1..] == [47];
    assert Less(a[1..][1..][1..], b[1..][1..][1..]);
  }

  /** "040000" directories sort as name + "/", so a directory "foo" follows
      a file "foo.bar" ('.' is below '/') and a file "foo" precedes both. */
  lemma TreeOrderExample()
    ensures var dir := TreeEntry(DirMode, Str("foo"), []);
      var dotted := TreeEntry(Str("100644"), Str("foo.bar"), []);
      var plain := TreeEntry(Str("100644"), Str("foo"), []);
      && Less(TreeSortKey(plain), TreeSortKey(dotted))
      && Less(TreeSortKey(dotted), TreeSortKey(dir))
      && SortTree([dir, dotted]) == [dotted, dir]
  {
    var dir := TreeEntry(DirMode, Str("foo"), []);
    var dotted := TreeEntry(Str("100644"), Str("foo.bar"), []);
    var plain := TreeEntry(Str("100644"), Str("foo"), []);
    assert Str("foo") + Str("/") == Str("foo/");
    assert Str("100644")[1] != DirMode[1];
    assert Str("foo.bar")[..3] == Str("foo");
    PrefixLess(Str("foo"), Str("foo.bar"));
    DottedBeforeSlash();
    SortExample(dir, dotted);
  }

  lemma SortExample(x: TreeEntry, y: TreeEntry)
    requires Less(TreeSortKey(y), TreeSortKey(x))
    ensures SortTree([x, y]) == [y, x]
  {
    assert [x, y][1..] == [y];
    assert SortBy([y], TreeSortKey) == [y] by {
      assert [y][1..] == [];
    }
    LessAsymmetric(TreeSortKey(y), TreeSortKey(x));
    LessIrreflexive(TreeSortKey(x));
    assert Insert(x, [y], TreeSortKey) == [y] + Insert(x, [], TreeSortKey);
  }

  /** Mode "40000" (without the leading zero) gets no '/' suffix. */
  lemma ShortDirModeHasNoSuffix(name: Bytes, hash: Bytes)
    ensures TreeSortKey(TreeEntry(Str("40000"), name, hash)) == name
  {
  }
}

=== FILE: updateindex.dfy ===
/** pkg/commands/update-index.go: building the entry of a freshly hashed
    file, upserting it into the index, and the buffer `WriteIndex` writes. */
module IndexUpdate {
  import opened Wrappers
  import opened Bytes
  import opened Sorting
  import opened Types
  import opened Utils
  import opened IndexDecoder
  import opened Layout

  /** What `os.Stat` reports about the file, as the source reads it. The
      wide integers are kept unbounded; the entry truncates them. */
  datatype StatInfo = StatInfo(
    mode: FileMode,
    size: int,
    dev: int,
    ino: int,
    ctimeSeconds: int,
    ctimeNanoseconds: int,
    mtimeSeconds: int,
    mtimeNanoseconds: int,
    uid: u32,
    gid: u32)

  /** Go's `uint32(x)` and `uint16(x)` conversions keep the low bits. */
  function Low32(x: int): u32 { x % 0x1_0000_0000 }
  function Low16(x: int): u16 { x % 0x1_0000 }

  /** The entry `UpdateIndex` builds for `path` hashed to `hash`. */
  function NewEntry(path: Bytes, hash: Digest, st: StatInfo): (e: Entry)
    ensures e.mode == ModeWord(e.objectType, e.perms)
    ensures e.objectType in {ObjRegular, ObjSymlink, ObjOther} && e.perms == Perm(st.mode)
    ensures e.nameLength == |path| % 0x1_0000
    ensures e.stage == 0 && !e.assumeValid && !e.extendedFlag && !e.skipWorktree && !e.intentToAdd && !e.future
    ensures e.path == path && e.sha1 == hash
  {
    var bits := GitModeFromGoMode(st.mode);
    assert bits.objectType < 16 && bits.perms < 0x200;
    // `(objBits << 12) | permBits`: the two fields do not overlap
    var mode32 := bits.objectType * 0x1000 + bits.perms;
    assert mode32 == ModeWord(bits.objectType, bits.perms);
    Entry(
      ctimeSeconds := Low32(st.ctimeSeconds),
      ctimeNanoseconds := Low32(st.ctimeNanoseconds),
      mtimeSeconds := Low32(st.mtimeSeconds),
      mtimeNanoseconds := Low32(st.mtimeNanoseconds),
      dev := Low32(st.dev),
      ino := Low32(st.ino),
      mode := mode32,
      uid := st.uid,
      gid := st.gid,
      size := Low32(st.size),
      objectType := bits.objectType,
      perms := bits.perms,
      nameLength := Low16(|path|),
      stage := 0,
      assumeValid := false,
      extendedFlag := false,
      skipWorktree := false,
      intentToAdd := false,
      future := false,
      sha1 := hash,
      path := path)
  }

  /** A fresh entry with a path shorter than 0xFFF bytes is already in the
      form the index stores, so it survives writing and reading unchanged. */
  lemma NewEntryIsNormal(path: Bytes, hash: Digest, st: StatInfo)
    requires |path| < 0xFFF
    ensures Normalize(NewEntry(path, hash, st)) == NewEntry(path, hash, st)
  {
  }

  function PathKey(e: Entry): Bytes { e.path }

  /** Whether a prior entry survives the upsert of `added`. */
  predicate Kept(e: Entry, added: Entry)
  {
    e.sha1 != added.sha1 && e.path != added.path
  }

  function KeepOthers(prior: seq<Entry>, added: Entry): (r: seq<Entry>)
    ensures forall k | 0 <= k < |r| :: r[k] in prior && Kept(r[k], added)
    ensures forall k | 0 <= k < |prior| && Kept(prior[k], added) :: prior[k] in r
  {
    if |prior| == 0 then []
    else
      var rest := KeepOthers(prior[1..], added);
      if Kept(prior[0], added) then [prior[0]] + rest else rest
  }

  /** `KeepOthers` keeps every copy of a surviving entry and no copy of a
      dropped one. */
  lemma {:induction false} KeepOthersCounts(prior: seq<Entry>, added: Entry, x: Entry)
    ensures multiset(KeepOthers(prior, added))[x] == if Kept(x, added) then multiset(prior)[x] else 0
  {
    if |prior| > 0 {
      KeepOthersCounts(prior[1..], added, x);
      assert prior == [prior[0]] + prior[1..];
    }
  }

  /** The upsert of `UpdateIndex`: the new entry, then every prior entry
      with another hash and another path, sorted by path. */
  function Upsert(prior: seq<Entry>, added: Entry): seq<Entry>
  {
    SortBy([added] + KeepOthers(prior, added), PathKey)
  }

  /** What the upsert keeps, drops and how it orders the result. */
  lemma UpsertContents(prior: seq<Entry>, added: Entry)
    ensures var r := Upsert(prior, added);
      && added in r
      && (forall k | 0 <= k < |r| :: r[k] == added || (r[k] in prior && Kept(r[k], added)))
      && (forall k | 0 <= k < |prior| && Kept(prior[k], added) :: prior[k] in r)
      && (forall k | 0 <= k < |prior| && prior[k].path == added.path :: prior[k] !in r || prior[k] == added)
      && (forall k | 0 <= k < |prior| && prior[k].sha1 == added.sha1 :: prior[k] !in r || prior[k] == added)
      && SortedBy(r, PathKey)
      && multiset(r) == multiset([added] + KeepOthers(prior, added))
  {
    var s := [added] + KeepOthers(prior, added);
    var r := Upsert(prior, added);
    assert added in multiset(s);
    forall k | 0 <= k < |r|
      ensures r[k] == added || (r[k] in prior && Kept(r[k], added))
    {
      assert r[k] in multiset(s);
    }
    forall k | 0 <= k < |prior| && Kept(prior[k], added)
      ensures prior[k] in r
    {
      assert prior[k] in multiset(s);
    }
  }

  /** The upsert drops an entry that shares the new entry's hash even when
      it is staged under another path. */
  lemma UpsertDropsSameHash(other: Entry, added: Entry)
    requires other.sha1 == added.sha1 && other.path != added.path
    ensures Upsert([other], added) == [added]
  {
    assert KeepOthers([other], added) == [];
  }

  /** When the prior paths are distinct, the upserted paths ascend strictly. */
  lemma UpsertStrictlySorted(prior: seq<Entry>, added: Entry)
    requires KeysDistinct(prior, PathKey)
    ensures StrictlySortedBy(Upsert(prior, added), PathKey)
  {
    var kept := KeepOthers(prior, added);
    var s := [added] + kept;
    KeepOthersDistinct(prior, added);
    forall i, j | 0 <= i < j < |s|
      ensures s[i].path != s[j].path
    {
      if i > 0 {
        assert s[i] == kept[i - 1] && s[j] == kept[j - 1];
      } else {
        assert s[j] == kept[j - 1];
      }
    }
    assert KeysDistinct(s, PathKey);
    PermutationKeysDistinct(s, Upsert(prior, added), PathKey);
    SortedDistinctIsStrict(Upsert(prior, added), PathKey);
  }

  lemma {:induction false} KeepOthersDistinct(prior: seq<Entry>, added: Entry)
    requires KeysDistinct(prior, PathKey)
    ensures KeysDistinct(KeepOthers(prior, added), PathKey)
  {
    if |prior| > 0 {
      TailKeysDistinct(prior, PathKey);
      KeepOthersDistinct(prior[1..], added);
      var rest := KeepOthers(prior[1..], added);
      if Kept(prior[0], added) {
        forall k | 0 <= k < |rest|
          ensures rest[k].path != prior[0].path
        {
          var m :| 0 <= m < |prior[1..]| && prior[1..][m] == rest[k];
          assert prior[m + 1] == rest[k];
        }
        InsertKeysDistinct(rest, 0, prior[0], PathKey);
        assert rest[..0] + [prior[0]] + rest[0..] == [prior[0]] + rest;
      }
    }
  }

  // ---------------------------------------------------------------------------
  // WriteIndex
  // ---------------------------------------------------------------------------

  const IndexSignature: Bytes := Str("DIRC")

  lemma AlignedSum(a: nat, b: nat)
    requires a % 8 == 0 && b % 8 == 0
    ensures (a + b) % 8 == 0
  {
    assert a == 8 * (a / 8) && b == 8 * (b / 8);
    assert a + b == 8 * (a / 8 + b / 8);
  }

  function EntriesBytes(entries: seq<Entry>): (r: Bytes)
    ensures |r| % 8 == 0
  {
    if |entries| == 0 then []
    else
      var head := EntryToBytes(entries[0]);
      var tail := EntriesBytes(entries[1..]);
      AlignedSum(|head|, |tail|);
      head + tail
  }

  /** The header and entries `WriteIndex` hashes. */
  function IndexBody(entries: seq<Entry>): Bytes
  {
    IndexSignature + [0, 0, 0, 2] + Be32(Low32(|entries|)) + EntriesBytes(entries)
  }

  /** `WriteIndex`: a version-2 header, the encoded entries, and the SHA-1 of
      everything before it. Creating .git/index is left to the caller. */
  function WriteIndex(entries: seq<Entry>, sha: Bytes -> Digest): (r: Bytes)
    ensures |r| % 8 == 0 && |r| >= 32
    ensures r[..4] == IndexSignature && Uint32(r[4..8]) == 2 && Uint32(r[8..12]) == |entries| % 0x1_0000_0000
    ensures r[|r| - 20..] == sha(r[..|r| - 20])
  {
    var w := Be32(Low32(|entries|));
    Be32RoundTrip(Low32(|entries|));
    var h := IndexSignature + [0, 0, 0, 2] + w;
    var body := IndexBody(entries);
    assert body == h + EntriesBytes(entries);
    assert h[..4] == IndexSignature && h[4..8] == [0, 0, 0, 2] && h[8..12] == w;
    HeaderSlices(h, EntriesBytes(entries), sha(body));
    AlignedSum(32, |EntriesBytes(entries)|);
    body + sha(body)
  }

  function NormalizeAll(entries: seq<Entry>): (r: seq<Entry>)
    ensures |r| == |entries|
  {
    if |entries| == 0 then [] else [Normalize(entries[0])] + NormalizeAll(entries[1..])
  }

  /** Paths the decoder reads back: short, or free of NUL. */
  predicate Readable(entries: seq<Entry>)
  {
    forall k | 0 <= k < |entries| :: |entries[k].path| < 0xFFF || NUL !in entries[k].path
  }

  /** One turn of the entry loop. */
  lemma ReadEntriesStep(content: Bytes, offset: nat, version: u32, count: nat, previousPath: Bytes,
                        entry: Entry, next: nat, path: Bytes, rest: EntriesRead)
    requires ReadEntry(content, offset, version, previousPath) == Ok(EntryRead(entry, next, path))
    requires ReadEntries(content, next, version, count, path) == Ok(rest)
    ensures ReadEntries(content, offset, version, count + 1, previousPath)
         == Ok(EntriesRead([entry] + rest.entries, rest.next, rest.previousPath))
  {
  }

  /** `ReadIndex` of a long enough content, given what its loops return. */
  lemma ReadIndexOf(c: Bytes, es: EntriesRead, extensions: seq<TreeCacheExtension>, sha: Bytes -> Digest)
    requires |c| >= 20
    requires ReadEntries(c, 12, Uint32(c[4..8]), Uint32(c[8..12]), []) == Ok(es)
    requires ReadExtensions(c, es.next) == Ok(extensions)
    ensures ReadIndex(Some(c), sha) == Ok(IndexRead(
      IndexFile(Uint32(c[8..12]), Uint32(c[4..8]), c[..4], es.entries, extensions),
      sha(c[..|c| - 20]) != c[|c| - 20..]))
  {
  }

  lemma ReadableTail(entries: seq<Entry>)
    requires |entries| > 0 && Readable(entries)
    ensures |entries[0].path| < 0xFFF || NUL !in entries[0].path
    ensures Readable(entries[1..])
  {
    forall k | 0 <= k < |entries| - 1
      ensures |entries[1..][k].path| < 0xFFF || NUL !in entries[1..][k].path
    {
      assert entries[1..][k] == entries[k + 1];
    }
  }

  lemma EntriesCons(entries: seq<Entry>)
    requires |entries| > 0
    ensures NormalizeAll(entries) == [Normalize(entries[0])] + NormalizeAll(entries[1..])
  {
  }

  /** Each entry, read at its start, gives back the entry in normal form and
      ends where the next one starts. */
  predicate ReadsBack(content: Bytes, starts: seq<nat>, entries: seq<Entry>, previousPath: Bytes)
  {
    && |starts| == |entries| + 1
    && forall i | 0 <= i < |entries| ::
         ReadEntry(content, starts[i], 2, previousPath) == Ok(EntryRead(Normalize(entries[i]), starts[i + 1], previousPath))
  }

  /** The entries' encodings are the encoder applied to each in turn. */
  lemma {:induction false} EntriesBytesEncodings(entries: seq<Entry>)
    ensures EntriesBytes(entries) == Encodings(entries, EntryToBytes)
    decreases |entries|
  {
    if |entries| > 0 {
      EntriesBytesEncodings(entries[1..]);
    }
  }

  /** Entries laid out in `content` each read back. */
  lemma EntriesReadBack(entries: seq<Entry>, content: Bytes, starts: seq<nat>, previousPath: Bytes)
    requires Readable(entries)
    requires LaidOut(content, starts, entries, EntryToBytes)
    ensures ReadsBack(content, starts, entries, previousPath)
  {
    forall i | 0 <= i < |entries|
      ensures ReadEntry(content, starts[i], 2, previousPath) == Ok(EntryRead(Normalize(entries[i]), starts[i + 1], previousPath))
    {
      EntryReadAt(entries[i], content, starts[i], starts[i + 1], previousPath);
    }
  }

  /** `EntryRoundTrip` with the end of the entry given. */
  lemma EntryReadAt(e: Entry, content: Bytes, offset: nat, next: nat, previousPath: Bytes)
    requires |e.path| < 0xFFF || NUL !in e.path
    requires next == offset + |EntryToBytes(e)| <= |content|
    requires content[offset..next] == EntryToBytes(e)
    ensures ReadEntry(content, offset, 2, previousPath) == Ok(EntryRead(Normalize(e), next, previousPath))
  {
    EntryRoundTrip(e, content, offset, previousPath);
  }

  /** Entries that each read back are read back by the entry loop. */
  lemma {:induction false} ReadsBackLoop(entries: seq<Entry>, content: Bytes, starts: seq<nat>, previousPath: Bytes)
    requires ReadsBack(content, starts, entries, previousPath)
    ensures ReadEntries(content, starts[0], 2, |entries|, previousPath)
         == Ok(EntriesRead(NormalizeAll(entries), starts[|entries|], previousPath))
    decreases |entries|
  {
    if |entries| > 0 {
      EntriesCons(entries);
      forall i | 0 <= i < |entries| - 1
        ensures ReadEntry(content, starts[1..][i], 2, previousPath)
             == Ok(EntryRead(Normalize(entries[1..][i]), starts[1..][i + 1], previousPath))
      {
        assert starts[1..][i] == starts[i + 1] && starts[1..][i + 1] == starts[i + 2];
        assert entries[1..][i] == entries[i + 1];
      }
      ReadsBackLoop(entries[1..], content, starts[1..], previousPath);
      ReadEntriesStep(content, starts[0], 2, |entries| - 1, previousPath, Normalize(entries[0]), starts[1], previousPath,
                      EntriesRead(NormalizeAll(entries[1..]), starts[|entries|], previousPath));
    }
  }

  /** Consecutive encodings are read back one entry after another. */
  lemma EntriesRoundTrip(entries: seq<Entry>, content: Bytes, offset: nat, previousPath: Bytes)
    requires Readable(entries)
    requires offset + |EntriesBytes(entries)| <= |content|
    requires content[offset..offset + |EntriesBytes(entries)|] == EntriesBytes(entries)
    ensures var r := ReadEntries(content, offset, 2, |entries|, previousPath);
      && r.Ok?
      && r.value.entries == NormalizeAll(entries)
      && r.value.next == offset + |EntriesBytes(entries)|
      && r.value.previousPath == previousPath
  {
    EntriesBytesEncodings(entries);
    var starts := LayOut(entries, EntryToBytes, content, offset);
    LaidOutEnd(content, starts, entries, EntryToBytes);
    EntriesReadBack(entries, content, starts, previousPath);
    ReadsBackLoop(entries, content, starts, previousPath);
  }

  /** The index `WriteIndex` produces, followed by any 20 bytes, reads back
      as a version-2 index of the normalised entries with no extensions; the
      checksum is only compared, so a wrong one merely raises the flag. */
  lemma WriteIndexReadBack(entries: seq<Entry>, checksum: Digest, sha: Bytes -> Digest)
    requires |entries| < 0x1_0000_0000 && Readable(entries)
    ensures ReadIndex(Some(IndexBody(entries) + checksum), sha)
         == Ok(IndexRead(IndexFile(|entries|, 2, IndexSignature, NormalizeAll(entries), []),
                         checksum != sha(IndexBody(entries))))
  {
    var body := IndexBody(entries);
    var c := body + checksum;
    var eb := EntriesBytes(entries);
    IndexHeader(entries, checksum);
    EntriesRoundTrip(entries, c, 12, []);
    assert ReadExtensions(c, 12 + |eb|) == Ok([]);
    ReadIndexOf(c, EntriesRead(NormalizeAll(entries), 12 + |eb|, []), [], sha);
  }

  lemma IndexHeader(entries: seq<Entry>, checksum: Digest)
    requires |entries| < 0x1_0000_0000
    ensures var c := IndexBody(entries) + checksum;
      var eb := EntriesBytes(entries);
      && |c| == 12 + |eb| + 20
      && c[..4] == IndexSignature
      && Uint32(c[4..8]) == 2
      && Uint32(c[8..12]) == |entries|
      && c[12..12 + |eb|] == eb
      && c[..|c| - 20] == IndexBody(entries)
      && c[|c| - 20..] == checksum
  {
    var w := Be32(|entries|);
    Be32RoundTrip(|entries|);
    assert Low32(|entries|) == |entries|;
    var h := IndexSignature + [0, 0, 0, 2] + w;
    assert IndexBody(entries) == h + EntriesBytes(entries);
    assert h[..4] == IndexSignature && h[4..8] == [0, 0, 0, 2] && h[8..12] == w;
    HeaderSlices(h, EntriesBytes(entries), checksum);
  }

  /** The slices of a 12-byte header, a body and a 20-byte trailer. */
  lemma HeaderSlices(h: Bytes, eb: Bytes, checksum: Bytes)
    requires |h| == 12 && |checksum| == 20
    ensures var c := h + eb + checksum;
      && |c| == 12 + |eb| + 20
      && c[..4] == h[..4] && c[4..8] == h[4..8] && c[8..12] == h[8..12]
      && c[12..12 + |eb|] == eb
      && c[..|c| - 20] == h + eb
      && c[|c| - 20..] == checksum
  {
  }

  /** Writing then reading the index gives back the entries with a valid checksum. */
  lemma WriteIndexRoundTrip(entries: seq<Entry>, sha: Bytes -> Digest)
    requires |entries| < 0x1_0000_0000 && Readable(entries)
    ensures ReadIndex(Some(WriteIndex(entries, sha)), sha)
         == Ok(IndexRead(IndexFile(|entries|, 2, IndexSignature, NormalizeAll(entries), []), false))
  {
    WriteIndexReadBack(entries, sha(IndexBody(entries)), sha);
  }

  /** The length of the written index: header, entries, checksum. */
  lemma WriteIndexLength(entries: seq<Entry>, sha: Bytes -> Digest)
    ensures |WriteIndex(entries, sha)| == 12 + |EntriesBytes(entries)| + 20
  {
  }

  // ---------------------------------------------------------------------------
  // UpdateIndex
  // ---------------------------------------------------------------------------

  /** `UpdateIndex`: reads the current index, upserts the entry for `path`,
      and returns the bytes written to .git/index. */
  function UpdateIndex(path: Bytes, hash: Digest, st: StatInfo, index: Option<Bytes>, sha: Bytes -> Digest): (r: Result<Bytes, IndexError>)
    ensures r.Ok? <==> ReadIndex(index, sha).Ok?
    // for readers: the composition; `UpdateIndexReadBack` states what it holds
    ensures r.Ok? ==> r.value == WriteIndex(Upsert(ReadIndex(index, sha).value.index.entries, NewEntry(path, hash, st)), sha)
  {
    var current :- ReadIndex(index, sha);
    Ok(WriteIndex(Upsert(current.index.entries, NewEntry(path, hash, st)), sha))
  }

  /** Whatever the current index holds, the index `UpdateIndex` writes reads
      back as version 2 with a valid checksum, the upserted entries in path
      order, and nothing else. */
  lemma UpdateIndexReadBack(path: Bytes, hash: Digest, st: StatInfo, index: Option<Bytes>, sha: Bytes -> Digest,
                            cur: IndexRead, entries: seq<Entry>)
    requires ReadIndex(index, sha) == Ok(cur)
    requires entries == Upsert(cur.index.entries, NewEntry(path, hash, st))
    requires |entries| < 0x1_0000_0000 && Readable(entries)
    ensures var r := UpdateIndex(path, hash, st, index, sha);
      && r.Ok?
      && ReadIndex(Some(r.value), sha)
         == Ok(IndexRead(IndexFile(|entries|, 2, IndexSignature, NormalizeAll(entries), []), false))
    ensures NewEntry(path, hash, st) in entries && SortedBy(entries, PathKey)
    ensures multiset(entries) == multiset([NewEntry(path, hash, st)] + KeepOthers(cur.index.entries, NewEntry(path, hash, st)))
  {
    UpsertContents(cur.index.entries, NewEntry(path, hash, st));
    WriteIndexRoundTrip(entries, sha);
  }

  /** Staging the first file of a repository writes an index holding just it. */
  lemma FirstUpdate(path: Bytes, hash: Digest, st: StatInfo, sha: Bytes -> Digest)
    requires |path| < 0xFFF
    ensures var r := UpdateIndex(path, hash, st, None, sha);
      && r.Ok?
      && ReadIndex(Some(r.value), sha)
         == Ok(IndexRead(IndexFile(1, 2, IndexSignature, [NewEntry(path, hash, st)], []), false))
  {
    var e := NewEntry(path, hash, st);
    assert KeepOthers([], e) == [];
    assert Upsert([], e) == [e] by {
      assert [e][1..] == [];
    }
    NewEntryIsNormal(path, hash, st);
    assert NormalizeAll([e]) == [e] by {
      assert [e][1..] == [];
    }
    WriteIndexRoundTrip([e], sha);
  }
}

=== FILE: utils.dfy ===
/** The helpers of pkg/utils: the index varint reader, the file-mode
    translations, HEAD parsing, object framing and the commit body layout. */
module Utils {
  import opened Wrappers
  import opened Bytes
  import opened Types

  // ---------------------------------------------------------------------------
  // ReadVarInt
  // ---------------------------------------------------------------------------

  const Word64: nat := 0x1_0000_0000_0000_0000

  function Pow2(n: nat): (r: nat)
    ensures r > 0
  {
    if n == 0 then 1 else 2 * Pow2(n - 1)
  }

  lemma Pow2Step(n: nat)
    ensures Pow2(n + 7) == 0x80 * Pow2(n)
  {
    assert Pow2(n + 7) == 2 * Pow2(n + 6) == 4 * Pow2(n + 5) == 8 * Pow2(n + 4);
    assert Pow2(n + 4) == 2 * Pow2(n + 3) == 4 * Pow2(n + 2) == 8 * Pow2(n + 1) == 16 * Pow2(n);
  }

  /** The number a little-endian base-128 group sequence denotes: the low
      seven bits of each byte, least significant group first. */
  function VarSum(bs: Bytes): nat
  {
    if |bs| == 0 then 0 else bs[0] % 0x80 + 0x80 * VarSum(bs[1..])
  }

  /** A decoded varint and the offset just past it. */
  datatype VarInt = VarInt(value: nat, next: nat)

  lemma VarIntStep(result: nat, shift: nat, g: nat, acc: nat, rest: nat, whole: nat)
    requires acc == result + g * Pow2(shift)
    requires whole == g + 0x80 * rest
    ensures (acc + Pow2(shift + 7) * rest) % Word64 == (result + Pow2(shift) * whole) % Word64
  {
    Pow2Step(shift);
    assert Pow2(shift + 7) * rest == Pow2(shift) * (0x80 * rest);
    assert g * Pow2(shift) + Pow2(shift) * (0x80 * rest) == Pow2(shift) * (g + 0x80 * rest);
  }

  lemma VarSumOne(bs: Bytes)
    requires |bs| == 1
    ensures VarSum(bs) == bs[0] % 0x80
  {
    assert bs[1..] == [];
  }

  /** The loop of `ReadVarInt` from `offset` on, with `result` and `shift`
      as accumulated so far. The 7-bit groups never overlap, so the `|=`
      of the source is an addition. `uint` is 64 bits wide: Go truncates
      every shifted group modulo 2^64, which for a sum of such groups is the
      same as truncating the sum once, as done here on the way out. Reading
      past the end of `data` (a Go index panic) is `None`. */
  function ReadVarIntFrom(data: Bytes, offset: nat, result: nat, shift: nat): (r: Option<VarInt>)
    decreases |data| - offset
    ensures r.None? <==> forall i | offset <= i < |data| :: data[i] >= 0x80
    ensures r.Some? ==>
      && offset < r.value.next <= |data|
      && data[r.value.next - 1] < 0x80
      && (forall i | offset <= i < r.value.next - 1 :: data[i] >= 0x80)
  {
    if offset >= |data| then None
    else
      var b := data[offset];
      var acc := result + (b % 0x80) * Pow2(shift);
      if b < 0x80 then Some(VarInt(acc % Word64, offset + 1))
      else ReadVarIntFrom(data, offset + 1, acc, shift + 7)
  }

  /** What the loop accumulates: the groups it read, weighted from `shift`
      on, added to `result`, modulo 2^64. */
  lemma {:induction false} ReadVarIntFromValue(data: Bytes, offset: nat, result: nat, shift: nat)
    ensures var r := ReadVarIntFrom(data, offset, result, shift);
      r.Some? ==> r.value.value == (result + Pow2(shift) * VarSum(data[offset..r.value.next])) % Word64
    decreases |data| - offset
  {
    if offset < |data| {
      var b := data[offset];
      var g := b % 0x80;
      var acc := result + g * Pow2(shift);
      if b < 0x80 {
        assert ReadVarIntFrom(data, offset, result, shift) == Some(VarInt(acc % Word64, offset + 1));
        VarSumOne(data[offset..offset + 1]);
        assert Pow2(shift) * VarSum(data[offset..offset + 1]) == g * Pow2(shift);
      } else {
        assert ReadVarIntFrom(data, offset, result, shift) == ReadVarIntFrom(data, offset + 1, acc, shift + 7);
        ReadVarIntFromValue(data, offset + 1, acc, shift + 7);
        var r := ReadVarIntFrom(data, offset + 1, acc, shift + 7);
        if r.Some? {
          var s := data[offset..r.value.next];
          assert s[0] == b && s[1..] == data[offset + 1..r.value.next];
          VarIntStep(result, shift, g, acc, VarSum(s[1..]), VarSum(s));
          assert r.value.value == (acc + Pow2(shift + 7) * VarSum(s[1..])) % Word64;
          assert r.value.value == (result + Pow2(shift) * VarSum(s)) % Word64;
        }
      }
    }
  }

  /** The index of the first byte at or after `i` without the continuation
      bit (the last group of a varint), or `|data|` when there is none. */
  function LastGroup(data: Bytes, i: nat): (r: nat)
    requires i <= |data|
    ensures i <= r <= |data|
    ensures forall j | i <= j < r :: data[j] >= 0x80
    ensures r < |data| ==> data[r] < 0x80
    decreases |data| - i
  {
    if i == |data| || data[i] < 0x80 then i else LastGroup(data, i + 1)
  }

  /** `ReadVarInt`: decodes the varint at `offset`, as the value its groups
      denote modulo 2^64 and the offset just past its last group; `None`
      when no byte from `offset` on ends a varint. */
  function ReadVarInt(data: Bytes, offset: nat): (r: Option<VarInt>)
    ensures r.None? <==> forall i | offset <= i < |data| :: data[i] >= 0x80
    ensures r.Some? ==>
      && offset < r.value.next <= |data|
      && data[r.value.next - 1] < 0x80
      && (forall i | offset <= i < r.value.next - 1 :: data[i] >= 0x80)
  {
    if offset > |data| then None
    else
      var last := LastGroup(data, offset);
      if last == |data| then None else Some(VarInt(VarSum(data[offset..last + 1]) % Word64, last + 1))
  }

  /** `ReadVarInt` is the loop of the source run from a zero result and
      shift: it stops at the same byte and computes the same value. */
  lemma ReadVarIntIsLoop(data: Bytes, offset: nat)
    ensures ReadVarInt(data, offset) == ReadVarIntFrom(data, offset, 0, 0)
  {
    var a := ReadVarInt(data, offset);
    var b := ReadVarIntFrom(data, offset, 0, 0);
    ReadVarIntFromValue(data, offset, 0, 0);
    if b.Some? {
      var k := b.value.next;
      assert data[k - 1] < 0x80;
      assert a.Some?;
      assert a.value.next == k;
      assert Pow2(0) == 1;
    } else {
      forall i | offset <= i < |data|
        ensures data[i] >= 0x80
      {
      }
    }
  }

  /** The little-endian base-128 encoding `ReadVarInt` reads. */
  function EncodeVarInt(n: nat): (r: Bytes)
    ensures |r| >= 1
    ensures VarSum(r) == n
    decreases n
  {
    if n < 0x80 then [n] else [n % 0x80 + 0x80] + EncodeVarInt(n / 0x80)
  }

  /** Reading back an encoded value below 2^64 yields it and stops right
      after its last group, whatever follows. */
  lemma ReadEncodeVarInt(n: nat, rest: Bytes)
    requires n < Word64
    ensures ReadVarInt(EncodeVarInt(n) + rest, 0) == Some(VarInt(n, |EncodeVarInt(n)|))
  {
    var e := EncodeVarInt(n);
    var data := e + rest;
    EncodeVarIntShape(n);
    forall j | 0 <= j < |e|
      ensures data[j] == e[j]
    {
    }
    LastGroupIs(data, 0, |e| - 1);
    assert data[0..|e|] == e;
    assert VarSum(data[0..|e|]) == n;
    ModSmall(n, Word64);
  }

  lemma ModSmall(n: nat, m: nat)
    requires n < m
    ensures n % m == n
  {
  }

  /** The last group found from `i` is the first byte without the
      continuation bit. */
  lemma {:induction false} LastGroupIs(data: Bytes, i: nat, r: nat)
    requires i <= r < |data| && data[r] < 0x80
    requires forall j | i <= j < r :: data[j] >= 0x80
    ensures LastGroup(data, i) == r
    decreases r - i
  {
    if i < r {
      LastGroupIs(data, i + 1, r);
    }
  }

  /** Every group of an encoding but the last carries the continuation bit. */
  lemma {:induction false} EncodeVarIntShape(n: nat)
    ensures var e := EncodeVarInt(n);
      && e[|e| - 1] < 0x80
      && forall i | 0 <= i < |e| - 1 :: e[i] >= 0x80
    decreases n
  {
    if n >= 0x80 {
      EncodeVarIntShape(n / 0x80);
      var e := EncodeVarInt(n);
      assert e[1..] == EncodeVarInt(n / 0x80);
    }
  }

  /** The groups are read least significant first. Git's own index format
      encodes the version-4 strip count most significant first, adding one
      before each shift: the bytes 0x80 0x01 read here as 0 + (1 << 7) = 128,
      where git reads ((0 + 1) << 7) + 1 = 129; and 0x80 0x00 is 0 here and
      128 there. */
  lemma VarIntIsLittleEndian()
    ensures ReadVarInt([0x80, 0x01], 0) == Some(VarInt(128, 2))
    ensures ReadVarInt([0x80, 0x00], 0) == Some(VarInt(0, 2))
    ensures ReadVarInt([0xFF, 0xFF], 0) == None
  {
    var a: Bytes := [0x80, 0x01];
    assert a[0..2] == a && a[0..2][1..] == [0x01];
    assert VarSum([0x01]) == 1 by {
      assert [0x01][1..] == [];
    }
    var b: Bytes := [0x80, 0x00];
    assert b[0..2] == b && b[0..2][1..] == [0x00];
    assert VarSum([0x00]) == 0 by {
      assert [0x00][1..] == [];
    }
  }

  // ---------------------------------------------------------------------------
  // File modes
  // ---------------------------------------------------------------------------

  /** Go's `os.FileMode`: the type bits at the top, the permission bits at the bottom. */
  type FileMode = bv32

  const ModeDir: FileMode := 0x8000_0000
  const ModeSymlink: FileMode := 0x0800_0000
  const ModeDevice: FileMode := 0x0400_0000
  const ModeNamedPipe: FileMode := 0x0200_0000
  const ModeSocket: FileMode := 0x0100_0000
  const ModeCharDevice: FileMode := 0x0020_0000
  const ModeIrregular: FileMode := 0x0008_0000
  const ModeType: FileMode := ModeDir | ModeSymlink | ModeNamedPipe | ModeSocket | ModeDevice | ModeCharDevice | ModeIrregular
  const ModePerm: FileMode := 0x1FF

  predicate IsDir(m: FileMode) { m & ModeDir != 0 }
  predicate IsSymlink(m: FileMode) { m & ModeSymlink != 0 }
  predicate IsRegular(m: FileMode) { m & ModeType == 0 }
  /** Any of the three execute bits (0111). */
  predicate IsExecutable(m: FileMode) { m & 0x49 != 0 }

  function Perm(m: FileMode): (r: u32)
    ensures r < 0x200
  {
    (m & ModePerm) as int
  }

  datatype GitModeBits = GitModeBits(objectType: u32, perms: u32)

  const ObjRegular: u32 := 0x8
  const ObjSymlink: u32 := 0xA
  const ObjOther: u32 := 0xE

  /** `GitModeFromGoMode`: the index object type (regular file, symlink,
      anything else) and the nine permission bits. */
  function GitModeFromGoMode(m: FileMode): (r: GitModeBits)
    ensures r.objectType in {ObjRegular, ObjSymlink, ObjOther}
    ensures r.objectType == ObjRegular <==> IsRegular(m)
    ensures r.objectType == ObjSymlink <==> !IsRegular(m) && IsSymlink(m)
    ensures r.perms == Perm(m) && r.perms < 0x200
  {
    var obj := if IsRegular(m) then ObjRegular else if IsSymlink(m) then ObjSymlink else ObjOther;
    GitModeBits(obj, Perm(m))
  }

  const ModeTree: Bytes := DirMode
  const ModeLink: Bytes := Str("120000")
  const ModeExec: Bytes := Str("100755")
  const ModeFile: Bytes := Str("100644")

  /** `TreeModeString`: the tree-entry mode of a file mode. */
  function TreeModeString(m: FileMode): (r: Bytes)
    ensures r in {ModeTree, ModeLink, ModeExec, ModeFile}
    ensures r == ModeTree <==> IsDir(m)
    ensures r == ModeLink <==> !IsDir(m) && IsSymlink(m)
    ensures r == ModeExec <==> !IsDir(m) && !IsSymlink(m) && IsExecutable(m)
  {
    DistinctModes();
    if IsDir(m) then ModeTree
    else if IsSymlink(m) then ModeLink
    else if IsExecutable(m) then ModeExec
    else ModeFile
  }

  lemma DistinctModes()
    ensures ModeTree != ModeLink && ModeTree != ModeExec && ModeTree != ModeFile
    ensures ModeLink != ModeExec && ModeLink != ModeFile && ModeExec != ModeFile
  {
    assert ModeTree[0] == 48 && ModeLink[0] == 49 && ModeExec[0] == 49 && ModeFile[0] == 49;
    assert ModeLink[1] == 50 && ModeExec[1] == 48;
    assert ModeExec[4] == 53 && ModeFile[4] == 52;
  }

  const KindTree: Bytes := Str("tree")
  const KindBlob: Bytes := Str("blob")
  const KindUnknown: Bytes := Str("unknown")
  const KindCommit: Bytes := Str("commit")

  /** The kind word of a commit holds no NUL and no space. */
  lemma CommitKindLetters()
    ensures KindCommit == [99, 111, 109, 109, 105, 116]
    ensures NUL !in KindCommit && SP !in KindCommit
  {
  }
  const ModeTreeShort: Bytes := Str("40000")

  /** The three kind words differ. */
  lemma KindsDistinct()
    ensures KindTree != KindBlob && KindTree != KindUnknown && KindBlob != KindUnknown
  {
    assert KindTree[0] != KindBlob[0] && KindTree[0] != KindUnknown[0] && KindBlob[0] != KindUnknown[0];
  }

  /** `ModeStringToKind`: which kind of object a tree-entry mode points at. */
  function ModeStringToKind(mode: Bytes): (r: Bytes)
    ensures r in {KindTree, KindBlob, KindUnknown}
    ensures r == KindTree <==> mode == ModeTree || mode == ModeTreeShort
    ensures r == KindBlob <==> mode == ModeFile || mode == ModeExec || mode == ModeLink
    ensures r == KindUnknown <==> mode !in {ModeTree, ModeTreeShort, ModeFile, ModeExec, ModeLink}
  {
    KindsDistinct();
    DistinctModes();
    assert |ModeTreeShort| == 5 && |ModeFile| == |ModeExec| == |ModeLink| == 6;
    if mode == ModeTree || mode == ModeTreeShort then KindTree
    else if mode == ModeFile || mode == ModeExec || mode == ModeLink then KindBlob
    else KindUnknown
  }

  /** Every mode `TreeModeString` produces has a known kind, and it is a tree
      exactly for directories. */
  lemma TreeModeKind(m: FileMode)
    ensures ModeStringToKind(TreeModeString(m)) != KindUnknown
    ensures ModeStringToKind(TreeModeString(m)) == KindTree <==> IsDir(m)
  {
    DistinctModes();
    assert |ModeTreeShort| != |ModeFile|;
  }

  /** The short directory mode "40000" names a tree here, yet the tree
      serialiser sorts an entry with that mode by its bare name, without the
      '/' a directory gets. */
  lemma ShortTreeModeSortsAsFile(name: Bytes, hash: Bytes)
    ensures ModeStringToKind(ModeTreeShort) == KindTree
    ensures TreeSortKey(TreeEntry(ModeTreeShort, name, hash)) == name
    ensures TreeSortKey(TreeEntry(ModeTree, name, hash)) == name + Str("/")
  {
  }

  /** The two mode translations agree on what they both classify: a regular
      file is a blob mode, and a symlink that is not also a directory is "120000". */
  lemma ModeTranslationsAgree(m: FileMode)
    ensures GitModeFromGoMode(m).objectType == ObjRegular ==> TreeModeString(m) in {ModeExec, ModeFile}
    ensures GitModeFromGoMode(m).objectType == ObjSymlink && !IsDir(m) ==> TreeModeString(m) == ModeLink
  {
    if IsRegular(m) {
      assert m & ModeDir == 0 && m & ModeSymlink == 0;
    }
  }

  /** A git index mode word (object type above bit 12, nothing above bit 16)
      read back as an `os.FileMode` has neither the directory nor the symlink
      bit, so it always names a file mode: a symlink staged as 0b1010 comes
      out as "100644" or "100755". */
  lemma IndexModeAsFileMode(m: FileMode)
    requires m < 0x1_0000
    ensures TreeModeString(m) in {ModeExec, ModeFile}
  {
    assert m & ModeDir == 0;
    assert m & ModeSymlink == 0;
  }

  // ---------------------------------------------------------------------------
  // HEAD
  // ---------------------------------------------------------------------------

  const RefPrefix: Bytes := Str("ref: refs/heads/")

  /** `GetHeadBranch` on the bytes of .git/HEAD (empty when the file cannot
      be read): everything after the 16-byte prefix up to the first newline.
      The prefix is skipped without being compared; a file shorter than it
      makes the slice panic. */
  function GetHeadBranch(head: Bytes): (r: Option<Bytes>)
    ensures r.Some? <==> |head| >= |RefPrefix|
    ensures r.Some? ==> LF !in r.value && r.value <= head[|RefPrefix|..]
    ensures r.Some? && |RefPrefix| + |r.value| < |head| ==> head[|RefPrefix| + |r.value|] == LF
  {
    if |head| < |RefPrefix| then None
    else
      var rest := head[|RefPrefix|..];
      SplitFirst(rest, LF);
      Some(Split(rest, LF)[0])
  }

  /** A symbolic HEAD names its branch back. */
  lemma HeadBranchOfRef(branch: Bytes, rest: Bytes)
    requires LF !in branch
    ensures GetHeadBranch(RefPrefix + branch + [LF] + rest) == Some(branch)
  {
    var head := RefPrefix + branch + [LF] + rest;
    var tail := head[|RefPrefix|..];
    assert tail == branch + [LF] + rest;
    forall j | 0 <= j < |branch|
      ensures tail[j] != LF
    {
      assert tail[j] == branch[j];
    }
    ScanIs(tail, 0, LF, |branch|);
    SplitFirst(tail, LF);
    assert tail[..|branch|] == branch;
  }

  // ---------------------------------------------------------------------------
  // Objects
  // ---------------------------------------------------------------------------

  /** What `GetBlobHashObject` and `GetTreeHashObject` return. */
  datatype HashedObject = HashedObject(hash: Digest, framed: Bytes, content: Bytes)

  /** `<kind> <len>\0<content>`, its SHA-1, and the content unchanged. */
  function HashObject(kind: Bytes, content: Bytes, sha: Bytes -> Digest): (r: HashedObject)
    requires NUL !in kind && SP !in kind
    ensures r.content == content
    ensures r.hash == sha(r.framed)
    ensures AfterFirst(r.framed, NUL) == content
    ensures |content| <= Int64Max ==> ParseFrame(r.framed) == Some(FrameParts(kind, |content|, content))
  {
    var framed := Frame(kind, content);
    FrameSplitsAtFirstNul(kind, content);
    assert |content| <= Int64Max ==> ParseFrame(framed) == Some(FrameParts(kind, |content|, content)) by {
      if |content| <= Int64Max {
        FrameRoundTrip(kind, content);
      }
    }
    HashedObject(sha(framed), framed, content)
  }

  /** `GetBlobHashObject` on the bytes of the file. */
  function BlobObject(content: Bytes, sha: Bytes -> Digest): HashedObject
  {
    HashObject(KindBlob, content, sha)
  }

  /** `GetTreeHashObject`. */
  function TreeHashObject(content: Bytes, sha: Bytes -> Digest): HashedObject
  {
    HashObject(KindTree, content, sha)
  }

  // ---------------------------------------------------------------------------
  // Commit objects
  // ---------------------------------------------------------------------------

  /** Go's `/` on integers: truncates toward zero. */
  function TDiv(a: int, b: int): int
    requires b > 0
  {
    if a >= 0 then a / b else -((-a) / b)
  }

  /** Go's `%` on integers: the sign follows the dividend. */
  function TMod(a: int, b: int): int
    requires b > 0
  {
    a - TDiv(a, b) * b
  }

  function Abs(a: int): nat
  {
    if a < 0 then -a else a
  }

  /** Left-pads with '0' up to `width` bytes. */
  function PadZeros(s: Bytes, width: nat): (r: Bytes)
    ensures |r| >= width && |r| >= |s|
  {
    if |s| >= width then s else seq(width - |s|, i => 48) + s
  }

  /** The zone written after the timestamp: `%+03d%02d` of the whole hours
      and of the absolute leftover minutes of the offset in seconds. */
  function ZoneOffset(offset: int): (r: Bytes)
    ensures |r| >= 5 && r[0] in {43, 45}
    ensures r[0] == 45 <==> offset <= -3600
  {
    ZoneSplit(offset);
    var hours := TDiv(offset, 3600);
    var minutes := TDiv(TMod(offset, 3600), 60);
    [if hours < 0 then 45 else 43] + PadZeros(Decimal(Abs(hours)), 2) + PadZeros(Decimal(Abs(minutes)), 2)
  }

  /** A single-digit count of hours or minutes is padded to two digits. */
  lemma PadDigit(n: nat)
    requires n < 10
    ensures PadZeros(Decimal(n), 2) == [48, 48 + n]
  {
    assert Decimal(n) == [48 + n];
  }

  /** A two-digit count is written as it is. */
  lemma PadTwoDigits(n: nat)
    requires 10 <= n < 100
    ensures PadZeros(Decimal(n), 2) == [48 + n / 10, 48 + n % 10]
  {
    assert Decimal(n / 10) == [48 + n / 10];
  }

  /** Either count below 100 is written as two digits. */
  lemma PadTwo(n: nat)
    requires n < 100
    ensures PadZeros(Decimal(n), 2) == [48 + n / 10, 48 + n % 10]
  {
    if n < 10 {
      PadDigit(n);
    } else {
      PadTwoDigits(n);
    }
  }

  /** The whole minutes of a non-negative count of seconds are sixty per
      whole hour plus the minutes of what is left over. */
  lemma MinutesOfHours(a: nat)
    ensures a / 60 == 60 * (a / 3600) + (a % 3600) / 60
    ensures (a % 3600) / 60 < 60
  {
    var q, r := a / 3600, a % 3600;
    assert a == 3600 * q + r;
    assert r == 60 * (r / 60) + r % 60;
    assert a == 60 * (60 * q + r / 60) + r % 60;
  }

  /** How `ZoneOffset` splits an offset: the hours and the leftover minutes
      share the offset's sign and together make its whole minutes. */
  lemma ZoneSplit(offset: int)
    ensures var hours, minutes := TDiv(offset, 3600), TDiv(TMod(offset, 3600), 60);
      && TDiv(offset, 60) == 60 * hours + minutes
      && -60 < minutes < 60
      && (offset >= 0 ==> hours >= 0 && minutes >= 0)
      && (offset < 0 ==> hours <= 0 && minutes <= 0)
      && (hours < 0 <==> offset <= -3600)
      && Abs(hours) == Abs(offset) / 3600
      && Abs(minutes) == (Abs(offset) % 3600) / 60
  {
    var a := Abs(offset);
    MinutesOfHours(a);
    if offset < 0 {
      assert TMod(offset, 3600) + a % 3600 == 0;
      assert TDiv(TMod(offset, 3600), 60) + (a % 3600) / 60 == 0;
    } else {
      assert TMod(offset, 3600) == a % 3600;
    }
  }

  /** The signed minutes a five-byte zone `+hhmm` or `-hhmm` denotes. */
  function ZoneMinutes(z: Bytes): int
    requires |z| == 5
  {
    var hours := (z[1] as int - 48) * 10 + (z[2] as int - 48);
    var m := hours * 60 + (z[3] as int - 48) * 10 + (z[4] as int - 48);
    if z[0] == 45 then -m else m
  }

  /** An offset under a hundred hours is written as a sign and four digits,
      the minutes under 60, and reads back as its whole minutes, except that
      an offset less than an hour west of Greenwich is written east of it:
      `%+03d` prints 0 hours as "+00" and the minutes lose their sign. */
  lemma ZoneOffsetDigits(offset: int)
    requires -360000 < offset < 360000
    ensures var z := ZoneOffset(offset);
      && |z| == 5
      && (forall k | 1 <= k < 5 :: 48 <= z[k] <= 57)
      && z[3] < 54
      && (z[0] == 45 <==> offset <= -3600)
      && ZoneMinutes(z) == if -3600 < offset < 0 then -TDiv(offset, 60) else TDiv(offset, 60)
  {
    ZoneOffsetIntendedDigits(offset);
    ZoneOffsetIntendedAgrees(offset);
    if -3600 < offset < 0 {
      ZoneSignOnly(offset);
    }
  }

  /** Less than an hour west of Greenwich, the zone as written differs from
      the corrected one in its sign byte alone. */
  lemma ZoneSignOnly(offset: int)
    requires -3600 < offset < 0
    ensures ZoneOffset(offset) == ZoneOffsetIntended(offset)[0 := 43]
  {
    ZoneSplit(offset);
  }

  /** The zone as git writes it: the sign of the whole offset, then the
      hours and the leftover minutes of its magnitude. */
  function ZoneOffsetIntended(offset: int): (r: Bytes)
    ensures |r| >= 5 && (r[0] == 45 <==> offset < 0)
  {
    var a := Abs(offset);
    [if offset < 0 then 45 else 43] + PadZeros(Decimal(a / 3600), 2) + PadZeros(Decimal((a % 3600) / 60), 2)
  }

  /** Corrected, every offset under a hundred hours reads back as its whole
      minutes, with the sign of the offset. */
  lemma ZoneOffsetIntendedDigits(offset: int)
    requires -360000 < offset < 360000
    ensures var z := ZoneOffsetIntended(offset);
      && |z| == 5
      && (forall k | 1 <= k < 5 :: 48 <= z[k] <= 57)
      && z[3] < 54
      && ZoneMinutes(z) == TDiv(offset, 60)
  {
    var a := Abs(offset);
    MinutesOfHours(a);
    PadTwo(a / 3600);
    PadTwo((a % 3600) / 60);
    var z := ZoneOffsetIntended(offset);
    assert z == [if offset < 0 then 45 else 43] + [48 + (a / 3600) / 10, 48 + (a / 3600) % 10]
                + [48 + ((a % 3600) / 60) / 10, 48 + ((a % 3600) / 60) % 10];
    assert (z[1] as int - 48) * 10 + (z[2] as int - 48) == a / 3600;
    assert (z[3] as int - 48) * 10 + (z[4] as int - 48) == (a % 3600) / 60;
  }

  /** The correction changes only offsets less than an hour west of Greenwich. */
  lemma ZoneOffsetIntendedAgrees(offset: int)
    ensures !(-3600 < offset < 0) <==> ZoneOffsetIntended(offset) == ZoneOffset(offset)
  {
  }

  /** A whole-hour zone west of Greenwich. */
  lemma ZoneOffsetWholeHours()
    ensures ZoneOffset(-10800) == Str("-0300")
  {
    assert TDiv(-10800, 3600) == -3 && TMod(-10800, 3600) == 0 && TDiv(0, 60) == 0;
    PadDigit(3);
    PadDigit(0);
    assert Str("-0300") == [45, 48, 51, 48, 48];
  }

  /** A zone with minutes east of Greenwich. */
  lemma ZoneOffsetWithMinutes()
    ensures ZoneOffset(19800) == Str("+0530")
  {
    assert TDiv(19800, 3600) == 5 && TMod(19800, 3600) == 1800 && TDiv(1800, 60) == 30;
    PadDigit(5);
    PadTwoDigits(30);
    assert Str("+0530") == [43, 48, 53, 51, 48];
  }

  /** A zone with minutes west of Greenwich: the minutes lose their sign. */
  lemma ZoneOffsetWestWithMinutes()
    ensures ZoneOffset(-12600) == Str("-0330")
  {
    assert TDiv(-12600, 3600) == -3 && TMod(-12600, 3600) == -1800 && TDiv(-1800, 60) == -30;
    PadDigit(3);
    PadTwoDigits(30);
    assert Str("-0330") == [45, 48, 51, 51, 48];
  }

  /** A negative offset of less than an hour keeps no sign: half an hour
      west of Greenwich (-1800 seconds) has 0 hours and is written `+0030`. */
  lemma ZoneOffsetLosesSignUnderAnHour()
    ensures ZoneOffset(-1800) == Str("+0030")
  {
    assert TDiv(-1800, 3600) == 0 && TMod(-1800, 3600) == -1800 && TDiv(-1800, 60) == -30;
    PadDigit(0);
    PadTwoDigits(30);
    assert Str("+0030") == [43, 48, 48, 51, 48];
  }

  const AuthorIdentity: Bytes := Str("Murilo Alves <hi@omurilo.dev>")

  function MessageLines(messages: seq<Bytes>): Bytes
  {
    if |messages| == 0 then [] else messages[0] + [LF] + MessageLines(messages[1..])
  }

  /** The `author` or `committer` signature: identity, timestamp, zone. */
  function Signature(ts: int, zone: int): Bytes
  {
    AuthorIdentity + [SP] + FormatInt(ts) + [SP] + ZoneOffset(zone) + [LF]
  }

  /** The `parent` line, absent when there is no parent. */
  function ParentLine(parent: Bytes): Bytes
  {
    if |parent| == 0 then [] else Str("parent ") + parent + [LF]
  }

  /** The optional `parent`, `author` and `committer` lines. */
  function HeaderRest(parent: Bytes, ts: int, zone: int): Bytes
  {
    ParentLine(parent)
    + Str("author ") + Signature(ts, zone)
    + Str("committer ") + Signature(ts, zone) + [LF]
  }

  /** The `tree`, optional `parent`, `author` and `committer` lines of a
      commit body, without the messages. */
  function CommitHeader(treeHash: Digest, parent: Bytes, ts: int, zone: int): Bytes
  {
    Str("tree ") + Hex(treeHash) + [LF] + HeaderRest(parent, ts, zone)
  }

  /** The body `GetCommitHashObject` hashes. The clock and the zone are
      parameters; `parent` is the HEAD hash (empty, as Go's nil, when there is none). */
  function CommitBody(treeHash: Digest, parent: Bytes, ts: int, zone: int, messages: seq<Bytes>): Bytes
  {
    CommitHeader(treeHash, parent, ts, zone) + MessageLines(messages)
  }

  datatype CommitObject = CommitObject(hash: Digest, framed: Bytes)

  /** `GetCommitHashObject`: the framed commit and its SHA-1. */
  function GetCommitHashObject(treeHash: Digest, parent: Bytes, ts: int, zone: int,
                               messages: seq<Bytes>, sha: Bytes -> Digest): (r: CommitObject)
    ensures r.hash == sha(r.framed)
    ensures AfterFirst(r.framed, NUL) == CommitBody(treeHash, parent, ts, zone, messages)
    ensures var body := CommitBody(treeHash, parent, ts, zone, messages);
      |body| <= Int64Max ==> ParseFrame(r.framed) == Some(FrameParts(KindCommit, |body|, body))
  {
    CommitKindLetters();
    var o := HashObject(KindCommit, CommitBody(treeHash, parent, ts, zone, messages), sha);
    CommitObject(o.hash, o.framed)
  }

  /** The first line of `a + b`, a newline, then `d` and `e`: splitting at
      the first newline gives `a + b`, and what follows starts as `d` does. */
  lemma FirstLineOfFour(a: Bytes, b: Bytes, d: Bytes, e: Bytes, k: nat)
    requires LF !in a && LF !in b && k <= |d|
    ensures BeforeFirst(a + b + [LF] + d + e, LF) == a + b
    ensures AfterFirst(a + b + [LF] + d + e, LF)[..k] == d[..k]
  {
    assert a + b + [LF] + d + e == (a + b) + [LF] + (d + e);
    SplitFirstLine(a + b, LF, d + e);
    assert (d + e)[..k] == d[..k];
  }

  /** The optional `parent` line followed by the `author` line starts with
      `parent ` exactly when there is a parent. */
  lemma ParentLineStart(parent: Bytes, x: Bytes)
    ensures |ParentLine(parent) + Str("author ") + x| >= 7
    ensures (ParentLine(parent) + Str("author ") + x)[..7] == Str("parent ") <==> |parent| > 0
  {
    var h := ParentLine(parent) + Str("author ") + x;
    if |parent| == 0 {
      assert h[..7] == Str("author ");
      assert Str("author ")[0] != Str("parent ")[0];
    } else {
      assert h[..7] == Str("parent ");
    }
  }

  /** The header after the tree line starts with `parent ` exactly when
      there is a parent. */
  lemma HeaderRestStart(parent: Bytes, ts: int, zone: int)
    ensures |HeaderRest(parent, ts, zone)| >= 7
    ensures HeaderRest(parent, ts, zone)[..7] == Str("parent ") <==> |parent| > 0
  {
    var sig := Signature(ts, zone);
    var x := sig + Str("committer ") + sig + [LF];
    Regroup(ParentLine(parent), Str("author "), sig, Str("committer "), sig, [LF]);
    ParentLineStart(parent, x);
  }

  lemma Regroup<T>(p: seq<T>, q: seq<T>, s: seq<T>, c: seq<T>, t: seq<T>, l: seq<T>)
    ensures p + q + s + c + t + l == p + q + (s + c + t + l)
  {
  }

  /** The first line of a commit body names the tree in hex; the second
      line is a parent line exactly when there is a parent. */
  lemma CommitBodyLines(treeHash: Digest, parent: Bytes, ts: int, zone: int, messages: seq<Bytes>)
    ensures var body := CommitBody(treeHash, parent, ts, zone, messages);
      && BeforeFirst(body, LF) == Str("tree ") + Hex(treeHash)
      && (AfterFirst(body, LF)[..7] == Str("parent ") <==> |parent| > 0)
  {
    HexHasNoSeparators(treeHash);
    assert LF !in Str("tree ");
    HeaderRestStart(parent, ts, zone);
    FirstLineOfFour(Str("tree "), Hex(treeHash), HeaderRest(parent, ts, zone), MessageLines(messages), 7);
  }

  // ---------------------------------------------------------------------------
  // GetSlicePosition
  // ---------------------------------------------------------------------------

  /** `GetSlicePosition`: the last index holding `element`, or -1. */
  method GetSlicePosition<T(==)>(slice: seq<T>, element: T) returns (pos: int)
    ensures -1 <= pos < |slice|
    ensures pos == -1 <==> element !in slice
    ensures pos >= 0 ==> slice[pos] == element
    ensures forall j | pos < j < |slice| :: slice[j] != element
  {
    pos := -1;
    for i := 0 to |slice|
      invariant -1 <= pos < i
      invariant pos >= 0 ==> slice[pos] == element
      invariant forall j | pos < j < i :: slice[j] != element
    {
      if slice[i] == element {
        pos := i;
      }
    }
  }
}

=== FILE: wrappers.dfy ===
/** Failure-compatible result types shared by every decoder of the model. */
module Wrappers {

  datatype Option<+T> = None | Some(value: T)

  /** The outcome of an operation that either yields a value or fails with `error`. */
  datatype Result<+T, +E> = Ok(value: T) | Err(error: E) {

    predicate IsFailure() {
      Err?
    }

    function PropagateFailure<U>(): Result<U, E>
      requires Err?
    {
      Err(error)
    }

    function Extract(): T
      requires Ok?
    {
      value
    }
  }
}

=== FILE: writetree.dfy ===
/** `WriteTree`: groups the index entries by directory, links subtrees into
    their parents, and hashes the root tree. Go's map iteration order is a
    parameter (an enumeration of the map's keys); SHA-1 is the parameter
    `sha`. Writing the objects to disk is not part of the model. */
module WriteTree {
  import opened Bytes
  import opened Sorting
  import opened Types
  import opened Utils
  import opened FilePath
  import opened Enumeration

  /** The two maps the first loop fills: `trees` by cleaned directory for
      root files and one-level directories, `subtrees` for deeper ones. */
  datatype Groups = Groups(trees: map<Bytes, seq<TreeEntry>>, subtrees: map<Bytes, seq<TreeEntry>>)

  /** How the first loop files one index entry: whether it goes to
      `subtrees`, under which key, and as which tree entry. */
  datatype Filing = Filing(nested: bool, key: Bytes, entry: TreeEntry)

  /** A Go map read: a missing key gives the empty (nil) list. */
  function Lookup(m: map<Bytes, seq<TreeEntry>>, key: Bytes): seq<TreeEntry>
  {
    if key in m then m[key] else []
  }

  /** The tree entry written for an index entry. */
  function FileEntry(e: Entry): TreeEntry
  {
    TreeEntry(TreeModeString(e.mode as FileMode), SplitFile(e.path), e.sha1)
  }

  /** An entry is nested when the base of its directory is not the whole
      cleaned directory; its key is the cleaned directory. A key that is not
      nested is a base name: "/" or free of slashes. */
  function Classify(e: Entry): (f: Filing)
    ensures !f.nested ==> f.key == [Slash] || Slash !in f.key
  {
    var dir := SplitDir(e.path);
    Filing(Base(dir) != Clean(dir), Clean(dir), FileEntry(e))
  }

  function Filings(entries: seq<Entry>): (fs: seq<Filing>)
    ensures |fs| == |entries|
    ensures forall i | 0 <= i < |entries| :: fs[i] == Classify(entries[i])
  {
    seq(|entries|, i requires 0 <= i < |entries| => Classify(entries[i]))
  }

  /** Every key filed into `trees` is a base name. */
  predicate BaseKeyed(fs: seq<Filing>)
  {
    forall i | 0 <= i < |fs| :: !fs[i].nested ==> fs[i].key == [Slash] || Slash !in fs[i].key
  }

  /** One iteration of the first loop. A nested entry's list is reset
      whenever its key is not a key of `trees`. */
  function AddFiling(g: Groups, f: Filing): Groups
  {
    if f.nested then
      var start := if f.key in g.trees then Lookup(g.subtrees, f.key) else [];
      g.(subtrees := g.subtrees[f.key := start + [f.entry]])
    else
      g.(trees := g.trees[f.key := Lookup(g.trees, f.key) + [f.entry]])
  }

  /** The first loop, over the filed entries in index order. */
  function GroupFilings(fs: seq<Filing>): (g: Groups)
    ensures BaseKeyed(fs) ==> forall key | key in g.trees :: key == [Slash] || Slash !in key
    decreases |fs|
  {
    if |fs| == 0 then Groups(map[], map[])
    else
      var init := fs[..|fs| - 1];
      assert BaseKeyed(fs) ==> BaseKeyed(init) by {
        if BaseKeyed(fs) {
          forall i | 0 <= i < |init|
            ensures !init[i].nested ==> init[i].key == [Slash] || Slash !in init[i].key
          {
            assert init[i] == fs[i];
          }
        }
      }
      AddFiling(GroupFilings(init), fs[|fs| - 1])
  }

  function Group(entries: seq<Entry>): (g: Groups)
    ensures forall key | key in g.trees :: key == [Slash] || Slash !in key
  {
    var fs := Filings(entries);
    assert BaseKeyed(fs) by {
      forall i | 0 <= i < |fs|
        ensures !fs[i].nested ==> fs[i].key == [Slash] || Slash !in fs[i].key
      {
        assert fs[i] == Classify(entries[i]);
      }
    }
    GroupFilings(fs)
  }

  /** The second loop, for any way of naming a subtree's parent and its
      link: each subtree is linked into `trees[parentOf(key)]` when that key
      exists, and dropped otherwise. No tree is created. */
  function LinkWith(trees: map<Bytes, seq<TreeEntry>>, order: seq<Bytes>,
                    parentOf: Bytes -> Bytes, linkOf: Bytes -> TreeEntry): (r: map<Bytes, seq<TreeEntry>>)
    ensures r.Keys == trees.Keys
    decreases |order|
  {
    if |order| == 0 then trees
    else
      var parent := parentOf(order[0]);
      var next := if parent in trees then trees[parent := trees[parent] + [linkOf(order[0])]] else trees;
      LinkWith(next, order[1..], parentOf, linkOf)
  }

  /** What the second loop appends to the tree `parent`, for one key. */
  function LinksTo(parent: Bytes, parentOf: Bytes -> Bytes, linkOf: Bytes -> TreeEntry): Bytes -> seq<TreeEntry>
  {
    key => if parentOf(key) == parent then [linkOf(key)] else []
  }

  /** The tree a subtree is linked into: `Dir(Clean(key))`. */
  function ParentKey(key: Bytes): Bytes
  {
    Dir(Clean(key))
  }

  /** The "040000" entry that links the subtree stored under `key`, named
      `Base(Clean(key))`. */
  function LinkEntry(key: Bytes, tree: seq<TreeEntry>, sha: Bytes -> Digest): TreeEntry
  {
    TreeEntry(DirMode, Base(Clean(key)), sha(TreeBytes(tree)))
  }

  function SubtreeLink(subtrees: map<Bytes, seq<TreeEntry>>, sha: Bytes -> Digest): Bytes -> TreeEntry
  {
    key => LinkEntry(key, Lookup(subtrees, key), sha)
  }

  /** The trees after the subtrees are linked. */
  function Linked(entries: seq<Entry>, subtreeOrder: seq<Bytes>, sha: Bytes -> Digest): map<Bytes, seq<TreeEntry>>
  {
    var g := Group(entries);
    LinkWith(g.trees, subtreeOrder, ParentKey, SubtreeLink(g.subtrees, sha))
  }

  /** What the third loop appends to the root for one key of `trees`: the
      root's own entries for ".", a "040000" link for any other key. */
  function RootPart(trees: map<Bytes, seq<TreeEntry>>, sha: Bytes -> Digest): Bytes -> seq<TreeEntry>
  {
    key => if key == Dot then Lookup(trees, key) else [TreeEntry(DirMode, key, sha(TreeBytes(Lookup(trees, key))))]
  }

  /** The entries of the root tree (`finalTree`). */
  function RootEntries(entries: seq<Entry>, subtreeOrder: seq<Bytes>, treeOrder: seq<Bytes>,
                       sha: Bytes -> Digest): seq<TreeEntry>
  {
    FlatMap(RootPart(Linked(entries, subtreeOrder, sha), sha), treeOrder)
  }

  /** The orders in which Go happens to visit the two maps. */
  predicate MapOrders(entries: seq<Entry>, subtreeOrder: seq<Bytes>, treeOrder: seq<Bytes>)
  {
    var g := Group(entries);
    Enumerates(subtreeOrder, g.subtrees.Keys) && Enumerates(treeOrder, g.trees.Keys)
  }

  /** `WriteTree` on the entries of the index: the hash of the root tree. */
  function WriteTree(index: IndexFile, subtreeOrder: seq<Bytes>, treeOrder: seq<Bytes>,
                     sha: Bytes -> Digest): Digest
    requires MapOrders(index.entries, subtreeOrder, treeOrder)
  {
    sha(TreeBytes(RootEntries(index.entries, subtreeOrder, treeOrder, sha)))
  }

  // ---------------------------------------------------------------------------
  // Where each kind of path ends up
  // ---------------------------------------------------------------------------

  /** A path without a slash belongs to the root: key ".", not nested, and
      its tree entry is named by the whole path. */
  lemma RootPathShape(e: Entry)
    requires Slash !in e.path
    ensures Classify(e) == Filing(false, Dot, FileEntry(e))
    ensures FileEntry(e).name == e.path
  {
    assert LastIndexOf(e.path, Slash) == -1;
    assert SplitDir(e.path) == [];
    assert Split([], Slash) == [[]];
    var empty: seq<Bytes> := [[]];
    assert Resolve(empty, false, []) == [] by {
      assert empty[1..] == [];
    }
    assert e.path[0..] == e.path;
  }

  /** A path `d/f` goes to the tree keyed `d` under the name `f`. */
  lemma TopDirShape(e: Entry, d: Bytes, f: Bytes)
    requires e.path == d + [Slash] + f
    requires NormalName(d) && Slash !in f
    ensures Classify(e) == Filing(false, d, FileEntry(e))
    ensures FileEntry(e).name == f
  {
    SplitAt(e.path, d, f);
    assert Join([d], Slash) == d;
    CleanDirectory([d]);
    BaseJoin([d]);
  }

  /** A path with two or more directories is nested, keyed by its cleaned
      directory, whose own directory and base are the obvious ones. */
  lemma NestedShape(e: Entry, cs: seq<Bytes>, f: Bytes)
    requires e.path == Join(cs, Slash) + [Slash] + f
    requires |cs| >= 2 && NormalNames(cs) && Slash !in f
    ensures Classify(e) == Filing(true, Join(cs, Slash), FileEntry(e))
    ensures Slash in Join(cs, Slash) && Join(cs, Slash) != [Slash]
    ensures ParentKey(Join(cs, Slash)) == Join(cs[..|cs| - 1], Slash)
    ensures Base(Clean(Join(cs, Slash))) == cs[|cs| - 1]
    ensures FileEntry(e).name == f
  {
    SplitAt(e.path, Join(cs, Slash), f);
    CleanDirectory(cs);
    BaseJoin(cs);
    assert NormalName(cs[0]) && NormalName(cs[|cs| - 1]);
    JoinHasSlash(cs);
    CleanJoin(cs);
    DirJoin(cs);
  }

  /** Index modes hold nothing above bit 16, so every file is written as
      "100644" or "100755": no index mode produces "040000" or "120000". */
  lemma FileEntryMode(e: Entry)
    requires e.mode < 0x1_0000
    ensures FileEntry(e).mode in {ModeExec, ModeFile}
  {
    IndexModeAsFileMode(e.mode as FileMode);
  }

  // ---------------------------------------------------------------------------
  // The first loop
  // ---------------------------------------------------------------------------

  /** A file that is not nested stays in the list of its key. */
  lemma {:induction false} GroupKeepsFiling(fs: seq<Filing>, i: nat)
    requires i < |fs| && !fs[i].nested
    ensures fs[i].key in GroupFilings(fs).trees
    ensures fs[i].entry in GroupFilings(fs).trees[fs[i].key]
    decreases |fs|
  {
    var init := fs[..|fs| - 1];
    if i < |fs| - 1 {
      assert init[i] == fs[i];
      GroupKeepsFiling(init, i);
    }
  }

  /** A nested key that is not a base name is never a key of `trees`, so its
      list holds only the last file filed under it. */
  lemma {:induction false} NestedKeepsLast(fs: seq<Filing>, j: nat)
    requires BaseKeyed(fs)
    requires j < |fs| && fs[j].nested && Slash in fs[j].key && fs[j].key != [Slash]
    requires forall t | j < t < |fs| :: !(fs[t].nested && fs[t].key == fs[j].key)
    ensures fs[j].key in GroupFilings(fs).subtrees
    ensures GroupFilings(fs).subtrees[fs[j].key] == [fs[j].entry]
    decreases |fs|
  {
    var init := fs[..|fs| - 1];
    assert BaseKeyed(init) by {
      forall i | 0 <= i < |init|
        ensures !init[i].nested ==> init[i].key == [Slash] || Slash !in init[i].key
      {
        assert init[i] == fs[i];
      }
    }
    if j < |fs| - 1 {
      assert init[j] == fs[j];
      NestedKeepsLast(init, j);
    } else {
      assert fs[j].key !in GroupFilings(init).trees;
    }
  }

  // ---------------------------------------------------------------------------
  // The second loop
  // ---------------------------------------------------------------------------

  /** Linking appends to each existing tree, in visiting order, the links of
      exactly the subtrees whose parent is that tree. */
  lemma {:induction false} LinkWithContents(trees: map<Bytes, seq<TreeEntry>>, order: seq<Bytes>,
                                            parentOf: Bytes -> Bytes, linkOf: Bytes -> TreeEntry, parent: Bytes)
    requires parent in trees
    ensures LinkWith(trees, order, parentOf, linkOf)[parent]
         == trees[parent] + FlatMap(LinksTo(parent, parentOf, linkOf), order)
    decreases |order|
  {
    var links := LinksTo(parent, parentOf, linkOf);
    if |order| == 0 {
      assert trees[parent] + [] == trees[parent];
    } else {
      var key := order[0];
      var up := parentOf(key);
      var next := if up in trees then trees[up := trees[up] + [linkOf(key)]] else trees;
      var rest := FlatMap(links, order[1..]);
      assert LinkWith(trees, order, parentOf, linkOf) == LinkWith(next, order[1..], parentOf, linkOf);
      assert FlatMap(links, order) == links(key) + rest;
      LinkWithContents(next, order[1..], parentOf, linkOf, parent);
      if up == parent {
        assert links(key) == [linkOf(key)];
        assert next[parent] == trees[parent] + [linkOf(key)];
        assert trees[parent] + [linkOf(key)] + rest == trees[parent] + ([linkOf(key)] + rest);
      } else {
        assert links(key) == [];
        assert next[parent] == trees[parent];
        assert [] + rest == rest;
      }
    }
  }

  /** Visiting the subtrees in another order gives each tree the same entries. */
  lemma LinkWithPermutation(trees: map<Bytes, seq<TreeEntry>>, o1: seq<Bytes>, o2: seq<Bytes>,
                            parentOf: Bytes -> Bytes, linkOf: Bytes -> TreeEntry, parent: Bytes)
    requires multiset(o1) == multiset(o2)
    requires parent in trees
    ensures multiset(LinkWith(trees, o1, parentOf, linkOf)[parent])
         == multiset(LinkWith(trees, o2, parentOf, linkOf)[parent])
  {
    LinkWithContents(trees, o1, parentOf, linkOf, parent);
    LinkWithContents(trees, o2, parentOf, linkOf, parent);
    FlatMapPermutation(LinksTo(parent, parentOf, linkOf), o1, o2);
  }

  /** Every entry of a linked tree is one of its files or the link of a
      visited subtree whose parent is that tree. */
  lemma LinkWithProvenance(trees: map<Bytes, seq<TreeEntry>>, order: seq<Bytes>,
                           parentOf: Bytes -> Bytes, linkOf: Bytes -> TreeEntry, parent: Bytes, x: TreeEntry)
    requires parent in trees
    requires x in LinkWith(trees, order, parentOf, linkOf)[parent]
    ensures x in trees[parent] || exists k | k in order :: parentOf(k) == parent && x == linkOf(k)
  {
    var links := LinksTo(parent, parentOf, linkOf);
    LinkWithContents(trees, order, parentOf, linkOf, parent);
    if x !in trees[parent] {
      FlatMapMember(links, order, x);
      var i :| 0 <= i < |order| && x in links(order[i]);
      assert parentOf(order[i]) == parent && x == linkOf(order[i]);
    }
  }

  /** A subtree three or more directories deep has a parent that is never a
      tree, so it is linked nowhere. */
  lemma DeepSubtreeDropped(entries: seq<Entry>, subtreeOrder: seq<Bytes>, sha: Bytes -> Digest, cs: seq<Bytes>)
    requires |cs| >= 3 && NormalNames(cs)
    ensures ParentKey(Join(cs, Slash)) !in Linked(entries, subtreeOrder, sha)
  {
    CleanJoin(cs);
    DirJoin(cs);
    var up := cs[..|cs| - 1];
    assert up[0] == cs[0] && NormalName(cs[0]);
    JoinHasSlash(up);
  }

  // ---------------------------------------------------------------------------
  // The root tree
  // ---------------------------------------------------------------------------

  lemma RootPartOfDot(trees: map<Bytes, seq<TreeEntry>>, sha: Bytes -> Digest)
    ensures RootPart(trees, sha)(Dot) == Lookup(trees, Dot)
  {
  }

  lemma RootPartOfDir(trees: map<Bytes, seq<TreeEntry>>, sha: Bytes -> Digest, key: Bytes)
    requires key != Dot
    ensures RootPart(trees, sha)(key) == [TreeEntry(DirMode, key, sha(TreeBytes(Lookup(trees, key))))]
  {
  }

  /** A file at the root is an entry of the root tree, under its own name. */
  lemma RootFileKept(entries: seq<Entry>, subtreeOrder: seq<Bytes>, treeOrder: seq<Bytes>,
                     sha: Bytes -> Digest, i: nat)
    requires MapOrders(entries, subtreeOrder, treeOrder)
    requires i < |entries| && Slash !in entries[i].path
    ensures FileEntry(entries[i]).name == entries[i].path
    ensures FileEntry(entries[i]) in RootEntries(entries, subtreeOrder, treeOrder, sha)
  {
    var e := entries[i];
    var fs := Filings(entries);
    var g := Group(entries);
    var linked := Linked(entries, subtreeOrder, sha);
    RootPathShape(e);
    GroupKeepsFiling(fs, i);
    LinkWithContents(g.trees, subtreeOrder, ParentKey, SubtreeLink(g.subtrees, sha), Dot);
    assert FileEntry(e) in linked[Dot];
    assert Dot in treeOrder;
    var p :| 0 <= p < |treeOrder| && treeOrder[p] == Dot;
    RootPartOfDot(linked, sha);
    FlatMapHas(RootPart(linked, sha), treeOrder, p, FileEntry(e));
  }

  /** A file `d/f` is an entry of the tree `d`, and the root links that tree
      by name `d`, mode "040000" and the hash of its serialisation. */
  lemma TopDirLinked(entries: seq<Entry>, subtreeOrder: seq<Bytes>, treeOrder: seq<Bytes>,
                     sha: Bytes -> Digest, i: nat, d: Bytes, f: Bytes)
    requires MapOrders(entries, subtreeOrder, treeOrder)
    requires i < |entries| && entries[i].path == d + [Slash] + f
    requires NormalName(d) && Slash !in f
    ensures d in Linked(entries, subtreeOrder, sha)
    ensures FileEntry(entries[i]) in Linked(entries, subtreeOrder, sha)[d]
    ensures TreeEntry(DirMode, d, sha(TreeBytes(Linked(entries, subtreeOrder, sha)[d])))
            in RootEntries(entries, subtreeOrder, treeOrder, sha)
  {
    var e := entries[i];
    var fs := Filings(entries);
    var g := Group(entries);
    var linked := Linked(entries, subtreeOrder, sha);
    TopDirShape(e, d, f);
    GroupKeepsFiling(fs, i);
    LinkWithContents(g.trees, subtreeOrder, ParentKey, SubtreeLink(g.subtrees, sha), d);
    assert d in treeOrder;
    var p :| 0 <= p < |treeOrder| && treeOrder[p] == d;
    var link := TreeEntry(DirMode, d, sha(TreeBytes(linked[d])));
    assert d != Dot;
    RootPartOfDir(linked, sha, d);
    FlatMapHas(RootPart(linked, sha), treeOrder, p, link);
  }

  /** A file `a/b/f`, the last one filed under "a/b", makes the tree "a/b"
      hold that file alone; when "a" is a tree, it links that subtree under
      the name `b`. */
  lemma SecondLevelLinked(entries: seq<Entry>, subtreeOrder: seq<Bytes>, sha: Bytes -> Digest,
                          j: nat, a: Bytes, b: Bytes, f: Bytes)
    requires Enumerates(subtreeOrder, Group(entries).subtrees.Keys)
    requires j < |entries| && entries[j].path == a + [Slash] + b + [Slash] + f
    requires NormalName(a) && NormalName(b) && Slash !in f
    requires forall t | j < t < |entries| :: !(Classify(entries[t]).nested && Classify(entries[t]).key == a + [Slash] + b)
    requires a in Group(entries).trees
    ensures a + [Slash] + b in Group(entries).subtrees
    ensures Group(entries).subtrees[a + [Slash] + b] == [FileEntry(entries[j])]
    ensures TreeEntry(DirMode, b, sha(TreeBytes([FileEntry(entries[j])])))
            in Linked(entries, subtreeOrder, sha)[a]
  {
    var key := a + [Slash] + b;
    SecondLevelFiled(entries, j, a, b, f);
    var g := Group(entries);
    assert key in subtreeOrder;
    LinkedHas(g.trees, g.subtrees, subtreeOrder, sha, key, a, b, [FileEntry(entries[j])]);
  }

  /** The filing half of `SecondLevelLinked`. */
  lemma SecondLevelFiled(entries: seq<Entry>, j: nat, a: Bytes, b: Bytes, f: Bytes)
    requires j < |entries| && entries[j].path == a + [Slash] + b + [Slash] + f
    requires NormalName(a) && NormalName(b) && Slash !in f
    requires forall t | j < t < |entries| :: !(Classify(entries[t]).nested && Classify(entries[t]).key == a + [Slash] + b)
    ensures a + [Slash] + b in Group(entries).subtrees
    ensures Group(entries).subtrees[a + [Slash] + b] == [FileEntry(entries[j])]
    ensures ParentKey(a + [Slash] + b) == a && Base(Clean(a + [Slash] + b)) == b
  {
    var cs := [a, b];
    assert Join(cs, Slash) == a + [Slash] + b;
    assert cs[..1] == [a] && Join([a], Slash) == a;
    NestedShape(entries[j], cs, f);
    NestedKeepsLast(Filings(entries), j);
  }

  /** The linking half: a subtree whose parent is a tree is linked into it. */
  lemma LinkedHas(trees: map<Bytes, seq<TreeEntry>>, subtrees: map<Bytes, seq<TreeEntry>>,
                  order: seq<Bytes>, sha: Bytes -> Digest,
                  key: Bytes, parent: Bytes, name: Bytes, tree: seq<TreeEntry>)
    requires key in order && parent in trees
    requires key in subtrees && subtrees[key] == tree
    requires ParentKey(key) == parent && Base(Clean(key)) == name
    ensures TreeEntry(DirMode, name, sha(TreeBytes(tree)))
            in LinkWith(trees, order, ParentKey, SubtreeLink(subtrees, sha))[parent]
  {
    var p :| 0 <= p < |order| && order[p] == key;
    var links := LinksTo(parent, ParentKey, SubtreeLink(subtrees, sha));
    SubtreeLinkOf(subtrees, sha, key, parent, name, tree);
    FlatMapHas(links, order, p, TreeEntry(DirMode, name, sha(TreeBytes(tree))));
    LinkWithContents(trees, order, ParentKey, SubtreeLink(subtrees, sha), parent);
  }

  /** What the second loop appends to `parent` for a subtree stored under
      `key` whose parent is `parent` and whose base is `name`. */
  lemma SubtreeLinkOf(subtrees: map<Bytes, seq<TreeEntry>>, sha: Bytes -> Digest,
                      key: Bytes, parent: Bytes, name: Bytes, tree: seq<TreeEntry>)
    requires key in subtrees && subtrees[key] == tree
    requires ParentKey(key) == parent && Base(Clean(key)) == name
    ensures LinksTo(parent, ParentKey, SubtreeLink(subtrees, sha))(key)
         == [TreeEntry(DirMode, name, sha(TreeBytes(tree)))]
  {
  }

  // ---------------------------------------------------------------------------
  // Map iteration order does not matter
  // ---------------------------------------------------------------------------

  /** The root's part for one key has the same entries under either linking
      when the tree under that key has. */
  lemma RootPartPermutation(l1: map<Bytes, seq<TreeEntry>>, l2: map<Bytes, seq<TreeEntry>>, sha: Bytes -> Digest, key: Bytes)
    requires multiset(Lookup(l1, key)) == multiset(Lookup(l2, key))
    requires KeysDetermine(Lookup(l1, key), TreeSortKey)
    ensures multiset(RootPart(l1, sha)(key)) == multiset(RootPart(l2, sha)(key))
  {
    TreeBytesCanonical(Lookup(l1, key), Lookup(l2, key));
  }

  /** The hash `WriteTree` returns does not depend on the order Go visits
      either map in, provided no linked tree and not the root holds two
      different entries with the same sort key. */
  lemma WriteTreeOrderIndependent(index: IndexFile, s1: seq<Bytes>, t1: seq<Bytes>,
                                  s2: seq<Bytes>, t2: seq<Bytes>, sha: Bytes -> Digest)
    requires MapOrders(index.entries, s1, t1) && MapOrders(index.entries, s2, t2)
    requires forall parent | parent in Linked(index.entries, s1, sha) ::
               KeysDetermine(Linked(index.entries, s1, sha)[parent], TreeSortKey)
    requires KeysDetermine(RootEntries(index.entries, s1, t1, sha), TreeSortKey)
    ensures WriteTree(index, s1, t1, sha) == WriteTree(index, s2, t2, sha)
  {
    var entries := index.entries;
    var g := Group(entries);
    var link := SubtreeLink(g.subtrees, sha);
    var l1 := Linked(entries, s1, sha);
    var l2 := Linked(entries, s2, sha);
    EnumerationsPermute(s1, s2, g.subtrees.Keys);
    forall i | 0 <= i < |t1|
      ensures multiset(RootPart(l1, sha)(t1[i])) == multiset(RootPart(l2, sha)(t1[i]))
    {
      var key := t1[i];
      LinkWithPermutation(g.trees, s1, s2, ParentKey, link, key);
      RootPartPermutation(l1, l2, sha, key);
    }
    FlatMapPointwise(RootPart(l1, sha), RootPart(l2, sha), t1);
    EnumerationsPermute(t1, t2, g.trees.Keys);
    FlatMapPermutation(RootPart(l2, sha), t1, t2);
    TreeBytesCanonical(RootEntries(entries, s1, t1, sha), RootEntries(entries, s2, t2, sha));
  }
}
